=== FILE: README.md ===
# Primeira Chance dashboard: the data pipeline, modelled in Dafny

The dashboard reports, for the state schools of Pernambuco, how many third-year
students are enrolled (MATRICULAS) and how many have registered (INSCRITOS).
It computes an efficiency rate, `TAXA_EFICIENCIA` = INSCRITOS / MATRICULAS × 100,
clipped to [0, 100]. Each rate gets a category:

- "Excelente" when the rate is at least 85;
- "Médio" from 50 up to 85;
- "Baixo" below 50.

The dashboard shows schools, cities or regional boards (GREs).

This project models the logic behind the dashboard:

- **Loader.** `load_data` cleans the spreadsheet into a table of schools. When the fetch or the cleaning fails, it falls back to a synthetic table.
- **Sample.** `create_sample_data` builds that synthetic table. The random draws are inputs.
- **Rows.** The rate and category rule, and the normalised row every view reads.
- **Prepare.** `prepare_dataframe` applies the GRE and city filters. For the city and GRE views it sums both counts per key and recomputes the rate from the sums.
- **Metrics.** The metric cards, the summary card, the top five and the priority list with its potential gain.
- **Details.** The per-category blocks, and the column selection, renaming, rounding, order and height of the data table.
- **Charts.** The data of the category pie, of the per-GRE chart (which averages row rates) and of the ranking bars. This includes the page's sort of the grouped table.
- **Insights.** The counts, shares, observations and recommendations.
- **Sidebar.** The GRE and city option lists, the filters returned, and the download copy.
- **Examples.** A worked example on two schools of one GRE. The two schools are 40 of 100 and 9 of 10.
  - The grouped GRE row rates the GRE by the ratio of its sums: 49 / 110 ≈ 44.5 %, which is "Baixo".
  - The GRE chart shows the mean of the schools' rates: 65 %.

Counts are integers. Rates are exact reals, so `rate >= 85` means exactly what it says. `round(1)` is rounding to the nearest tenth with halves upward. Python's `int(x)` is truncation toward zero.

The page passes the school-level `filtered_df` to the metric cards, the top five and the priority list in every view (app.py:200, 215, 221). It never calls `display_summary_card` or `display_insights_recommendations`; both are modelled as the functions they are, taking `filtered_df`. The model's view functions therefore take a sequence of rows, whichever table the caller chooses.

## Model

| member | source | states |
|---|---|---|
| Rows.Rate | data_loader.py:86 | The rate lies in [0, 100]. When 0 ≤ INSCRITOS ≤ MATRICULAS it is exactly 100·INSCRITOS/MATRICULAS. It is 100 when INSCRITOS ≥ MATRICULAS and 0 when INSCRITOS ≤ 0. |
| Rows.CategorizeBands | utils.py:60-69 | `calculate_efficiency_category` gives "Excelente" iff rate ≥ 85, "Médio" iff 50 ≤ rate < 85, and "Baixo" iff rate < 50. |
| Rows.Categorize | utils.py:60-69 | The if-chain never yields "N/A". |
| Rows.SelectLabel | data_loader.py:89-95 | The `np.select` labelling equals `calculate_efficiency_category` for every rate, so its "N/A" default is unreachable. |
| Rows.CategoryFromCounts | data_loader.py:86-95 | The category of a computed rate can be read off the counts. It is "Excelente" iff 100·INSCRITOS ≥ 85·MATRICULAS and "Baixo" iff 100·INSCRITOS < 50·MATRICULAS. |
| Rows.Members | utils.py:78-79 | The rows whose key column holds the key: exactly those of the input with that key, never more rows than the input. |
| Rows.InCategory | details.py:11 | The rows with a given CATEGORIA: exactly those of the input with it. |
| Rows.MembersMultiplicity | utils.py:78-79 | `df[df[column] == key]` keeps every copy of each matching row and no copy of any other row. |
| Rows.InCategoryMultiplicity | details.py:11 | `df[df['CATEGORIA'] == c]` keeps every copy of each row of category c and no copy of any other row. |
| Rows.InCategoryCount | details.py:11 | The length of the rows of category c is the number of table positions holding category c. |
| Rows.TruncateBounds | insights.py:43 | `int(x)` is the integer part of x taken toward zero. For x ≥ 0 it is the floor; for x ≤ 0 it is the ceiling. |
| Rows.Round1 | sidebar.py:56 | A value rounded to a tenth stays within 0.05 of the exact value, and is itself a whole number of tenths. |
| Rows.Round1Monotonic | details.py:102 | Rounding keeps the order of rates (ties may appear). |
| Rows.Round1Bounds | sidebar.py:56 | Rounding keeps a rate within [0, 100]. |
| Sample.GresAreOneToSixteen | utils.py:17 | The GRE list is "1" … "16". |
| Sample.BandFacts | utils.py:35-45 | The rates drawn fall in these bands: band 3 in [85, 100), band 2 in [50, 85), band 1 in [10, 50). Each band's label is the category of its rate. |
| Sample.RegisteredWithinEnrolled | utils.py:39 | `int(matriculas * (taxa / 100))` lies between 0 and MATRICULAS for a rate below 100. |
| Sample.DrawRate | utils.py:37-45 | The if-chain on the band yields the band's rate and the truncated count of registrations. |
| Sample.SampleRowFacts | utils.py:28-55 | School i is named "Escola Estadual i". Its GRE and city come from the lists and 30 ≤ MATRICULAS < 300. Also 0 ≤ INSCRITOS ≤ MATRICULAS, the rate lies in the drawn band, and CATEGORIA is the category of that rate. |
| Sample.SampleRows | utils.py:27-55 | Row k is built from the k-th draw and is school k+1. |
| Sample.SampleTableFacts | utils.py:27-57 | The table has the seven columns and one row per draw, row k named "Escola Estadual k+1". Every row is valid and of the shape above. |
| Sample.MakeSchool | utils.py:29-55 | One loop iteration builds `SampleRow` of its draw, and that row has the promised shape. |
| Sample.CreateSampleData | utils.py:12-57 | The loop appends 150 schools, and the result is the table of the draws. |
| Loader.DropEmptyRows | data_loader.py:45 | Keeps the header. A row survives iff not all of its cells are missing. |
| Loader.DropEmptyRowsKeepsEveryCopy | data_loader.py:45 | Every copy of a row with a cell survives, and no copy of an all-missing row does. |
| Loader.PromoteHeaderCases | data_loader.py:48-52 | If GRE or CIDADE is not a column and there is a row, the first row's labels become the header and that row leaves the data; every text of that row is then a column label, so a sheet whose header sits in its first data row gets GRE and CIDADE back. Otherwise the table is unchanged. |
| Loader.Labels | data_loader.py:51 | The new header holds one label per cell of the first row, in order, each cell written as text. |
| Loader.RenameLabel | data_loader.py:55-65 | "MATRÍCULAS DE 3ª SÉRIE" becomes MATRICULAS. Every other label is kept. |
| Loader.RenameHeaderMatriculas | data_loader.py:55-65 | After renaming, MATRICULAS is a column iff it or the long label was one. Every other label is a column iff it was before. |
| Loader.RenameColumns | data_loader.py:65 | Renaming changes the header only, never the rows. |
| Loader.UpdateColumn | data_loader.py:69 | A column assignment changes only that column's cells, through the given function. A table without the column is unchanged. |
| Loader.MapColumn | data_loader.py:69 | Each row changes at the column's position only, through the given function. |
| Loader.GreText | data_loader.py:68-69 | Every GRE cell becomes text. |
| Loader.GreTextOfNumber | data_loader.py:68-69 | A GRE read as the number n and one read as the text "n.0" both normalise to the text of n. |
| Loader.GreTextRemovesEveryDotZero | data_loader.py:69 | Every ".0" is removed, not only a trailing one: "7.0" becomes "7", "3.0.0" becomes "3" and "1.05" becomes "15". |
| Loader.ParseCountOfIntToString | data_loader.py:75 | Coercing the text of a whole number gives that number back. |
| Loader.ParseCountOfFloatText | data_loader.py:75 | Coercing "n.0" gives n. |
| Loader.ParseCountRejects | data_loader.py:75 | "", "abc" and "-" coerce to missing. "12.5" also becomes missing, because it is outside the modelled whole-number texts. |
| Loader.ToNumeric | data_loader.py:75 | A coerced cell is a number or missing. Numbers and missing cells are kept. A text becomes missing iff it does not parse. |
| Loader.CoercedColumns | data_loader.py:72-75 | After the loop no INSCRITOS or MATRICULAS cell is text. |
| Loader.CoerceKeepsOtherColumns | data_loader.py:72-75 | The loop leaves every other column's cells as they were. |
| Loader.KeepValid | data_loader.py:78-80 | A row survives iff its MATRICULAS is a positive number and, when GRE is a column, its GRE is not "0". |
| Loader.KeepValidKeepsEveryCopy | data_loader.py:78-80 | The two masks keep every copy of a row that passes both, and no copy of any other row. |
| Loader.KeptCountable | data_loader.py:78-83 | Every row that survives the filter and the fill has a positive MATRICULAS. |
| Loader.KeptGreNotZero | data_loader.py:79-83 | Once GRE cells are text, no surviving row has GRE "0". |
| Loader.Fill | data_loader.py:83 | A missing cell becomes 0. Other cells are kept. |
| Loader.FillMissing | data_loader.py:83 | Every cell of the table is filled, nothing else changes. |
| Loader.UnreadableCounts | data_loader.py:72-83 | An unreadable or missing INSCRITOS ends as 0. An unreadable MATRICULAS is not positive, so its row is dropped before the fill. "40.0" reads as 40. |
| Loader.ToRow | data_loader.py:86-95 | MATRICULAS is positive. The rate is the clipped rate of INSCRITOS (0 when unreadable) over MATRICULAS, and the row carries its category. |
| Loader.ToRows | data_loader.py:86-95 | One valid row per table row, in order. |
| Loader.ToFrame | data_loader.py:86-95 | The frame's columns are the old ones plus the two new ones. Row i of the frame is the conversion of table row i, and every row is valid. |
| Loader.FrameColumns | data_loader.py:86-95 | The frame has every old column plus TAXA_EFICIENCIA and CATEGORIA, and nothing else. |
| Loader.Clean | data_loader.py:44-97 | Cleaning succeeds iff MATRICULAS and INSCRITOS are columns after renaming; a missing one is the KeyError. On success every row is valid and both new columns exist. |
| Loader.CleanTable | data_loader.py:44-97 | The stage-by-stage reassignment with the coercion loop computes `Clean`. |
| Loader.NormalizeTable | data_loader.py:44-75 | The stages before the row filters, with the coercion loop, compute the normalised table. |
| Loader.CleanedRows | data_loader.py:44-97 | On success, row i of the frame comes from row i of the filtered, filled table. Its GRE, CIDADE and ESCOLA are that row's text, its MATRICULAS is positive, and its INSCRITOS is taken over. Its rate and category are those of its own two counts. The columns are the normalised header plus the two new ones. |
| Loader.CleanedRowsConsistent | data_loader.py:86-95 | Every row of a loaded frame has a positive MATRICULAS and carries the rate and category of its own counts. |
| Loader.NormalizedGreIsText | data_loader.py:68-75 | After normalisation every GRE cell is text. |
| Loader.CleanedGreNotZero | data_loader.py:79-80 | When GRE is a column, no cleaned row has GRE "0". |
| Loader.LoadedValid | data_loader.py:23-42 | The dashboard always receives valid rows. A failed fetch or a failed cleaning yields the synthetic table; a successful cleaning yields the cleaned table. |
| Loader.LoadData | data_loader.py:99-101 | `load_data` returns the cleaned table, or the synthetic table on any failure. |
| Prepare.GroupColumn | utils.py:86-105 | `column_name` is ESCOLA for "Escolas", CIDADE for "Cidades" and GRE for any other option. |
| Prepare.PrepareDataframe | utils.py:72-116 | `column_name` follows the view. A row is in `filtered_df` iff it passes the GRE filter ("Todas" passes all) and, in the school view only, the city filter. Both results are valid tables. |
| Prepare.FilterAllKeepsEverything | utils.py:77-83 | With "Todas" for the GRE (and for the city in the school view) `filtered_df` is the input table. |
| Prepare.CityFilterIgnored | utils.py:82-83 | Outside the school view the city filter does not change the result. |
| Prepare.FilteredKeepsEveryCopy | utils.py:76-83 | As a multiset, `filtered_df` is exactly the input rows that pass the GRE filter and, in the school view, the city filter: every copy of a passing row is kept, no copy of another row. |
| Prepare.SchoolsGroupedIsFiltered | utils.py:86-89 | In the school view `grouped_df` is `filtered_df`. |
| Prepare.Recategorize | utils.py:107-114 | Re-labelling a row gives a consistent row iff its rate is in [0, 100], and leaves an already consistent row unchanged. |
| Prepare.RecategorizeAll | utils.py:107-114 | Every row is re-labelled, in order. |
| Prepare.GroupRow | utils.py:92-104 | A grouped row carries the key, the two sums, the clipped rate of the sums and that rate's category. |
| Prepare.Aggregate | utils.py:92-104 | The row of a key carries ΣINSCRITOS and ΣMATRICULAS of that key's rows. The second sum is positive. |
| Prepare.GroupRows | utils.py:92-104 | One aggregated row per key, in the order of the keys. |
| Prepare.GroupKeys | utils.py:92-104 | `groupby` keys are ascending, without repeats, and exactly the keys that occur. |
| Prepare.GroupedOnePerKey | utils.py:92-114 | In the city and GRE views there is one grouped row per distinct key, the keys ascending. Each row carries its key's sums, the clipped rate of the sums, and that rate's category. |
| Prepare.GroupedTotals | utils.py:92-104 | Grouping keeps ΣINSCRITOS and ΣMATRICULAS. |
| Prepare.GroupRowsTotal | utils.py:92-104 | The totals over the grouped rows are the per-key totals of the input. |
| Prepare.KeyTotalCovers | utils.py:92-104 | Summing per distinct key over keys that cover every row gives the table's total. |
| Metrics.GlobalRate | metrics.py:11-13 | The global rate is 100·ΣINSCRITOS/ΣMATRICULAS, and 0 when ΣMATRICULAS is not positive. |
| Metrics.GlobalRateOfGrouped | metrics.py:11-13 | The global rate of `grouped_df` equals that of `filtered_df`. |
| Metrics.EntityCount | metrics.py:35 | The entity count is the number of distinct values of `column_name`. It is at most the row count and at least 1 for a non-empty table. |
| Metrics.ExcellentCount | metrics.py:49 | `excelentes` is the length of the "Excelente" rows, at most the row count; `Metrics.ExcellentCountCountsRows` proves what that number counts. |
| Metrics.ExcellentCountCountsRows | metrics.py:49 | `excelentes` is the number of table positions whose CATEGORIA is "Excelente" (repeated rows count each time). It is 0 iff no row is "Excelente" and the row count iff every row is. |
| Metrics.ExcellentShare | metrics.py:50 | The share of "Excelente" rows, in [0, 100], and 0 for an empty table. |
| Metrics.DisplayName | metrics.py:69-76 | The name gets "GRE " before a GRE. A name of at most 20 characters is kept. A longer one becomes its first 18 characters and "...". |
| Metrics.Best | metrics.py:64-66 | The best row has the maximum rate and is the first row that attains it. A non-empty table is required. |
| Metrics.BestCard | metrics.py:64-76 | An empty table has no best card: `idxmax` raises `ValueError`. Otherwise the card shows the maximum rate and the display name of the first row that attains it. |
| Metrics.MeanRate | metrics.py:93 | The mean is NaN (`None`) iff the table is empty; otherwise mean × n = Σ rates. |
| Metrics.MeanRateBounds | metrics.py:93 | A mean of rates in [0, 100] lies in [0, 100]. |
| Metrics.SummaryStatus | metrics.py:97-105 | The status is "Excelente", "Médio" or "Preocupante" exactly as the mean's category is "Excelente", "Médio" or "Baixo". NaN gives "Preocupante". |
| Metrics.TopPerformers | metrics.py:147-155 | An empty table gives the message. Otherwise min(5, n) rows of the table, none listed more often than it occurs, are ranked 1..k, highest rate first, and no row left out has a higher rate than one listed. Of rows with equal rate, the listed ones are the first ones of the table, in table order (`keep='first'`). |
| Metrics.RankFrom | metrics.py:155-164 | Entries are ranked consecutively, named with the "GRE " prefix for GRE. |
| Metrics.PriorityAttention | metrics.py:189-199 | An empty table gives nothing. A table without low performers gives the message. Otherwise the list holds min(5, n) of the low performers ("Baixo" and more than 50 enrolled), none listed more often than it occurs, of largest MATRICULAS, largest first. No low performer left out has a larger MATRICULAS than one listed. Of low performers with equal MATRICULAS, the listed ones are the first ones in table order, in that order. |
| Metrics.PriorityListed | metrics.py:194-197 | The `nlargest` of the low performers lists a sub-multiset of the low performers of the table, MATRICULAS descending, none left out larger than one listed, and of equal MATRICULAS the first ones in table order. |
| Common.TopN | metrics.py:153 | `nlargest(n)` with `keep='first'`: min(n, len) elements of the input (a sub-multiset), key descending, no element left out with a larger key than one listed, and for every key the listed elements of that key are the first ones of the input, in input order. |
| Metrics.PriorityItems | metrics.py:200-213 | Each listed row carries its potential gain. |
| Metrics.PotentialGainBounds | metrics.py:212-213 | For a rate below 50 the potential gain lies between 0 and MATRICULAS / 2. |
| Metrics.PriorityGains | metrics.py:194-213 | In a valid table every listed row is below 50 %, and its gain lies between 0 and half its MATRICULAS. |
| Details.RatioOrZero | details.py:16 | The block rate is 100·ΣINSCRITOS/ΣMATRICULAS, and 0 when ΣMATRICULAS is not positive. |
| Details.Share | details.py:39 | The share of the total is count/total·100, in [0, 100]. |
| Details.MakeBlock | details.py:11-39 | A block reports its category's row count, sums, rate of the sums and share of rows. |
| Details.BlockIf | details.py:10-13 | A category has a block iff it has rows, and the block is its aggregate. |
| Details.CategoryBlocks | details.py:10-17 | At most three blocks, each non-empty and equal to its category's aggregate. |
| Details.CategoryBlocksLayout | details.py:10 | Blocks appear in the order Excelente, Médio, Baixo. |
| Details.CategoryBlocksShown | details.py:10-13 | A block exists for a category iff it is not "N/A" and has rows. Blocks are strictly in the order Excelente, Médio, Baixo. |
| Details.CategoryCountsCover | details.py:10-17 | In a table without "N/A" the three blocks count every row once. |
| Details.CategorySumsInBand | details.py:14-16 | For rows whose rate is the rate of their own counts, as cleaned rows are, the sums of a category's rows stay in its band: 100·ΣINS ≥ 85·ΣMAT for "Excelente", in [50, 85)·ΣMAT for "Médio", below 50·ΣMAT for "Baixo". |
| Details.BlockRateInBand | details.py:14-16 | For rows whose rate is the rate of their own counts, as cleaned rows are, the rate a block shows lies in its category's band. |
| Details.LoadedBlockInBand | details.py:14-16 | For a frame produced by a successful cleaning, a non-empty category's summed counts and block rate lie in that category's band. |
| Details.Present | details.py:65-67 | Exactly the listed columns the table has. For a list without repeats, each appears once, in the list's order. |
| Details.SelectedColumnsFacts | details.py:53-67 | Every selected column exists. In the school view, GRE is at position 0 when present and CIDADE follows it when present. Next comes `column_name` when present. From there on come exactly the metric columns the table has, each once, in the fixed order. |
| Details.SelectColumns | details.py:53-67 | The appends build `SelectedColumns`: the leading columns, then the present metric columns. |
| Details.AppendPresent | details.py:65-67 | The loop appends exactly the present metric columns. |
| Details.StripTrailing | details.py:94 | `rstrip('s')` removes the trailing run of 's' and nothing else. |
| Details.DisplayHeaders | details.py:82-98 | Each selected column is shown under its mapped display name. |
| Details.TableCells | details.py:75-79 | One row of cells per table row, each cell the row's value in that column, with "GRE " before a GRE in the GRE view. |
| Details.RoundColumn | details.py:102 | The rate is rounded in every row. |
| Details.TableHeight | details.py:113 | The height is min(400, 100 + 35n), so it lies in [100, 400]. |
| Details.DataTable | details.py:45-114 | With fewer than three selected columns the table is the error message. Otherwise headers are the display names, there is one row per table row, and the height is as above. |
| Details.DataTableSorted | details.py:101-110 | With a rate column, the rows shown are a permutation of the table's rows with the rate rounded, ordered by that rate, highest first. |
| Details.RateCellRounded | details.py:102 | The rate cell holds TAXA_EFICIENCIA rounded to a tenth. |
| Details.DataTableAsWrittenRaises | details.py:115-194 | Whenever the table is rendered for a `column_name` the page produces, the function as written then raises. |
| Details.NoHeaderIsMatriculas | details.py:82-98 | After renaming, no header is "MATRICULAS". |
| Charts.SliceIf | visualizations.py:199-204 | A category has a slice iff it occurs. The slice holds its count and its share. |
| Charts.Distribution | visualizations.py:199-213 | At most four slices. Each has a positive count equal to its category's rows, and percent = count/n·100. |
| Charts.DistributionLayout | visualizations.py:207-213 | Slices are ordered Excelente, Médio, Baixo, then "N/A". |
| Charts.DistributionShown | visualizations.py:199-213 | A category has a slice iff it occurs; slices are strictly in the category order with "N/A" last. |
| Charts.DistributionCount | visualizations.py:199-200 | The quantities sum to the number of rows. |
| Charts.DistributionPercent | visualizations.py:203-204 | The percentages sum to 100 for a non-empty table. |
| Charts.GreAnalysis | visualizations.py:266-277 | There is no analysis iff GRE is not a column. Otherwise there is one entry per GRE, in ascending GRE order. |
| Charts.GreStatOf | visualizations.py:269-277 | A GRE's entry holds the mean of its rows' rates (not the ratio of sums) rounded to a tenth, ΣINSCRITOS, ΣMATRICULAS, and its row count. |
| Charts.GreStats | visualizations.py:269-277 | One entry per key, in the order of the keys. |
| Charts.GreAnalysisGres | visualizations.py:269-274 | The entries' GREs are the sorted distinct GREs. |
| Charts.GreAnalysisEntries | visualizations.py:269-274 | Every entry is a GRE of the table, and every GRE of the table has an entry. The GREs are strictly ascending. |
| Charts.GreAnalysisMeans | visualizations.py:270-277 | Over a valid table every rounded mean lies in [0, 100]. |
| Charts.GreAnalysisTotals | visualizations.py:271-272 | The entries keep the table's totals of INSCRITOS and MATRICULAS. |
| Charts.GreAnalysisChart | visualizations.py:280-290 | The bars are the entries permuted and sorted by mean ascending. The height is min(400, 50 + 25n). |
| Charts.SortGrouped | app.py:189-194 | The grouped table, sorted on the chosen column, is a permutation of it in descending order. |
| Charts.Ranking | visualizations.py:127-164 | The bars are a permutation of the rows. Schools are ascending by rate with height min(500, 100 + 25n). Cities and GREs are descending with height 400. |
| Charts.RankingBestPlaced | visualizations.py:130-154 | The row of highest rate is drawn last for schools and first otherwise. |
| Insights.Below50 | insights.py:9 | Exactly the rows with a rate below 50. |
| Insights.Above85 | insights.py:11 | Exactly the rows with a rate of at least 85. |
| Insights.Below50Rows | insights.py:9 | `escolas_abaixo_50` keeps every copy of a row below 50 and nothing else, and counts the table positions below 50. |
| Insights.Above85Rows | insights.py:11 | `escolas_acima_85` keeps every copy of a row at or above 85 and nothing else, and counts the table positions at or above 85. |
| Insights.Pct | insights.py:10-12 | The share is count/n·100 in [0, 100], and 0 when n = 0. |
| Insights.BelowAboveDisjoint | insights.py:9-11 | The two counts add up to at most the row count. |
| Insights.SharesExclusive | insights.py:36-39 | The two shares add up to at most 100, so both cannot exceed 50. |
| Insights.SharesAreCategories | insights.py:9-11 | In a valid table the rows below 50 are its "Baixo" rows and those at or above 85 its "Excelente" rows. |
| Insights.PotentialIsHalf | insights.py:42-43 | The potential is half the MATRICULAS of the rows below 50, rounded down. |
| Insights.OverallObservation | insights.py:28-33 | The first observation: excellent iff mean ≥ 85, medium iff 50 ≤ mean < 85, below iff mean < 50 or NaN. |
| Insights.Observations | insights.py:25-43 | There are 2 or 3 observations. The overall one comes first and the potential last. A third one appears iff a share exceeds 50 (strictly); the excellent share takes precedence. |
| Insights.BuildObservations | insights.py:25-43 | The conditional appends build exactly `Observations`. |
| Insights.OverallAgreesWithSummary | insights.py:28-33 | The first observation agrees with the summary card's status. |
| Insights.Recommendations | insights.py:60-65 | Exactly four recommendations; the second names the number of table positions with a rate below 50. |
| Sidebar.GreOptions | sidebar.py:21-26 | "Todas" first, then strictly ascending GREs. A GRE is offered iff some row has it. |
| Sidebar.RowsOfGre | sidebar.py:29-31 | `temp_df` is every row for "Todas", else exactly the rows of the chosen GRE. |
| Sidebar.CityOptions | sidebar.py:29-41 | A city list exists iff the view is "Escolas". It is "Todas" then the strictly ascending cities of `temp_df`, each offered iff a row of `temp_df` has it. |
| Sidebar.CreateSidebar | sidebar.py:13-41 | Returns the picked view and GRE. `filtro_cidade` is the picked city in the school view and "Todas" otherwise. |
| Sidebar.PickedFiltersKeepRows | sidebar.py:21-41 | A GRE or city picked from the offered lists never filters the table down to nothing. |
| Sidebar.SidebarFiltersAreUsable | sidebar.py:13-41 | The returned filters meet every column `prepare_dataframe` indexes, given the loader's columns. |
| Sidebar.DownloadRows | sidebar.py:54-56 | The download copy differs from the table only in TAXA_EFICIENCIA, rounded to a tenth. |
| Sidebar.Download | sidebar.py:54-56 | The copy keeps the columns and rounds every row. |
| Sidebar.DownloadRatesBounded | sidebar.py:56 | Rounded rates stay in [0, 100] and within 0.05 of the exact rate. |
| Sidebar.DownloadCanCrossThreshold | sidebar.py:56 | The copy keeps the category computed from the exact rate. 84.96 % is "Médio" and is written as 85.0. |
| Examples.SchoolsAreValid | data_loader.py:86-95 | The two example schools are valid rows: 40 % and 90 % are the rates of their counts. |
| Examples.PairSums | utils.py:92-104 | The sums over the two schools are 110 enrolled and 49 registered, the rates add to 130, and the mean is 65. |
| Examples.PairKeys | utils.py:100 | The two schools form the single GRE "7". |
| Examples.RatioOfSums | utils.py:98-114 | The two schools form one grouped GRE row: 49 of 110, rate × 110 = 4900, "Baixo". |
| Examples.MeanOfRates | metrics.py:93 | The mean of the two schools' rates is 65 %, which is "Médio". |
| Examples.GreChartShowsMean | visualizations.py:269-277 | The GRE chart's entry for the same schools shows the mean 65.0 with the same sums and 2 schools. |
| Examples.SampleBlockOutOfBand | utils.py:36-38 | A synthetic school with 30 enrolled and a drawn rate of 85.5 is "Excelente" with 25 registered, so its category block (details.py:14-16) shows a rate below 85. |

## Left out

- Fetching: the CSV download, gspread and the service-account secrets, and the `st.cache_data` time-to-live (data_loader.py:10-42). The fetch is an input that is either a table or a failure, and an exception inside the cleaning is an `Err`.
- Randomness: the numpy draws of `create_sample_data` are inputs (`Sample.Draw`). The model does not capture their probabilities (30/45/25 %).
- Rendering: Plotly figures, colours, Streamlit widgets and the HTML strings. Each chart or card is the data it shows. The radio, select boxes and checkbox are inputs: the options the user picks.
- Number formatting: `:,` and `:.1f` in the texts, and `display_option.lower()` in the observation sentences. An observation is its kind and the number it shows.
- Floating point: rates are exact reals. `round(1)` is rounding half upward on exact reals, not numpy's round-half-even on binary floats.
- Coercion: `pd.to_numeric` is modelled for whole numbers written as `[-]digits`, optionally followed by "." and zeros. Other numeric texts (decimals, exponents, spaces) become missing. Cells read as numbers are whole numbers.
- Loader.ToNumeric: a decimal text such as "12.5", which pandas reads as 12.5, becomes missing in the model (see Coercion above).
- Loader.Labels: pandas keeps the first row's cells as labels as they are: a number stays a number, and a missing cell becomes a NaN label. The model writes each cell as text ("nan" for a missing one). Every label looked up later is text, so the lookups agree.
- Column labels: duplicate column labels are not modelled, and only the seven known columns have values in a row. Extra columns are kept as labels only.
- Mixed types: `fillna(0)` on a GRE, CIDADE or ESCOLA cell gives the number 0. The model keeps the text "0".
- KeyError: downstream views that index GRE, CIDADE, ESCOLA or the counts unconditionally require those columns; `Charts.GreAnalysis` requires ESCOLA whenever GRE is a column, which the cleaning does not guarantee. Only the cleaning models the KeyError as an error value.
- Sorting: pandas' `sort_values` is not stable by default. The model sorts stably, which is one of the orders it may produce. `nlargest` with its default `keep='first'` does keep the first of tied rows in row order, and the model states that (`Common.TopN`).
- Prepare.PrepareDataframe: states which rows `filtered_df` holds, and `Prepare.FilteredKeepsEveryCopy` how many copies of each, but not that they keep the input's relative order (the model's filter does keep it).
- Details.DataTable: without a rate column the source sorts by the first column, descending. The model keeps the rows in table order in that case and states nothing about it.
- Details.BlockRateInBand: the property holds for cleaned tables only (`Details.LoadedBlockInBand` states it for them). A block of the synthetic table can show a rate outside its category's band, because there the rate is the drawn `taxa` and INSCRITOS is truncated from it (`Examples.SampleBlockOutOfBand`).
- Summary statistics: the median, minimum and maximum shown on the summary card (metrics.py:94, 136-140).
- Other charts: `create_efficiency_map` with its `x_min`/`x_max` scaling, and `create_mini_histogram`.
- Sidebar extras: the `sort_by` and `show_details` choices are passed through, and `sort_by` is modelled in `Charts.SortGrouped`. The CSV encoding of the download is left out.
- Pie categories: an "N/A" category outside the pie's ordered categories becomes a missing category that the sort puts last. It is modelled as the `NotAvailable` slice, last.

## Findings

| source | as written | input that shows it | evidently intended | confidence | as-written member | corrected member |
|---|---|---|---|---|---|---|
| details.py:115-194 | After rendering the table, `display_data_table` goes on through two pasted copies of its body. They index the renamed table by the old labels (`column_name`, 'MATRICULAS', …), which now read 'Escola', 'Matriculados', …, so the selection raises KeyError. | Any table that renders, e.g. the school view of a table with ESCOLA, MATRICULAS, INSCRITOS, TAXA_EFICIENCIA and CATEGORIA: the selection at line 126 asks for 'MATRICULAS', which is now 'Matriculados'. | The function ends after showing the table at line 114. | high; not executed | Details.DataTableAsWritten (Details.DataTableAsWrittenRaises) | Details.DataTable |

=== FILE: charts.dfy ===
/**
 * The data behind the charts: the category distribution, the per-GRE
 * analysis, and the order and height of the ranking bars (with the order
 * the page gives the grouped table before charting it). Plotly itself is
 * left out; each chart is the data it draws.
 */
module Charts {
  import opened Common
  import opened Rows
  import opened Prepare
  import opened Metrics
  import opened Details

  // ---------------------------------------------------------------------------
  // `create_category_distribution`
  // ---------------------------------------------------------------------------

  /** One slice of the pie: `Categoria`, `Quantidade`, `Percentual`. */
  datatype Slice = Slice(category: Category, count: nat, percent: real)

  /** The fixed `category_order` the chart is returned with. */
  const CategoryOrder: seq<string> := ["Excelente", "Médio", "Baixo"]

  /** The slice of a category, or nothing when no row has it (`value_counts` lists only values that occur). */
  function SliceIf(rows: seq<Row>, c: Category): (ss: seq<Slice>)
    ensures |ss| <= 1
    ensures ss == [] <==> InCategory(rows, c) == []
    ensures ss != [] ==> |rows| > 0 && ss[0] == Slice(c, |InCategory(rows, c)|, Share(|InCategory(rows, c)|, |rows|))
  {
    var n := |InCategory(rows, c)|;
    if n > 0 then [Slice(c, n, Share(n, |rows|))] else []
  }

  /**
   * `category_counts` after sorting on the ordered categorical: Excelente,
   * Médio, Baixo; a label outside `category_order` ("N/A") becomes a missing
   * category, which the sort puts last.
   */
  function Distribution(rows: seq<Row>): (ds: seq<Slice>)
    ensures |ds| <= 4
    ensures forall i :: 0 <= i < |ds| ==>
              && ds[i].count == |InCategory(rows, ds[i].category)| && ds[i].count > 0
              && ds[i].percent == Share(ds[i].count, |rows|)
  {
    var e := SliceIf(rows, Excelente);
    var m := SliceIf(rows, Medio);
    var b := SliceIf(rows, Baixo);
    var na := SliceIf(rows, NotAvailable);
    SlicesCounted(rows, e, m, b, na);
    e + m + b + na
  }

  /** A slice whose count and percentage are those of its category in `rows`. */
  predicate Counted(rows: seq<Row>, s: Slice)
  {
    && |rows| > 0 && s.count == |InCategory(rows, s.category)| && 0 < s.count <= |rows|
    && s.percent == Share(s.count, |rows|)
  }

  /** Four runs of at most one counted slice each, put one after the other. */
  lemma SlicesCounted(rows: seq<Row>, e: seq<Slice>, m: seq<Slice>, b: seq<Slice>, na: seq<Slice>)
    requires |e| <= 1 && |m| <= 1 && |b| <= 1 && |na| <= 1
    requires e != [] ==> Counted(rows, e[0])
    requires m != [] ==> Counted(rows, m[0])
    requires b != [] ==> Counted(rows, b[0])
    requires na != [] ==> Counted(rows, na[0])
    ensures forall i :: 0 <= i < |e + m + b + na| ==> Counted(rows, (e + m + b + na)[i])
  {
    var ds := e + m + b + na;
    forall i | 0 <= i < |ds| ensures Counted(rows, ds[i]) {
      if i < |e| { assert ds[i] == e[0]; }
      else if i < |e| + |m| { assert ds[i] == m[0]; }
      else if i < |e| + |m| + |b| { assert ds[i] == b[0]; }
      else { assert ds[i] == na[0]; }
    }
  }

  /** Where each category's slice sits. */
  lemma DistributionLayout(rows: seq<Row>)
    ensures var e := SliceIf(rows, Excelente);
            var m := SliceIf(rows, Medio);
            var b := SliceIf(rows, Baixo);
            var ds := Distribution(rows);
            && |ds| == |e| + |m| + |b| + |SliceIf(rows, NotAvailable)|
            && forall i :: 0 <= i < |ds| ==>
                 ds[i].category == (if i < |e| then Excelente else if i < |e| + |m| then Medio
                                    else if i < |e| + |m| + |b| then Baixo else NotAvailable)
  {
    var e := SliceIf(rows, Excelente);
    var m := SliceIf(rows, Medio);
    var b := SliceIf(rows, Baixo);
    var na := SliceIf(rows, NotAvailable);
    var ds := Distribution(rows);
    assert ds == e + m + b + na;
    forall i | 0 <= i < |ds|
      ensures ds[i].category == (if i < |e| then Excelente else if i < |e| + |m| then Medio
                                 else if i < |e| + |m| + |b| then Baixo else NotAvailable)
    {
      if i < |e| {
        assert ds[i] == e[i];
      } else if i < |e| + |m| {
        assert ds[i] == m[i - |e|];
      } else if i < |e| + |m| + |b| {
        assert ds[i] == b[i - |e| - |m|];
      } else {
        assert ds[i] == na[i - |e| - |m| - |b|];
      }
    }
  }

  /**
   * There is one slice per category that occurs and none for the others,
   * ordered Excelente, Médio, Baixo, with the missing category last.
   */
  lemma DistributionShown(rows: seq<Row>, c: Category)
    ensures (exists i :: 0 <= i < |Distribution(rows)| && Distribution(rows)[i].category == c)
            <==> InCategory(rows, c) != []
    ensures forall i, j :: 0 <= i < j < |Distribution(rows)| ==>
              Rank(Distribution(rows)[i].category) < Rank(Distribution(rows)[j].category)
  {
    var e := SliceIf(rows, Excelente);
    var m := SliceIf(rows, Medio);
    var b := SliceIf(rows, Baixo);
    var na := SliceIf(rows, NotAvailable);
    var ds := Distribution(rows);
    DistributionLayout(rows);
    SlicesShown(e, m, b, na, ds, c, InCategory(rows, c) != []);
    SlicesRanked(e, m, b, na, ds);
  }

  /** Slices laid out Excelente, Médio, Baixo, "N/A", with the slices present given. */
  predicate SlicesLaidOut(e: seq<Slice>, m: seq<Slice>, b: seq<Slice>, na: seq<Slice>, ds: seq<Slice>)
  {
    && |e| <= 1 && |m| <= 1 && |b| <= 1 && |na| <= 1 && |ds| == |e| + |m| + |b| + |na|
    && forall i :: 0 <= i < |ds| ==>
         ds[i].category == (if i < |e| then Excelente else if i < |e| + |m| then Medio
                            else if i < |e| + |m| + |b| then Baixo else NotAvailable)
  }

  lemma SlicesShown(e: seq<Slice>, m: seq<Slice>, b: seq<Slice>, na: seq<Slice>, ds: seq<Slice>,
                    c: Category, has: bool)
    requires SlicesLaidOut(e, m, b, na, ds)
    requires c == Excelente ==> (e != [] <==> has)
    requires c == Medio ==> (m != [] <==> has)
    requires c == Baixo ==> (b != [] <==> has)
    requires c == NotAvailable ==> (na != [] <==> has)
    ensures (exists i :: 0 <= i < |ds| && ds[i].category == c) <==> has
  {
    if has {
      var i := if c == Excelente then 0 else if c == Medio then |e|
               else if c == Baixo then |e| + |m| else |e| + |m| + |b|;
      assert ds[i].category == c;
    }
  }

  lemma SlicesRanked(e: seq<Slice>, m: seq<Slice>, b: seq<Slice>, na: seq<Slice>, ds: seq<Slice>)
    requires SlicesLaidOut(e, m, b, na, ds)
    ensures forall i, j :: 0 <= i < j < |ds| ==> Rank(ds[i].category) < Rank(ds[j].category)
  {
  }

  function SumCount(ss: seq<Slice>): int
  {
    if ss == [] then 0 else ss[0].count + SumCount(ss[1..])
  }

  function SumPercent(ss: seq<Slice>): real
  {
    if ss == [] then 0.0 else ss[0].percent + SumPercent(ss[1..])
  }

  lemma {:induction false} SumsAppend(a: seq<Slice>, b: seq<Slice>)
    ensures SumCount(a + b) == SumCount(a) + SumCount(b)
    ensures SumPercent(a + b) == SumPercent(a) + SumPercent(b)
  {
    if a == [] {
      assert a + b == b;
    } else {
      assert (a + b)[1..] == a[1..] + b;
      SumsAppend(a[1..], b);
    }
  }

  /** Each row falls in exactly one of the four categories. */
  lemma {:induction false} CategoriesPartition(rows: seq<Row>)
    ensures |InCategory(rows, Excelente)| + |InCategory(rows, Medio)| + |InCategory(rows, Baixo)|
            + |InCategory(rows, NotAvailable)| == |rows|
  {
    if rows != [] {
      CategoriesPartition(rows[1..]);
    }
  }

  lemma SliceIfCount(rows: seq<Row>, c: Category)
    ensures SumCount(SliceIf(rows, c)) == |InCategory(rows, c)|
  {
  }

  /** The quantities add up to the number of rows. */
  lemma DistributionCount(rows: seq<Row>)
    ensures SumCount(Distribution(rows)) == |rows|
  {
    var e := SliceIf(rows, Excelente);
    var m := SliceIf(rows, Medio);
    var b := SliceIf(rows, Baixo);
    var na := SliceIf(rows, NotAvailable);
    assert Distribution(rows) == e + m + b + na;
    SumsAppend(e, m);
    SumsAppend(e + m, b);
    SumsAppend(e + m + b, na);
    SliceIfCount(rows, Excelente);
    SliceIfCount(rows, Medio);
    SliceIfCount(rows, Baixo);
    SliceIfCount(rows, NotAvailable);
    CategoriesPartition(rows);
  }

  lemma PercentOfWhole(p: real, n: real)
    requires n > 0.0 && p * n == 100.0 * n
    ensures p == 100.0
  {
    assert (p - 100.0) * n == 0.0;
  }

  /** Shares of one total whose counts add up to the total add up to 100. */
  lemma {:induction false} SharesSum(ss: seq<Slice>, total: nat)
    requires total > 0
    requires forall i :: 0 <= i < |ss| ==> ss[i].count <= total && ss[i].percent == Share(ss[i].count, total)
    ensures SumPercent(ss) * (total as real) == 100.0 * (SumCount(ss) as real)
  {
    if ss != [] {
      SharesSum(ss[1..], total);
      var t := total as real;
      assert ss[0].percent * t == 100.0 * (ss[0].count as real);
      assert SumPercent(ss) * t == ss[0].percent * t + SumPercent(ss[1..]) * t;
    }
  }

  /** Shares whose counts make up the whole add up to 100. */
  lemma SharesOfWhole(ss: seq<Slice>, total: nat)
    requires total > 0 && SumCount(ss) == total
    requires forall i :: 0 <= i < |ss| ==> ss[i].count <= total && ss[i].percent == Share(ss[i].count, total)
    ensures SumPercent(ss) == 100.0
  {
    SharesSum(ss, total);
    PercentOfWhole(SumPercent(ss), total as real);
  }

  /** For a non-empty table the percentages add up to 100. */
  lemma DistributionPercent(rows: seq<Row>)
    requires rows != []
    ensures SumPercent(Distribution(rows)) == 100.0
  {
    DistributionCount(rows);
    SharesOfWhole(Distribution(rows), |rows|);
  }

  // ---------------------------------------------------------------------------
  // `create_gre_analysis_chart`
  // ---------------------------------------------------------------------------

  /** One bar of the GRE chart: the GRE, the mean of its rows' rates rounded to a tenth, the two sums and `Quantidade`. */
  datatype GreStat = GreStat(gre: string, meanRate: real, registered: int, enrolled: int, count: nat)

  /** The columns the aggregation reads; a missing one is a KeyError. */
  predicate HasAnalysisColumns(table: Frame)
  {
    GRE in table.columns ==>
      TAXA in table.columns && INSCRITOS in table.columns
      && MATRICULAS in table.columns && ESCOLA in table.columns
  }

  /** The rows of one GRE, aggregated. */
  function GreStatOf(rows: seq<Row>, key: string): (s: GreStat)
    requires key in Keys(rows, GRE)
    ensures var ms := Members(rows, GRE, key);
            && s.gre == key && s.count == |ms| > 0
            && s.registered == TotalRegistered(ms) && s.enrolled == TotalEnrolled(ms)
            && s.meanRate == Round1(MeanRate(ms).value)
  {
    var ms := Members(rows, GRE, key);
    var k :| 0 <= k < |rows| && Field(rows[k], GRE) == key;
    assert rows[k] in ms;
    GreStat(key, Round1(MeanRate(ms).value), TotalRegistered(ms), TotalEnrolled(ms), |ms|)
  }

  function GreStats(rows: seq<Row>, keys: seq<string>): (ss: seq<GreStat>)
    requires forall k :: k in keys ==> k in Keys(rows, GRE)
    ensures |ss| == |keys|
    ensures forall i :: 0 <= i < |keys| ==> ss[i] == GreStatOf(rows, keys[i])
  {
    if keys == [] then [] else [GreStatOf(rows, keys[0])] + GreStats(rows, keys[1..])
  }

  /** `gre_analysis`: `None` without a GRE column, else one entry per GRE in ascending GRE order. */
  function GreAnalysis(table: Frame): (res: Option<seq<GreStat>>)
    requires HasAnalysisColumns(table)
    ensures res.None? <==> GRE !in table.columns
    ensures res.Some? ==>
              && |res.value| == |GroupKeys(table.rows, GRE)|
              && forall i :: 0 <= i < |res.value| ==>
                   res.value[i] == GreStatOf(table.rows, GroupKeys(table.rows, GRE)[i])
  {
    if GRE !in table.columns then None
    else Some(GreStats(table.rows, GroupKeys(table.rows, GRE)))
  }

  /** A GRE occurs in the table exactly when some row has it. */
  lemma KeyOccurs(rows: seq<Row>, g: string)
    ensures g in Keys(rows, GRE) <==> exists row :: row in rows && row.gre == g
  {
    if g in Keys(rows, GRE) {
      var k :| 0 <= k < |rows| && Keys(rows, GRE)[k] == g;
      assert rows[k] in rows;
    }
    if exists row :: row in rows && row.gre == g {
      var row :| row in rows && row.gre == g;
      var k :| 0 <= k < |rows| && rows[k] == row;
      assert Keys(rows, GRE)[k] == g;
    }
  }

  /** The entries are the table's GREs, in ascending order. */
  lemma GreAnalysisGres(table: Frame)
    requires HasAnalysisColumns(table) && GRE in table.columns
    ensures var ss := GreAnalysis(table).value;
            var keys := GroupKeys(table.rows, GRE);
            |ss| == |keys| && forall i :: 0 <= i < |ss| ==> ss[i].gre == keys[i]
  {
  }

  /**
   * There is exactly one entry per GRE of the table, in ascending GRE order
   * (so no GRE twice).
   */
  lemma GreAnalysisEntries(table: Frame)
    requires HasAnalysisColumns(table) && GRE in table.columns
    ensures var ss := GreAnalysis(table).value;
            && (forall i :: 0 <= i < |ss| ==> exists row :: row in table.rows && row.gre == ss[i].gre)
            && (forall row :: row in table.rows ==> exists i :: 0 <= i < |ss| && ss[i].gre == row.gre)
            && (forall i, j :: 0 <= i < j < |ss| ==> LexLess(ss[i].gre, ss[j].gre))
  {
    var ss := GreAnalysis(table).value;
    var rows := table.rows;
    var keys := GroupKeys(rows, GRE);
    GreAnalysisGres(table);
    forall i | 0 <= i < |ss| ensures exists row :: row in rows && row.gre == ss[i].gre {
      assert keys[i] in keys;
      KeyOccurs(rows, keys[i]);
    }
    forall row | row in rows ensures exists i :: 0 <= i < |ss| && ss[i].gre == row.gre {
      KeyOccurs(rows, row.gre);
      var i :| 0 <= i < |keys| && keys[i] == row.gre;
      assert ss[i].gre == row.gre;
    }
  }

  /** Over a valid table every GRE's mean lies in [0, 100]. */
  lemma GreAnalysisMeans(table: Frame)
    requires HasAnalysisColumns(table) && GRE in table.columns
    requires ValidRows(table.rows)
    ensures var ss := GreAnalysis(table).value;
            forall i :: 0 <= i < |ss| ==> 0.0 <= ss[i].meanRate <= 100.0
  {
    var ss := GreAnalysis(table).value;
    var rows := table.rows;
    var keys := GroupKeys(rows, GRE);
    forall i | 0 <= i < |ss| ensures 0.0 <= ss[i].meanRate <= 100.0 {
      var ms := Members(rows, GRE, keys[i]);
      assert ss[i] == GreStatOf(rows, keys[i]);
      MeanRateBounds(ms);
      Round1Bounds(MeanRate(ms).value);
    }
  }

  /** Σ of a count over the GRE entries. */
  function StatTotal(ss: seq<GreStat>, c: Count): int
  {
    if ss == [] then 0
    else (match c case Enrolled => ss[0].enrolled case Registered => ss[0].registered) + StatTotal(ss[1..], c)
  }

  lemma {:induction false} StatTotalIsKeyTotal(rows: seq<Row>, keys: seq<string>, c: Count)
    requires forall k :: k in keys ==> k in Keys(rows, GRE)
    ensures StatTotal(GreStats(rows, keys), c) == KeyTotal(rows, GRE, keys, c)
  {
    if keys != [] {
      var ss := GreStats(rows, keys);
      assert ss[1..] == GreStats(rows, keys[1..]);
      StatTotalIsKeyTotal(rows, keys[1..], c);
    }
  }

  /** The GRE entries keep the table's totals of INSCRITOS and MATRICULAS. */
  lemma GreAnalysisTotals(table: Frame, c: Count)
    requires HasAnalysisColumns(table) && GRE in table.columns
    ensures StatTotal(GreAnalysis(table).value, c) == Total(table.rows, c)
  {
    var keys := GroupKeys(table.rows, GRE);
    StatTotalIsKeyTotal(table.rows, keys, c);
    StrictlySortedDistinct(keys);
    KeyTotalCovers(table.rows, GRE, keys, c);
  }

  function MeanOf(s: GreStat): real { s.meanRate }

  /** The GRE chart: its bars and the widget height. */
  datatype GreChart = GreChart(bars: seq<GreStat>, height: int)

  /** The chart draws the entries sorted by mean, lowest first, `min(400, 50 + 25 n)` high. */
  function GreAnalysisChart(table: Frame): (chart: Option<GreChart>)
    requires HasAnalysisColumns(table)
    ensures chart.None? <==> GRE !in table.columns
    ensures chart.Some? ==>
              && multiset(chart.value.bars) == multiset(GreAnalysis(table).value)
              && SortedBy(chart.value.bars, MeanOf, false)
              && chart.value.height == Min(400, 50 + 25 * |GreAnalysis(table).value|)
              && chart.value.height <= 400
              && (|GreAnalysis(table).value| > 0 ==> chart.value.height >= 75)
  {
    match GreAnalysis(table)
    case None => None
    case Some(ss) => Some(GreChart(SortBy(ss, MeanOf, false), Min(400, 50 + 25 * |ss|)))
  }

  // ---------------------------------------------------------------------------
  // `create_ranking_chart` and the page's sort of `grouped_df`
  // ---------------------------------------------------------------------------

  /** The page's "Ordenar por" choice. */
  datatype SortKey = ByRate | ByRegistered | ByEnrolled

  function KeyOf(k: SortKey): Row -> real
  {
    match k
    case ByRate => RateOf
    case ByRegistered => RegisteredOf
    case ByEnrolled => EnrolledOf
  }

  /** The sort of `grouped_df` before charting: descending on the chosen column. */
  function SortGrouped(rows: seq<Row>, k: SortKey): (r: seq<Row>)
    ensures multiset(r) == multiset(rows)
    ensures SortedBy(r, KeyOf(k), true)
  {
    SortBy(rows, KeyOf(k), true)
  }

  /** The ranking bars and the chart height. */
  datatype RankingChart = RankingChart(bars: seq<Row>, height: int)

  /** Schools: ascending rate, `min(500, 100 + 25 n)` high; cities and GREs: descending rate, 400 high. */
  function Ranking(rows: seq<Row>, displayOption: string): (chart: RankingChart)
    ensures multiset(chart.bars) == multiset(rows)
    ensures SortedBy(chart.bars, RateOf, displayOption != ESCOLAS)
    ensures displayOption == ESCOLAS ==> chart.height == Min(500, 100 + 25 * |rows|)
    ensures displayOption != ESCOLAS ==> chart.height == 400
  {
    if displayOption == ESCOLAS then RankingChart(SortBy(rows, RateOf, false), Min(500, 100 + 25 * |rows|))
    else RankingChart(SortBy(rows, RateOf, true), 400)
  }

  /**
   * The best entity is drawn last in the school view (the top of a
   * horizontal chart) and first otherwise; a chart of schools is at most
   * 500 high and grows by 25 per school below that.
   */
  lemma RankingBestPlaced(rows: seq<Row>, displayOption: string)
    requires rows != []
    ensures var bars := Ranking(rows, displayOption).bars;
            var top := if displayOption == ESCOLAS then bars[|bars| - 1] else bars[0];
            top in rows && forall row :: row in rows ==> row.rate <= top.rate
  {
    var bars := Ranking(rows, displayOption).bars;
    SortedEndIsBest(bars, rows, displayOption != ESCOLAS);
  }

  /** The best row ends a sorted permutation: first when descending, last otherwise. */
  lemma SortedEndIsBest(bars: seq<Row>, rows: seq<Row>, descending: bool)
    requires rows != [] && multiset(bars) == multiset(rows) && SortedBy(bars, RateOf, descending)
    ensures |bars| == |rows|
    ensures var t := if descending then 0 else |bars| - 1;
            bars[t] in rows && forall row :: row in rows ==> row.rate <= bars[t].rate
  {
    assert |bars| == |multiset(bars)| == |rows|;
    var t := if descending then 0 else |bars| - 1;
    assert bars[t] in multiset(rows);
    forall row | row in rows ensures row.rate <= bars[t].rate {
      assert row in multiset(bars);
      var j :| 0 <= j < |bars| && bars[j] == row;
      if j != t {
        if descending {
          assert Precedes(bars[t], bars[j], RateOf, true);
        } else {
          assert Precedes(bars[j], bars[t], RateOf, false);
        }
      }
    }
  }
}

=== FILE: common.dfy ===
/**
 * General-purpose pieces shared by the dashboard model: option and result
 * values, decimal text of integers, Python's `str.replace` for one pattern,
 * Python's code-point ordering of strings, sorted distinct lists of keys,
 * stable ordering by a numeric key, filters, counts and sums.
 */
module Common {

  datatype Option<T> = None | Some(value: T)

  datatype Result<T> = Ok(value: T) | Err(reason: string)

  function Min(a: int, b: int): int { if a <= b then a else b }

  // ---------------------------------------------------------------------------
  // Decimal text of numbers (Python's `str` on an int, `f"{i}"`)
  // ---------------------------------------------------------------------------

  predicate IsDigit(c: char) { '0' <= c <= '9' }

  predicate AllDigits(s: string) { forall i :: 0 <= i < |s| ==> IsDigit(s[i]) }

  function DigitChar(d: nat): (c: char)
    requires d < 10
    ensures IsDigit(c) && (c as int) - ('0' as int) == d
  {
    "0123456789"[d]
  }

  /** The decimal text of `n`, without leading zeros. */
  function NatToString(n: nat): (s: string)
    ensures 1 <= |s| && AllDigits(s)
    ensures s[0] == '0' ==> n == 0
  {
    if n < 10 then [DigitChar(n)] else NatToString(n / 10) + [DigitChar(n % 10)]
  }

  /** The decimal text of an int, with a leading '-' when negative. */
  function IntToString(i: int): string
  {
    if i < 0 then "-" + NatToString(-i) else NatToString(i)
  }

  /** The value of a string of decimal digits. */
  function DigitsValue(s: string): nat
    requires AllDigits(s)
  {
    if s == [] then 0
    else DigitsValue(s[..|s| - 1]) * 10 + ((s[|s| - 1] as int) - ('0' as int))
  }

  /** Reading back the decimal text of a number gives the number. */
  lemma {:induction false} DigitsValueOfNatToString(n: nat)
    ensures DigitsValue(NatToString(n)) == n
  {
    if n >= 10 {
      var s := NatToString(n);
      assert s[..|s| - 1] == NatToString(n / 10);
      DigitsValueOfNatToString(n / 10);
    }
  }

  // ---------------------------------------------------------------------------
  // `str.replace(pat, '')`: remove every non-overlapping occurrence, scanning
  // from the left
  // ---------------------------------------------------------------------------

  function RemoveAll(s: string, pat: string): (r: string)
    requires |pat| > 0
    ensures |r| <= |s|
    decreases |s|
  {
    if |s| < |pat| then s
    else if s[..|pat|] == pat then RemoveAll(s[|pat|..], pat)
    else [s[0]] + RemoveAll(s[1..], pat)
  }

  /** A string without the character '.' is left unchanged by removing ".0". */
  lemma {:induction false} RemoveDotZeroNoDot(s: string)
    requires forall i :: 0 <= i < |s| ==> s[i] != '.'
    ensures RemoveAll(s, ".0") == s
  {
    if |s| >= 2 {
      assert s[..2] != ".0" by { assert s[0] != '.'; }
      RemoveDotZeroNoDot(s[1..]);
      assert s == [s[0]] + s[1..];
    }
  }

  /** The text of a whole number written as a float ("7.0") loses its ".0". */
  lemma {:induction false} RemoveDotZeroOfFloatText(s: string)
    requires forall i :: 0 <= i < |s| ==> s[i] != '.'
    ensures RemoveAll(s + ".0", ".0") == s
  {
    if s == [] {
      assert s + ".0" == ".0";
      assert RemoveAll(".0", ".0") == RemoveAll("", ".0");
    } else {
      var t := s + ".0";
      assert t[..2] != ".0" by { assert t[0] == s[0] && s[0] != '.'; }
      assert t[1..] == s[1..] + ".0";
      RemoveDotZeroOfFloatText(s[1..]);
      assert s == [s[0]] + s[1..];
    }
  }

  // ---------------------------------------------------------------------------
  // Python's ordering of str: lexicographic on code points
  // ---------------------------------------------------------------------------

  predicate LexLess(a: string, b: string)
    decreases |a|
  {
    if |a| == 0 then |b| > 0
    else if |b| == 0 then false
    else if a[0] != b[0] then a[0] < b[0]
    else LexLess(a[1..], b[1..])
  }

  lemma {:induction false} LexLessIrreflexive(a: string)
    ensures !LexLess(a, a)
  {
    if |a| > 0 { LexLessIrreflexive(a[1..]); }
  }

  lemma {:induction false} LexLessTransitive(a: string, b: string, c: string)
    requires LexLess(a, b) && LexLess(b, c)
    ensures LexLess(a, c)
    decreases |a|
  {
    if |a| > 0 && |b| > 0 && |c| > 0 && a[0] == b[0] && b[0] == c[0] {
      LexLessTransitive(a[1..], b[1..], c[1..]);
    }
  }

  lemma {:induction false} LexLessTotal(a: string, b: string)
    requires a != b
    ensures LexLess(a, b) || LexLess(b, a)
    decreases |a|
  {
    if |a| > 0 && |b| > 0 && a[0] == b[0] {
      assert a == [a[0]] + a[1..] && b == [b[0]] + b[1..];
      LexLessTotal(a[1..], b[1..]);
    }
  }

  lemma {:induction false} LexLessAsymmetric(a: string, b: string)
    requires LexLess(a, b)
    ensures !LexLess(b, a)
  {
    if LexLess(b, a) {
      LexLessTransitive(a, b, a);
      LexLessIrreflexive(a);
    }
  }

  /** Strictly ascending, hence free of repetitions. */
  predicate StrictlySorted(s: seq<string>)
  {
    forall i, j :: 0 <= i < j < |s| ==> LexLess(s[i], s[j])
  }

  function InsertSorted(x: string, s: seq<string>): (r: seq<string>)
    requires StrictlySorted(s)
    ensures StrictlySorted(r)
    ensures forall y :: y in r <==> y == x || y in s
  {
    if s == [] then [x]
    else if x == s[0] then s
    else if LexLess(x, s[0]) then
      assert forall j :: 0 <= j < |s| ==> LexLess(x, s[j]) by {
        forall j | 0 < j < |s| ensures LexLess(x, s[j]) { LexLessTransitive(x, s[0], s[j]); }
      }
      [x] + s
    else
      LexLessTotal(x, s[0]);
      var t := InsertSorted(x, s[1..]);
      assert forall y :: y in t ==> LexLess(s[0], y);
      [s[0]] + t
  }

  /** Python's `sorted(set(xs))` on strings: every value once, ascending. */
  function SortedDistinct(xs: seq<string>): (r: seq<string>)
    ensures StrictlySorted(r)
    ensures forall y :: y in r <==> y in xs
    ensures |r| <= |xs|
  {
    if xs == [] then []
    else
      var t := SortedDistinct(xs[1..]);
      var r := InsertSorted(xs[0], t);
      assert forall y :: y in xs <==> y == xs[0] || y in xs[1..] by {
        assert xs == [xs[0]] + xs[1..];
      }
      assert |r| <= |t| + 1 by { InsertSortedLength(xs[0], t); }
      r
  }

  lemma {:induction false} InsertSortedLength(x: string, s: seq<string>)
    requires StrictlySorted(s)
    ensures |InsertSorted(x, s)| <= |s| + 1
  {
    if s != [] && x != s[0] && !LexLess(x, s[0]) {
      InsertSortedLength(x, s[1..]);
    }
  }

  /** A list without repetitions has as many elements as its set of values. */
  lemma {:induction false} StrictlySortedCardinality(s: seq<string>)
    requires StrictlySorted(s)
    ensures |set x | x in s| == |s|
  {
    if s != [] {
      StrictlySortedCardinality(s[1..]);
      assert s[0] !in s[1..] by {
        forall j | 1 <= j < |s| ensures s[j] != s[0] {
          LexLessIrreflexive(s[0]);
        }
      }
      assert (set x | x in s) == {s[0]} + (set x | x in s[1..]) by {
        assert s == [s[0]] + s[1..];
      }
    }
  }

  /** The position of the first occurrence of `c`: a column label's position in a header. */
  function IndexOf(s: seq<string>, c: string): (j: nat)
    requires c in s
    ensures j < |s| && s[j] == c
    ensures forall k :: 0 <= k < j ==> s[k] != c
  {
    if s[0] == c then 0 else 1 + IndexOf(s[1..], c)
  }

  /** Two first-occurrence positions of the same label are the same position. */
  lemma IndexOfUnique(s: seq<string>, c: string, j: nat)
    requires c in s && j < |s| && s[j] == c
    requires forall k :: 0 <= k < j ==> s[k] != c
    ensures IndexOf(s, c) == j
  {
  }

  /** A label's position does not change when another label is appended. */
  lemma IndexOfSnoc(s: seq<string>, x: string, c: string)
    requires c in s
    ensures IndexOf(s + [x], c) == IndexOf(s, c)
  {
    var j := IndexOf(s, c);
    IndexOfUnique(s + [x], c, j);
  }

  /** A label appended to a list without it sits at the end. */
  lemma IndexOfLast(s: seq<string>, x: string)
    requires x !in s
    ensures IndexOf(s + [x], x) == |s|
  {
    IndexOfUnique(s + [x], x, |s|);
  }

  // ---------------------------------------------------------------------------
  // Filters, counts and sums over sequences
  // ---------------------------------------------------------------------------

  /** The elements satisfying `p`, in their original order. */
  function Filter<T(!new)>(xs: seq<T>, p: T -> bool): (r: seq<T>)
    ensures |r| <= |xs|
    ensures forall x :: x in r <==> x in xs && p(x)
  {
    if xs == [] then []
    else if p(xs[0]) then [xs[0]] + Filter(xs[1..], p)
    else Filter(xs[1..], p)
  }

  /** `f` applied to every element, in order: a projection of a list of records. */
  function Project<T, U>(xs: seq<T>, f: T -> U): (ys: seq<U>)
    ensures |ys| == |xs|
    ensures forall i :: 0 <= i < |xs| ==> ys[i] == f(xs[i])
  {
    if xs == [] then [] else [f(xs[0])] + Project(xs[1..], f)
  }

  lemma {:induction false} FilterAppend<T(!new)>(a: seq<T>, b: seq<T>, p: T -> bool)
    ensures Filter(a + b, p) == Filter(a, p) + Filter(b, p)
  {
    if a != [] {
      assert (a + b)[1..] == a[1..] + b;
      FilterAppend(a[1..], b, p);
    } else {
      assert a + b == b;
    }
  }

  /**
   * `Filter` keeps every copy: an element occurs in the result as often as in
   * `xs` when it satisfies `p`, and not at all otherwise.
   */
  lemma {:induction false} FilterMultiplicity<T(!new)>(xs: seq<T>, p: T -> bool)
    ensures forall x :: multiset(Filter(xs, p))[x] == if p(x) then multiset(xs)[x] else 0
  {
    if xs != [] {
      FilterMultiplicity(xs[1..], p);
      assert xs == [xs[0]] + xs[1..];
    }
  }

  /** The positions of `xs` whose element satisfies `p`. */
  ghost function Positions<T>(xs: seq<T>, p: T -> bool): set<int>
  {
    set i | 0 <= i < |xs| && p(xs[i])
  }

  /** The length of `Filter(xs, p)` is the number of positions of `xs` that satisfy `p`. */
  lemma {:induction false} FilterCountsPositions<T(!new)>(xs: seq<T>, p: T -> bool)
    ensures |Filter(xs, p)| == |Positions(xs, p)|
    decreases |xs|
  {
    if xs != [] {
      var n := |xs| - 1;
      var a := xs[..n];
      FilterCountsPositions(a, p);
      assert xs == a + [xs[n]];
      FilterAppend(a, [xs[n]], p);
      assert [xs[n]][1..] == [];
      PositionsSnoc(a, xs[n], p);
    }
  }

  lemma PositionsSnoc<T>(a: seq<T>, x: T, p: T -> bool)
    ensures p(x) ==> Positions(a + [x], p) == Positions(a, p) + {|a|} && |a| !in Positions(a, p)
    ensures !p(x) ==> Positions(a + [x], p) == Positions(a, p)
  {
    assert forall i :: 0 <= i < |a| ==> (a + [x])[i] == a[i];
  }

  function Count<T(!new)>(xs: seq<T>, p: T -> bool): nat
  {
    |Filter(xs, p)|
  }

  function SumInt<T>(xs: seq<T>, f: T -> int): int
  {
    if xs == [] then 0 else f(xs[0]) + SumInt(xs[1..], f)
  }

  function SumReal<T>(xs: seq<T>, f: T -> real): real
  {
    if xs == [] then 0.0 else f(xs[0]) + SumReal(xs[1..], f)
  }

  /** A sum of positive terms over a non-empty list is positive. */
  lemma {:induction false} SumIntPositive<T>(xs: seq<T>, f: T -> int)
    requires forall x :: x in xs ==> f(x) > 0
    ensures SumInt(xs, f) >= 0
    ensures xs != [] ==> SumInt(xs, f) > 0
  {
    if xs != [] { SumIntPositive(xs[1..], f); }
  }

  lemma {:induction false} SumIntAppend<T>(a: seq<T>, b: seq<T>, f: T -> int)
    ensures SumInt(a + b, f) == SumInt(a, f) + SumInt(b, f)
  {
    if a != [] {
      assert (a + b)[1..] == a[1..] + b;
      SumIntAppend(a[1..], b, f);
    } else {
      assert a + b == b;
    }
  }

  // ---------------------------------------------------------------------------
  // Ordering by a numeric key, ties kept in their original order
  // ---------------------------------------------------------------------------

  /** `a` may be listed before `b` when ordering by `key`. */
  predicate Precedes<T>(a: T, b: T, key: T -> real, descending: bool)
  {
    if descending then key(a) >= key(b) else key(a) <= key(b)
  }

  predicate SortedBy<T>(xs: seq<T>, key: T -> real, descending: bool)
  {
    forall i, j :: 0 <= i < j < |xs| ==> Precedes(xs[i], xs[j], key, descending)
  }

  /** The elements whose key is `k`, in their order in `xs`. */
  function WithKey<T>(xs: seq<T>, key: T -> real, k: real): (r: seq<T>)
    ensures |r| <= |xs|
  {
    if xs == [] then [] else (if key(xs[0]) == k then [xs[0]] else []) + WithKey(xs[1..], key, k)
  }

  lemma {:induction false} WithKeyAppend<T>(a: seq<T>, b: seq<T>, key: T -> real, k: real)
    ensures WithKey(a + b, key, k) == WithKey(a, key, k) + WithKey(b, key, k)
  {
    if a != [] {
      assert (a + b)[1..] == a[1..] + b;
      WithKeyAppend(a[1..], b, key, k);
    } else {
      assert a + b == b;
    }
  }

  /** A list none of whose keys is `k` has no element with key `k`. */
  lemma {:induction false} WithKeyNone<T>(xs: seq<T>, key: T -> real, k: real)
    requires forall j :: 0 <= j < |xs| ==> key(xs[j]) != k
    ensures WithKey(xs, key, k) == []
  {
    if xs != [] { WithKeyNone(xs[1..], key, k); }
  }

  /** Index of the first element that may precede every element. */
  function BestIndex<T>(xs: seq<T>, key: T -> real, descending: bool): (i: nat)
    requires |xs| > 0
    ensures i < |xs|
    ensures forall j :: 0 <= j < |xs| ==> Precedes(xs[i], xs[j], key, descending)
    ensures forall j :: 0 <= j < i ==> key(xs[j]) != key(xs[i])
  {
    if |xs| == 1 then 0
    else
      var k := BestIndex(xs[1..], key, descending) + 1;
      if Precedes(xs[0], xs[k], key, descending) then 0 else k
  }

  /**
   * A stable ordering of `xs` by `key`: a sorted permutation of `xs` in which
   * the elements of each key keep their order in `xs`.
   */
  function SortBy<T>(xs: seq<T>, key: T -> real, descending: bool): (r: seq<T>)
    ensures |r| == |xs|
    ensures multiset(r) == multiset(xs)
    ensures SortedBy(r, key, descending)
    ensures forall k :: WithKey(r, key, k) == WithKey(xs, key, k)
    decreases |xs|
  {
    if xs == [] then []
    else
      var i := BestIndex(xs, key, descending);
      var rest := xs[..i] + xs[i + 1..];
      var t := SortBy(rest, key, descending);
      SortStep(xs, i, t, key, descending);
      StableStep(xs, i, t, key);
      [xs[i]] + t
  }

  /** Taking out the first element of its key keeps every key's elements in order. */
  lemma StableStep<T>(xs: seq<T>, i: nat, t: seq<T>, key: T -> real)
    requires i < |xs|
    requires forall j :: 0 <= j < i ==> key(xs[j]) != key(xs[i])
    requires forall k :: WithKey(t, key, k) == WithKey(xs[..i] + xs[i + 1..], key, k)
    ensures forall k :: WithKey([xs[i]] + t, key, k) == WithKey(xs, key, k)
  {
    forall k ensures WithKey([xs[i]] + t, key, k) == WithKey(xs, key, k) {
      StableStepAt(xs, i, t, key, k);
    }
  }

  lemma StableStepAt<T>(xs: seq<T>, i: nat, t: seq<T>, key: T -> real, k: real)
    requires i < |xs|
    requires forall j :: 0 <= j < i ==> key(xs[j]) != key(xs[i])
    requires WithKey(t, key, k) == WithKey(xs[..i] + xs[i + 1..], key, k)
    ensures WithKey([xs[i]] + t, key, k) == WithKey(xs, key, k)
  {
    var a, b := xs[..i], xs[i + 1..];
    assert xs == a + ([xs[i]] + b);
    WithKeyAppend(a, [xs[i]] + b, key, k);
    WithKeyAppend([xs[i]], b, key, k);
    WithKeyAppend(a, b, key, k);
    WithKeyAppend([xs[i]], t, key, k);
    assert [xs[i]][1..] == [];
    if key(xs[i]) == k {
      WithKeyNone(a, key, k);
    }
  }

  /** Putting a best element in front of a sorted permutation of the others. */
  lemma SortStep<T>(xs: seq<T>, i: nat, t: seq<T>, key: T -> real, descending: bool)
    requires i < |xs|
    requires forall j :: 0 <= j < |xs| ==> Precedes(xs[i], xs[j], key, descending)
    requires multiset(t) == multiset(xs[..i] + xs[i + 1..])
    requires SortedBy(t, key, descending)
    ensures multiset([xs[i]] + t) == multiset(xs)
    ensures SortedBy([xs[i]] + t, key, descending)
  {
    assert xs == xs[..i] + [xs[i]] + xs[i + 1..];
    forall y | y in t ensures Precedes(xs[i], y, key, descending) {
      assert y in multiset(t);
      assert y in xs[..i] + xs[i + 1..];
      assert y in xs;
    }
  }

  /** The elements of a sub-multiset are elements of the whole. */
  lemma SubMultisetMembers<T>(xs: seq<T>, sub: seq<T>)
    requires multiset(sub) <= multiset(xs)
    ensures forall i :: 0 <= i < |sub| ==> sub[i] in xs
  {
    forall i | 0 <= i < |sub| ensures sub[i] in xs {
      assert sub[i] in multiset(sub);
    }
  }

  /** A prefix of a stable reordering holds, for every key, the first elements of that key. */
  lemma PrefixKeepsFirstOfKey<T>(xs: seq<T>, s: seq<T>, m: nat, key: T -> real)
    requires m <= |s|
    requires forall k :: WithKey(s, key, k) == WithKey(xs, key, k)
    ensures forall k :: WithKey(s[..m], key, k) <= WithKey(xs, key, k)
  {
    forall k ensures WithKey(s[..m], key, k) <= WithKey(xs, key, k) {
      assert s == s[..m] + s[m..];
      WithKeyAppend(s[..m], s[m..], key, k);
    }
  }

  /**
   * The first `n` elements by descending key (pandas `nlargest` with
   * `keep='first'`): among elements of equal key, the ones listed are the
   * first of that key in `xs`, in their order there.
   */
  function TopN<T(!new)>(xs: seq<T>, key: T -> real, n: nat): (r: seq<T>)
    ensures |r| == Min(n, |xs|)
    ensures SortedBy(r, key, true)
    ensures multiset(r) <= multiset(xs)
    ensures forall x, y :: x in xs && x !in r && y in r ==> key(y) >= key(x)
    ensures forall k :: WithKey(r, key, k) <= WithKey(xs, key, k)
  {
    var s := SortBy(xs, key, true);
    var m := Min(n, |xs|);
    var r := s[..m];
    assert s == r + s[m..];
    PrefixKeepsFirstOfKey(xs, s, m, key);
    PrefixHoldsLargest(xs, s, m, key);
    r
  }

  /** No element left out of a prefix of a descending permutation has a larger key than one kept. */
  lemma PrefixHoldsLargest<T>(xs: seq<T>, s: seq<T>, m: nat, key: T -> real)
    requires m <= |s| && multiset(s) == multiset(xs) && SortedBy(s, key, true)
    ensures forall x, y :: x in xs && x !in s[..m] && y in s[..m] ==> key(y) >= key(x)
  {
    var r := s[..m];
    forall x, y | x in xs && x !in r && y in r ensures key(y) >= key(x) {
      assert x in multiset(s) by { assert x in multiset(xs); }
      var p :| 0 <= p < |s| && s[p] == x;
      var q :| 0 <= q < m && r[q] == y;
      assert p >= m;
      assert Precedes(s[q], s[p], key, true);
    }
  }
}

=== FILE: details.dfy ===
/**
 * The detail panels: the per-category blocks of `display_category_details`
 * and the table of `display_data_table` (its column selection, GRE prefix,
 * display names, rounding, order and height).
 */
module Details {
  import opened Common
  import opened Rows
  import opened Prepare
  import Loader

  // ---------------------------------------------------------------------------
  // `display_category_details`
  // ---------------------------------------------------------------------------

  /** One category block: the sums, the rate of the sums, the count and the share of rows. */
  datatype Block = Block(category: Category, registered: int, enrolled: int, rate: real, count: nat, share: real)

  /** `(cat_inscritos / cat_matriculas * 100) if cat_matriculas > 0 else 0`: not clipped. */
  function RatioOrZero(registered: int, enrolled: int): (r: real)
    ensures enrolled <= 0 ==> r == 0.0
    ensures enrolled > 0 ==> r * (enrolled as real) == 100.0 * (registered as real)
  {
    if enrolled > 0 then (registered as real) / (enrolled as real) * 100.0 else 0.0
  }

  /** The block of one category, for a table with `total` rows. */
  function MakeBlock(rows: seq<Row>, c: Category, total: nat): (b: Block)
    requires total > 0 && |InCategory(rows, c)| <= total
    ensures b.category == c && b.count == |InCategory(rows, c)|
    ensures b.registered == TotalRegistered(InCategory(rows, c))
    ensures b.enrolled == TotalEnrolled(InCategory(rows, c))
    ensures b.rate == RatioOrZero(b.registered, b.enrolled)
    ensures b.share == Share(b.count, total)
  {
    var members := InCategory(rows, c);
    var count := |members|;
    Block(c, TotalRegistered(members), TotalEnrolled(members),
          RatioOrZero(TotalRegistered(members), TotalEnrolled(members)),
          count, Share(count, total))
  }

  /** `count / len(filtered_df) * 100`: a count out of a positive total, as a percentage. */
  function Share(count: nat, total: nat): (pct: real)
    requires 0 < total && count <= total
    ensures 0.0 <= pct <= 100.0
    ensures pct * (total as real) == 100.0 * (count as real)
  {
    var q := (count as real) / (total as real);
    assert q <= 1.0;
    q * 100.0
  }

  /** The block of a category, or nothing when it has no rows. */
  function BlockIf(rows: seq<Row>, c: Category): (bs: seq<Block>)
    ensures |bs| <= 1
    ensures bs == [] <==> InCategory(rows, c) == []
    ensures bs != [] ==> bs[0] == MakeBlock(rows, c, |rows|)
  {
    if |InCategory(rows, c)| > 0 then [MakeBlock(rows, c, |rows|)] else []
  }

  /** The position of a category in the panel: Excelente, Médio, Baixo. */
  function Rank(c: Category): nat
  {
    match c
    case Excelente => 0
    case Medio => 1
    case Baixo => 2
    case NotAvailable => 3
  }

  /** `display_category_details`: the blocks of Excelente, Médio and Baixo, skipping empty ones. */
  function CategoryBlocks(rows: seq<Row>): (bs: seq<Block>)
    ensures |bs| <= 3
    ensures bs != [] ==> rows != []
    ensures forall i :: 0 <= i < |bs| ==> bs[i].count > 0 && bs[i] == MakeBlock(rows, bs[i].category, |rows|)
  {
    var e := BlockIf(rows, Excelente);
    var m := BlockIf(rows, Medio);
    var l := BlockIf(rows, Baixo);
    BlocksDrawn(rows, e, m, l);
    e + m + l
  }

  /** A non-empty block built from the whole table. */
  predicate Drawn(rows: seq<Row>, b: Block)
  {
    && b.count > 0 && |rows| > 0 && |InCategory(rows, b.category)| <= |rows|
    && b == MakeBlock(rows, b.category, |rows|)
  }

  /** Three blocks of at most one drawn block each, put one after the other. */
  lemma BlocksDrawn(rows: seq<Row>, e: seq<Block>, m: seq<Block>, l: seq<Block>)
    requires |e| <= 1 && |m| <= 1 && |l| <= 1
    requires e != [] ==> Drawn(rows, e[0])
    requires m != [] ==> Drawn(rows, m[0])
    requires l != [] ==> Drawn(rows, l[0])
    ensures forall i :: 0 <= i < |e + m + l| ==> Drawn(rows, (e + m + l)[i])
  {
    var bs := e + m + l;
    forall i | 0 <= i < |bs| ensures Drawn(rows, bs[i]) {
      if i < |e| { assert bs[i] == e[0]; }
      else if i < |e| + |m| { assert bs[i] == m[0]; }
      else { assert bs[i] == l[0]; }
    }
  }

  /** Where each category's block sits in the panel. */
  lemma CategoryBlocksLayout(rows: seq<Row>)
    ensures var e := BlockIf(rows, Excelente);
            var m := BlockIf(rows, Medio);
            var bs := CategoryBlocks(rows);
            && |bs| == |e| + |m| + |BlockIf(rows, Baixo)|
            && forall i :: 0 <= i < |bs| ==>
                 bs[i].category == (if i < |e| then Excelente else if i < |e| + |m| then Medio else Baixo)
  {
    var e := BlockIf(rows, Excelente);
    var m := BlockIf(rows, Medio);
    var l := BlockIf(rows, Baixo);
    var bs := CategoryBlocks(rows);
    assert bs == e + m + l;
    forall i | 0 <= i < |bs|
      ensures bs[i].category == (if i < |e| then Excelente else if i < |e| + |m| then Medio else Baixo)
    {
      if i < |e| {
        assert bs[i] == e[i];
      } else if i < |e| + |m| {
        assert bs[i] == m[i - |e|];
      } else {
        assert bs[i] == l[i - |e| - |m|];
      }
    }
  }

  /**
   * A block is shown for exactly the categories other than "N/A" that have
   * rows, in the order Excelente, Médio, Baixo.
   */
  lemma CategoryBlocksShown(rows: seq<Row>, c: Category)
    ensures (exists i :: 0 <= i < |CategoryBlocks(rows)| && CategoryBlocks(rows)[i].category == c)
            <==> c != NotAvailable && InCategory(rows, c) != []
    ensures forall i, j :: 0 <= i < j < |CategoryBlocks(rows)| ==>
              Rank(CategoryBlocks(rows)[i].category) < Rank(CategoryBlocks(rows)[j].category)
  {
    var e := BlockIf(rows, Excelente);
    var m := BlockIf(rows, Medio);
    var l := BlockIf(rows, Baixo);
    var bs := CategoryBlocks(rows);
    CategoryBlocksLayout(rows);
    LaidOutShown(e, m, l, bs, c, InCategory(rows, c) != []);
    LaidOutRanked(e, m, l, bs);
  }

  /** Blocks laid out Excelente, Médio, Baixo, with the blocks present given. */
  predicate LaidOut(e: seq<Block>, m: seq<Block>, l: seq<Block>, bs: seq<Block>)
  {
    && |e| <= 1 && |m| <= 1 && |l| <= 1 && |bs| == |e| + |m| + |l|
    && forall i :: 0 <= i < |bs| ==>
         bs[i].category == (if i < |e| then Excelente else if i < |e| + |m| then Medio else Baixo)
  }

  lemma LaidOutShown(e: seq<Block>, m: seq<Block>, l: seq<Block>, bs: seq<Block>, c: Category, has: bool)
    requires LaidOut(e, m, l, bs)
    requires c == Excelente ==> (e != [] <==> has)
    requires c == Medio ==> (m != [] <==> has)
    requires c == Baixo ==> (l != [] <==> has)
    ensures (exists i :: 0 <= i < |bs| && bs[i].category == c) <==> c != NotAvailable && has
  {
    if c != NotAvailable && has {
      var i := if c == Excelente then 0 else if c == Medio then |e| else |e| + |m|;
      assert bs[i].category == c;
    }
  }

  lemma LaidOutRanked(e: seq<Block>, m: seq<Block>, l: seq<Block>, bs: seq<Block>)
    requires LaidOut(e, m, l, bs)
    ensures forall i, j :: 0 <= i < j < |bs| ==> Rank(bs[i].category) < Rank(bs[j].category)
  {
  }

  /** In a table without "N/A", the three blocks count every row once. */
  lemma {:induction false} CategoryCountsCover(rows: seq<Row>)
    requires forall row :: row in rows ==> row.category != NotAvailable
    ensures |InCategory(rows, Excelente)| + |InCategory(rows, Medio)| + |InCategory(rows, Baixo)| == |rows|
  {
    if rows != [] {
      CategoryCountsCover(rows[1..]);
      assert rows[0] in rows;
    }
  }

  /**
   * For rows whose rate is the clipped ratio of their own counts, the sums of
   * a category still fall in that category's band: 100 * ΣINSCRITOS is at
   * least 85 * ΣMATRICULAS for "Excelente", between 50 and 85 times it for
   * "Médio", and below 50 times it for "Baixo".
   */
  lemma {:induction false} CategorySumsInBand(rows: seq<Row>, c: Category)
    requires forall row :: row in rows ==> row.enrolled > 0 && row.rate == Rate(row.registered, row.enrolled)
                                           && row.category == Categorize(row.rate)
    ensures var ms := InCategory(rows, c);
            && (c == Excelente ==> 100 * TotalRegistered(ms) >= 85 * TotalEnrolled(ms))
            && (c == Medio ==> 50 * TotalEnrolled(ms) <= 100 * TotalRegistered(ms) < 85 * TotalEnrolled(ms)
                                || ms == [])
            && (c == Baixo ==> 100 * TotalRegistered(ms) < 50 * TotalEnrolled(ms) || ms == [])
  {
    if rows != [] {
      var r := rows[0];
      CategorySumsInBand(rows[1..], c);
      CategoryFromCounts(r.registered, r.enrolled);
      var ms := InCategory(rows, c);
      var rest := InCategory(rows[1..], c);
      if r.category == c {
        assert ms == [r] + rest;
        assert ms[1..] == rest;
      } else {
        assert ms == rest;
      }
    }
  }

  /** The rate a non-empty block shows lies in its category's band. */
  lemma BlockRateInBand(rows: seq<Row>, c: Category)
    requires forall row :: row in rows ==> row.enrolled > 0 && row.rate == Rate(row.registered, row.enrolled)
                                           && row.category == Categorize(row.rate)
    requires InCategory(rows, c) != []
    ensures var b := MakeBlock(rows, c, |rows|);
            && (c == Excelente ==> b.rate >= 85.0)
            && (c == Medio ==> 50.0 <= b.rate < 85.0)
            && (c == Baixo ==> b.rate < 50.0)
  {
    var ms := InCategory(rows, c);
    var b := MakeBlock(rows, c, |rows|);
    CategorySumsInBand(rows, c);
    forall row | row in ms ensures row.enrolled > 0 { }
    TotalEnrolledPositive(ms);
    RatioBands(b.registered, b.enrolled, b.rate);
  }

  /** A ratio of counts clears 85 or 50 exactly when the counts do. */
  lemma RatioBands(registered: int, enrolled: int, rate: real)
    requires enrolled > 0 && rate * (enrolled as real) == 100.0 * (registered as real)
    ensures rate >= 85.0 <==> 100 * registered >= 85 * enrolled
    ensures rate >= 50.0 <==> 100 * registered >= 50 * enrolled
  {
    var e := enrolled as real;
    var n := 100.0 * (registered as real);
    RatioThreshold(rate, e, n, 85.0);
    RatioThreshold(rate, e, n, 50.0);
    assert (100 * registered) as real == n;
    assert (85 * enrolled) as real == 85.0 * e;
    assert (50 * enrolled) as real == 50.0 * e;
  }

  /** For a loaded frame, a non-empty block's counts and rate lie in its band. */
  lemma LoadedBlockInBand(raw: Loader.Table, c: Category)
    requires Loader.Clean(raw).Ok?
    requires InCategory(Loader.Clean(raw).value.rows, c) != []
    ensures var rows := Loader.Clean(raw).value.rows;
            var ms := InCategory(rows, c);
            var b := MakeBlock(rows, c, |rows|);
            && (c == Excelente ==> 100 * TotalRegistered(ms) >= 85 * TotalEnrolled(ms) && b.rate >= 85.0)
            && (c == Medio ==> 50 * TotalEnrolled(ms) <= 100 * TotalRegistered(ms) < 85 * TotalEnrolled(ms)
                               && 50.0 <= b.rate < 85.0)
            && (c == Baixo ==> 100 * TotalRegistered(ms) < 50 * TotalEnrolled(ms) && b.rate < 50.0)
  {
    var rows := Loader.Clean(raw).value.rows;
    Loader.CleanedRowsConsistent(raw);
    CategorySumsInBand(rows, c);
    BlockRateInBand(rows, c);
  }

  // ---------------------------------------------------------------------------
  // `display_data_table`: column selection
  // ---------------------------------------------------------------------------

  const MetricColumns := [MATRICULAS, INSCRITOS, TAXA, CATEGORIA]

  predicate Distinct(s: seq<string>)
  {
    forall i, j :: 0 <= i < j < |s| ==> s[i] != s[j]
  }

  /**
   * The columns of `cols` the table has, in the order of `cols`: for a list
   * without repeats, each once and in strictly increasing position.
   */
  function Present(cols: seq<string>, columns: seq<string>): (r: seq<string>)
    ensures |r| <= |cols|
    ensures forall c :: c in r <==> c in cols && c in columns
    ensures Distinct(cols) ==> forall i, j :: 0 <= i < j < |r| ==> IndexOf(cols, r[i]) < IndexOf(cols, r[j])
    decreases |cols|
  {
    if cols == [] then []
    else
      var init := cols[..|cols| - 1];
      var last := cols[|cols| - 1];
      var p := Present(init, columns);
      var r := p + (if last in columns then [last] else []);
      PresentOrdered(cols, init, last, p, r);
      r
  }

  lemma PresentOrdered(cols: seq<string>, init: seq<string>, last: string, p: seq<string>, r: seq<string>)
    requires cols == init + [last]
    requires forall c :: c in p ==> c in init
    requires Distinct(init) ==> forall i, j :: 0 <= i < j < |p| ==> IndexOf(init, p[i]) < IndexOf(init, p[j])
    requires r == p || r == p + [last]
    ensures forall c :: c in r ==> c in cols
    ensures Distinct(cols) ==> forall i, j :: 0 <= i < j < |r| ==> IndexOf(cols, r[i]) < IndexOf(cols, r[j])
  {
    if Distinct(cols) {
      assert Distinct(init) by {
        forall i, j | 0 <= i < j < |init| ensures init[i] != init[j] {
          assert cols[i] == init[i] && cols[j] == init[j];
        }
      }
      forall k | 0 <= k < |init| ensures init[k] != last {
        assert cols[k] == init[k] && cols[|init|] == last;
      }
      forall c | c in p ensures IndexOf(cols, c) == IndexOf(init, c) && IndexOf(init, c) < |init| {
        IndexOfSnoc(init, last, c);
      }
      IndexOfLast(init, last);
    }
  }

  /** The columns before the metrics: GRE and CIDADE in the school view, then `column_name`. */
  function LeadingColumns(columns: seq<string>, columnName: string, displayOption: string): seq<string>
  {
    (if displayOption == ESCOLAS && GRE in columns then [GRE] else [])
    + (if displayOption == ESCOLAS && CIDADE in columns then [CIDADE] else [])
    + (if columnName in columns then [columnName] else [])
  }

  /** `available_columns`. */
  function SelectedColumns(columns: seq<string>, columnName: string, displayOption: string): seq<string>
  {
    LeadingColumns(columns, columnName, displayOption) + Present(MetricColumns, columns)
  }

  /**
   * Every selected column is a column of the table; GRE and CIDADE lead, in
   * the school view only; `column_name` follows when present; then, from
   * position `lead` on, the metric columns the table has, each once and in
   * the fixed order.
   */
  lemma SelectedColumnsFacts(columns: seq<string>, columnName: string, displayOption: string)
    ensures var s := SelectedColumns(columns, columnName, displayOption);
            var g := if displayOption == ESCOLAS && GRE in columns then 1 else 0;
            var c := if displayOption == ESCOLAS && CIDADE in columns then 1 else 0;
            var n := if columnName in columns then 1 else 0;
            var lead := g + c + n;
            && (forall x :: x in s ==> x in columns)
            && (forall x :: x in MetricColumns && x in columns ==> x in s)
            && lead <= |s| <= lead + |MetricColumns|
            && (g == 1 ==> s[0] == GRE)
            && (c == 1 ==> s[g] == CIDADE)
            && (n == 1 ==> s[g + c] == columnName)
            && s[lead..] == Present(MetricColumns, columns)
            && (forall i, j :: lead <= i < j < |s| ==> IndexOf(MetricColumns, s[i]) < IndexOf(MetricColumns, s[j]))
  {
    var s := SelectedColumns(columns, columnName, displayOption);
    var l := LeadingColumns(columns, columnName, displayOption);
    var p := Present(MetricColumns, columns);
    assert s == l + p;
    LeadingLayout(columns, columnName, displayOption);
    MetricColumnsDistinct();
    PresentAfterLead(l, p);
    assert forall i :: 0 <= i < |l| ==> s[i] == l[i];
  }

  /** Where GRE, CIDADE and `column_name` sit among the leading columns. */
  lemma LeadingLayout(columns: seq<string>, columnName: string, displayOption: string)
    ensures var l := LeadingColumns(columns, columnName, displayOption);
            var g := if displayOption == ESCOLAS && GRE in columns then 1 else 0;
            var c := if displayOption == ESCOLAS && CIDADE in columns then 1 else 0;
            var n := if columnName in columns then 1 else 0;
            && |l| == g + c + n
            && (forall x :: x in l ==> x in columns)
            && (g == 1 ==> l[0] == GRE)
            && (c == 1 ==> l[g] == CIDADE)
            && (n == 1 ==> l[g + c] == columnName)
  {
  }

  lemma MetricColumnsDistinct()
    ensures Distinct(MetricColumns)
  {
    assert MATRICULAS[0] == 'M' && INSCRITOS[0] == 'I' && TAXA[0] == 'T' && CATEGORIA[0] == 'C';
  }

  lemma PresentAfterLead(l: seq<string>, p: seq<string>)
    requires forall x :: x in p ==> x in MetricColumns
    requires forall i, j :: 0 <= i < j < |p| ==> IndexOf(MetricColumns, p[i]) < IndexOf(MetricColumns, p[j])
    ensures (l + p)[|l|..] == p
    ensures forall i, j :: |l| <= i < j < |l + p| ==> IndexOf(MetricColumns, (l + p)[i]) < IndexOf(MetricColumns, (l + p)[j])
  {
    var s := l + p;
    assert s[|l|..] == p;
    forall i, j | |l| <= i < j < |s|
      ensures s[i] in MetricColumns && s[j] in MetricColumns
      ensures IndexOf(MetricColumns, s[i]) < IndexOf(MetricColumns, s[j])
    {
      assert s[i] == p[i - |l|] && s[j] == p[j - |l|];
    }
  }

  /** The selection as the source builds it: a list grown by appends. */
  method SelectColumns(columns: seq<string>, columnName: string, displayOption: string)
    returns (available: seq<string>)
    ensures available == SelectedColumns(columns, columnName, displayOption)
  {
    available := [];
    if displayOption == ESCOLAS && GRE in columns {
      available := available + [GRE];
    }
    if displayOption == ESCOLAS && CIDADE in columns {
      available := available + [CIDADE];
    }
    if columnName in columns {
      available := available + [columnName];
    }
    assert available == LeadingColumns(columns, columnName, displayOption);
    available := AppendPresent(available, MetricColumns, columns);
  }

  /** The `for col in [...]` loop: append each of `cols` the table has. */
  method AppendPresent(lead: seq<string>, cols: seq<string>, columns: seq<string>) returns (available: seq<string>)
    ensures available == lead + Present(cols, columns)
  {
    available := lead;
    for i := 0 to |cols|
      invariant available == lead + Present(cols[..i], columns)
    {
      var col := cols[i];
      assert cols[..i + 1][..i] == cols[..i];
      if col in columns {
        available := available + [col];
      }
    }
    assert cols[..|cols|] == cols;
  }

  // ---------------------------------------------------------------------------
  // `display_data_table`: the rendered table
  // ---------------------------------------------------------------------------

  /** A cell of the displayed table. */
  datatype Cell = Str(s: string) | Int(n: int) | Num(x: real)

  /** The table as displayed: headers, rows of cells, and the widget height. */
  datatype TableView = TableView(headers: seq<string>, rows: seq<seq<Cell>>, height: int)

  /** The cell of a known column; GRE gets its "GRE " prefix in the GRE view. */
  function CellOf(row: Row, column: string, columnName: string): Cell
  {
    if column == GRE then Str(if columnName == GRE then "GRE " + row.gre else row.gre)
    else if column == CIDADE then Str(row.city)
    else if column == ESCOLA then Str(row.school)
    else if column == MATRICULAS then Int(row.enrolled)
    else if column == INSCRITOS then Int(row.registered)
    else if column == TAXA then Num(row.rate)
    else if column == CATEGORIA then Str(CategoryLabel(row.category))
    else Str("")
  }

  function RowCells(row: Row, columns: seq<string>, columnName: string): (cs: seq<Cell>)
    ensures |cs| == |columns|
    ensures forall k :: 0 <= k < |columns| ==> cs[k] == CellOf(row, columns[k], columnName)
  {
    if columns == [] then [] else [CellOf(row, columns[0], columnName)] + RowCells(row, columns[1..], columnName)
  }

  function TableCells(rows: seq<Row>, columns: seq<string>, columnName: string): (t: seq<seq<Cell>>)
    ensures |t| == |rows|
    ensures forall i :: 0 <= i < |rows| ==> t[i] == RowCells(rows[i], columns, columnName)
  {
    if rows == [] then [] else [RowCells(rows[0], columns, columnName)] + TableCells(rows[1..], columns, columnName)
  }

  /** `str.rstrip(c)`: drop every trailing `c`. */
  function StripTrailing(s: string, c: char): (r: string)
    ensures |r| <= |s| && r == s[..|r|]
    ensures r == [] || r[|r| - 1] != c
    ensures forall k :: |r| <= k < |s| ==> s[k] == c
  {
    if s == [] || s[|s| - 1] != c then s
    else StripTrailing(s[..|s| - 1], c)
  }

  /** The column mapping; a `column_name` it does not know is named after the option, trailing 's' removed. */
  function DisplayHeader(column: string, columnName: string, displayOption: string): string
  {
    if column == GRE then "GRE"
    else if column == CIDADE then "Cidade"
    else if column == ESCOLA then "Escola"
    else if column == MATRICULAS then "Matriculados"
    else if column == INSCRITOS then "Inscritos"
    else if column == TAXA then "Taxa (%)"
    else if column == CATEGORIA then "Categoria"
    else if column == columnName then StripTrailing(displayOption, 's')
    else column
  }

  function DisplayHeaders(columns: seq<string>, columnName: string, displayOption: string): (hs: seq<string>)
    ensures |hs| == |columns|
    ensures forall k :: 0 <= k < |columns| ==> hs[k] == DisplayHeader(columns[k], columnName, displayOption)
  {
    if columns == [] then []
    else [DisplayHeader(columns[0], columnName, displayOption)] + DisplayHeaders(columns[1..], columnName, displayOption)
  }

  const RateHeader := "Taxa (%)"

  /** `round(1)` on the cell at position `k`. */
  function RoundAt(cells: seq<Cell>, k: nat): (r: seq<Cell>)
    ensures |r| == |cells|
  {
    if k < |cells| && cells[k].Num? then cells[k := Num(Round1(cells[k].x))] else cells
  }

  function RoundColumn(t: seq<seq<Cell>>, k: nat): (r: seq<seq<Cell>>)
    ensures |r| == |t|
    ensures forall i :: 0 <= i < |t| ==> r[i] == RoundAt(t[i], k)
  {
    if t == [] then [] else [RoundAt(t[0], k)] + RoundColumn(t[1..], k)
  }

  /** The sort key: the number at position `k`. */
  function NumAt(cells: seq<Cell>, k: nat): real
  {
    if k < |cells| && cells[k].Num? then cells[k].x else 0.0
  }

  /** `min(400, 100 + len(table_df) * 35)`. */
  function TableHeight(n: nat): (h: int)
    ensures 100 <= h <= 400
    ensures h == 400 || h == 100 + 35 * n
  {
    Min(400, 100 + n * 35)
  }

  /**
   * `display_data_table` up to the rendering of the table: the selected
   * columns, under their display names, the rate rounded to a tenth and the
   * rows sorted by it, highest first. Fewer than three columns is the error
   * message.
   */
  function DataTable(table: Frame, columnName: string, displayOption: string): (res: Result<TableView>)
    ensures var selected := SelectedColumns(table.columns, columnName, displayOption);
            && (res.Err? <==> |selected| < 3)
            && (res.Ok? ==>
                  && res.value.headers == DisplayHeaders(selected, columnName, displayOption)
                  && |res.value.rows| == |table.rows|
                  && res.value.height == TableHeight(|table.rows|))
  {
    var selected := SelectedColumns(table.columns, columnName, displayOption);
    if |selected| < 3 then Err("Dados insuficientes para exibir a tabela de " + displayOption + ".")
    else
      var headers := DisplayHeaders(selected, columnName, displayOption);
      var cells := TableCells(table.rows, selected, columnName);
      var ordered := if RateHeader in headers then
                       var k := IndexOf(headers, RateHeader);
                       SortBy(RoundColumn(cells, k), r => NumAt(r, k), true)
                     else cells;
      Ok(TableView(headers, ordered, TableHeight(|table.rows|)))
  }

  /**
   * With a rate column, the displayed rows are the table's rows with the rate
   * rounded, as a permutation, ordered by the rounded rate, highest first.
   */
  lemma DataTableSorted(table: Frame, columnName: string, displayOption: string)
    requires DataTable(table, columnName, displayOption).Ok?
    requires RateHeader in DataTable(table, columnName, displayOption).value.headers
    ensures var v := DataTable(table, columnName, displayOption).value;
            var k := IndexOf(v.headers, RateHeader);
            var selected := SelectedColumns(table.columns, columnName, displayOption);
            && multiset(v.rows) == multiset(RoundColumn(TableCells(table.rows, selected, columnName), k))
            && forall i, j :: 0 <= i < j < |v.rows| ==> NumAt(v.rows[i], k) >= NumAt(v.rows[j], k)
  {
    var v := DataTable(table, columnName, displayOption).value;
    var k := IndexOf(v.headers, RateHeader);
    var selected := SelectedColumns(table.columns, columnName, displayOption);
    var sorted := SortBy(RoundColumn(TableCells(table.rows, selected, columnName), k), r => NumAt(r, k), true);
    assert v.rows == sorted;
    forall i, j | 0 <= i < j < |v.rows| ensures NumAt(v.rows[i], k) >= NumAt(v.rows[j], k) {
      assert Precedes(sorted[i], sorted[j], r => NumAt(r, k), true);
    }
  }

  /** The rate column holds the rate of TAXA_EFICIENCIA rounded to a tenth. */
  lemma RateCellRounded(row: Row, columns: seq<string>, columnName: string, k: nat)
    requires k < |columns| && columns[k] == TAXA
    ensures RoundAt(RowCells(row, columns, columnName), k)[k] == Num(Round1(row.rate))
  {
  }

  // ---------------------------------------------------------------------------
  // The pasted copies after line 114
  // ---------------------------------------------------------------------------

  /**
   * The columns the first pasted copy selects again, from the table that has
   * already been renamed: GRE and CIDADE by their old names, then
   * `column_name` and the four metric columns by their old names.
   */
  function TrailingColumns(headers: seq<string>, columnName: string, displayOption: string): seq<string>
  {
    (if displayOption == ESCOLAS && GRE in headers then [GRE] else [])
    + (if displayOption == ESCOLAS && CIDADE in headers then [CIDADE] else [])
    + [columnName, MATRICULAS, INSCRITOS, TAXA, CATEGORIA]
  }

  /**
   * `display_data_table` as written: after the table is shown, the pasted
   * copy indexes the renamed table by the old column names, which raises
   * KeyError when one of them is gone.
   */
  function DataTableAsWritten(table: Frame, columnName: string, displayOption: string): (res: Result<TableView>)
    ensures DataTable(table, columnName, displayOption).Err? ==> res == DataTable(table, columnName, displayOption)
  {
    match DataTable(table, columnName, displayOption)
    case Err(e) => Err(e)
    case Ok(v) =>
      var wanted := TrailingColumns(v.headers, columnName, displayOption);
      if forall c :: c in wanted ==> c in v.headers then Ok(v)
      else Err("KeyError")
  }

  /**
   * For every `column_name` `prepare_dataframe` produces, the as-written
   * function raises whenever the table was rendered: no display name is
   * "MATRICULAS".
   */
  lemma DataTableAsWrittenRaises(table: Frame, columnName: string, displayOption: string)
    requires columnName in {ESCOLA, CIDADE, GRE}
    requires DataTable(table, columnName, displayOption).Ok?
    ensures DataTableAsWritten(table, columnName, displayOption).Err?
  {
    var v := DataTable(table, columnName, displayOption).value;
    var selected := SelectedColumns(table.columns, columnName, displayOption);
    NoHeaderIsMatriculas(selected, columnName, displayOption);
    assert MATRICULAS in TrailingColumns(v.headers, columnName, displayOption);
  }

  lemma NoHeaderIsMatriculas(selected: seq<string>, columnName: string, displayOption: string)
    requires columnName in {ESCOLA, CIDADE, GRE}
    ensures MATRICULAS !in DisplayHeaders(selected, columnName, displayOption)
  {
    var hs := DisplayHeaders(selected, columnName, displayOption);
    forall k | 0 <= k < |hs| ensures hs[k] != MATRICULAS {
      assert hs[k] == DisplayHeader(selected[k], columnName, displayOption);
    }
  }
}

=== FILE: examples.dfy ===
/**
 * A worked example on two schools of one GRE: the grouped view rates the
 * GRE by the ratio of its sums, the GRE chart by the mean of its schools'
 * rates, and the two disagree on the category.
 */
module Examples {
  import opened Common
  import opened Rows
  import opened Prepare
  import opened Metrics
  import opened Charts
  import opened Details
  import opened Sample

  /** 40 of 100 enrolled (40%, "Baixo") and 9 of 10 enrolled (90%, "Excelente"), both in GRE 7. */
  const SchoolA := Row("7", "Recife", "Escola Estadual 1", 100, 40, 40.0, Baixo)
  const SchoolB := Row("7", "Recife", "Escola Estadual 2", 10, 9, 90.0, Excelente)

  lemma SchoolsAreValid()
    ensures ValidRows([SchoolA, SchoolB])
    ensures SchoolA.rate == Rate(40, 100) && SchoolB.rate == Rate(9, 10)
  {
  }

  /** The sums over the two schools. */
  lemma PairSums()
    ensures TotalEnrolled([SchoolA, SchoolB]) == 110
    ensures TotalRegistered([SchoolA, SchoolB]) == 49
    ensures TotalRate([SchoolA, SchoolB]) == 130.0
    ensures MeanRate([SchoolA, SchoolB]) == Some(65.0)
  {
    var rows := [SchoolA, SchoolB];
    assert rows[1..] == [SchoolB] && [SchoolB][1..] == [];
    assert TotalRate([SchoolB]) == 90.0;
    assert Total([SchoolB], Enrolled) == 10;
    assert Total([SchoolB], Registered) == 9;
  }

  /** The two schools form one GRE. */
  lemma PairKeys()
    ensures GroupKeys([SchoolA, SchoolB], GRE) == ["7"]
    ensures Members([SchoolA, SchoolB], GRE, "7") == [SchoolA, SchoolB]
  {
    var rows := [SchoolA, SchoolB];
    assert Keys(rows, GRE) == ["7", "7"];
    var keys := GroupKeys(rows, GRE);
    assert "7" in keys;
    StrictlySortedCardinality(keys);
    assert (set k | k in keys) == {"7"};
  }

  const PairTable := Frame([GRE, CIDADE, ESCOLA, MATRICULAS, INSCRITOS, TAXA, CATEGORIA], [SchoolA, SchoolB])

  /**
   * The GRE view groups the two schools into one row with 49 of 110
   * enrolled, a rate of about 44.5% and the category "Baixo".
   */
  lemma RatioOfSums()
    ensures ValidRows(PairTable.rows)
    ensures var p := PrepareDataframe(PairTable, TODAS, TODAS, "GREs");
            && p.filtered == PairTable
            && |p.grouped.rows| == 1
            && p.grouped.rows[0].gre == "7"
            && p.grouped.rows[0].enrolled == 110 && p.grouped.rows[0].registered == 49
            && p.grouped.rows[0].rate * 110.0 == 4900.0
            && p.grouped.rows[0].category == Baixo
  {
    var rows := PairTable.rows;
    SchoolsAreValid();
    PairKeys();
    PairSums();
    var p := PrepareDataframe(PairTable, TODAS, TODAS, "GREs");
    assert p.filtered.rows == rows;
    assert p.grouped.rows == GroupRows(rows, GRE, ["7"]);
    var g := p.grouped.rows[0];
    assert g == Aggregate(rows, GRE, "7");
    CategoryFromCounts(49, 110);
  }

  /** The mean of the two schools' rates is 65%, which would be "Médio". */
  lemma MeanOfRates()
    ensures var p := PrepareDataframe(PairTable, TODAS, TODAS, "GREs");
            && MeanRate(p.filtered.rows) == Some(65.0)
            && Categorize(MeanRate(p.filtered.rows).value) == Medio
  {
    RatioOfSums();
    PairSums();
  }

  /** The GRE chart shows the same GRE with the mean, 65.0, and the same sums. */
  lemma GreChartShowsMean()
    ensures GreAnalysis(PairTable) == Some([GreStat("7", 65.0, 49, 110, 2)])
  {
    var rows := [SchoolA, SchoolB];
    assert GRE in PairTable.columns;
    PairKeys();
    var keys := GroupKeys(rows, GRE);
    PairSums();
    assert Round1(65.0) == 65.0 by {
      assert (65.0 * 10.0 + 0.5).Floor == 650;
    }
    var s := GreStatOf(rows, "7");
    assert s == GreStat("7", 65.0, 49, 110, 2);
    var ss := GreStats(rows, keys);
    assert |ss| == 1 && ss[0] == s;
    assert ss == [s];
  }

  /**
   * A synthetic school of the "Excelente" band whose own counts rate below 85:
   * 30 enrolled at a drawn rate of 85.5 give int(25.65) = 25 registered, so
   * its category block shows 25 / 30 ≈ 83.3 %.
   */
  lemma SampleBlockOutOfBand()
    ensures var d := Draw(0, 0, 30, 3, 1.0 / 30.0);
            && ValidDraw(d)
            && SampleRow(1, d).rate == 85.5
            && SampleRow(1, d).category == Excelente
            && SampleRow(1, d).registered == 25
            && MakeBlock([SampleRow(1, d)], Excelente, 1).rate < 85.0
  {
    var d := Draw(0, 0, 30, 3, 1.0 / 30.0);
    var row := SampleRow(1, d);
    assert (30 as real) * (85.5 / 100.0) == 25.65;
    assert Inscritos(30, 85.5) == 25;
    assert InCategory([row], Excelente) == [row];
    assert [row][1..] == [];
    assert Total([row], Registered) == 25 && Total([row], Enrolled) == 30;
  }
}

=== FILE: insights.dfy ===
/**
 * `display_insights_recommendations`: the counts and shares of rows below
 * 50% and at or above 85%, the observations (built by conditional appends)
 * and the four recommendations. The text formatting of numbers is left out;
 * an observation is the kind of sentence and the number it shows.
 */
module Insights {
  import opened Common
  import opened Rows
  import opened Metrics

  // ---------------------------------------------------------------------------
  // Counts and shares
  // ---------------------------------------------------------------------------

  /** The rows with a rate below 50, in order. */
  function Below50(rows: seq<Row>): (r: seq<Row>)
    ensures |r| <= |rows|
    ensures forall row :: row in r <==> row in rows && row.rate < 50.0
  {
    if rows == [] then []
    else (if rows[0].rate < 50.0 then [rows[0]] else []) + Below50(rows[1..])
  }

  /** The rows with a rate of at least 85, in order. */
  function Above85(rows: seq<Row>): (r: seq<Row>)
    ensures |r| <= |rows|
    ensures forall row :: row in r <==> row in rows && row.rate >= 85.0
  {
    if rows == [] then []
    else (if rows[0].rate >= 85.0 then [rows[0]] else []) + Above85(rows[1..])
  }

  lemma {:induction false} Below50IsFilter(rows: seq<Row>)
    ensures Below50(rows) == Filter(rows, (row: Row) => row.rate < 50.0)
  {
    if rows != [] { Below50IsFilter(rows[1..]); }
  }

  lemma {:induction false} Above85IsFilter(rows: seq<Row>)
    ensures Above85(rows) == Filter(rows, (row: Row) => row.rate >= 85.0)
  {
    if rows != [] { Above85IsFilter(rows[1..]); }
  }

  /**
   * `escolas_abaixo_50` keeps every copy of a row below 50 and no other row;
   * its length is the number of positions of the table below 50.
   */
  lemma Below50Rows(rows: seq<Row>)
    ensures forall row :: multiset(Below50(rows))[row] == if row.rate < 50.0 then multiset(rows)[row] else 0
    ensures |Below50(rows)| == |set i | 0 <= i < |rows| && rows[i].rate < 50.0|
  {
    var p := (row: Row) => row.rate < 50.0;
    Below50IsFilter(rows);
    FilterMultiplicity(rows, p);
    FilterCountsPositions(rows, p);
    assert Positions(rows, p) == set i | 0 <= i < |rows| && rows[i].rate < 50.0;
  }

  /**
   * `escolas_acima_85` keeps every copy of a row at or above 85 and no other
   * row; its length is the number of positions of the table at or above 85.
   */
  lemma Above85Rows(rows: seq<Row>)
    ensures forall row :: multiset(Above85(rows))[row] == if row.rate >= 85.0 then multiset(rows)[row] else 0
    ensures |Above85(rows)| == |set i | 0 <= i < |rows| && rows[i].rate >= 85.0|
  {
    var p := (row: Row) => row.rate >= 85.0;
    Above85IsFilter(rows);
    FilterMultiplicity(rows, p);
    FilterCountsPositions(rows, p);
    assert Positions(rows, p) == set i | 0 <= i < |rows| && rows[i].rate >= 85.0;
  }

  /** `count / len(filtered_df) * 100 if len(filtered_df) > 0 else 0`. */
  function Pct(count: nat, n: nat): (pct: real)
    requires count <= n
    ensures n == 0 ==> pct == 0.0
    ensures n > 0 ==> pct * (n as real) == 100.0 * (count as real)
    ensures 0.0 <= pct <= 100.0
  {
    if n > 0 then
      ShareBounds(count as real, n as real);
      (count as real) / (n as real) * 100.0
    else 0.0
  }

  /** `pct_abaixo_50`. */
  function BelowPct(rows: seq<Row>): real
  {
    Pct(|Below50(rows)|, |rows|)
  }

  /** `pct_acima_85`. */
  function AbovePct(rows: seq<Row>): real
  {
    Pct(|Above85(rows)|, |rows|)
  }

  /** No row is both below 50 and at or above 85, so the two counts add up to at most the row count. */
  lemma {:induction false} BelowAboveDisjoint(rows: seq<Row>)
    ensures |Below50(rows)| + |Above85(rows)| <= |rows|
  {
    if rows != [] {
      BelowAboveDisjoint(rows[1..]);
    }
  }

  /**
   * The two shares add up to at most 100, so at most one exceeds 50: the
   * order of the two distribution tests never decides anything.
   */
  lemma SharesExclusive(rows: seq<Row>)
    ensures BelowPct(rows) + AbovePct(rows) <= 100.0
    ensures !(BelowPct(rows) > 50.0 && AbovePct(rows) > 50.0)
  {
    BelowAboveDisjoint(rows);
    PctSum(|Below50(rows)|, |Above85(rows)|, |rows|);
  }

  /** Shares of disjoint parts of one whole add up to at most 100. */
  lemma PctSum(c1: nat, c2: nat, n: nat)
    requires c1 + c2 <= n
    ensures Pct(c1, n) + Pct(c2, n) <= 100.0
  {
    if n > 0 {
      var s := Pct(c1, n) + Pct(c2, n);
      var m := n as real;
      assert s * m == 100.0 * ((c1 + c2) as real);
      assert (s - 100.0) * m <= 0.0;
    }
  }

  /** For a valid table the rows below 50 are exactly its "Baixo" rows, and those at or above 85 its "Excelente" rows. */
  lemma {:induction false} SharesAreCategories(rows: seq<Row>)
    requires ValidRows(rows)
    ensures Below50(rows) == InCategory(rows, Baixo)
    ensures Above85(rows) == InCategory(rows, Excelente)
  {
    if rows != [] {
      SharesAreCategories(rows[1..]);
      CategorizeBands(rows[0].rate);
    }
  }

  // ---------------------------------------------------------------------------
  // Observations
  // ---------------------------------------------------------------------------

  /** The sentences of "Principais Observações", with the number each shows. */
  datatype Observation =
    | OverallExcellent(mean: real)
    | OverallMedium(mean: real)
    | OverallBelow(maybeMean: Option<real>)
    | MostlyExcellent(pct: real)
    | MostlyLow(pct: real)
    | Potential(students: int)

  /** `int(sum(MATRICULAS of rows below 50) * 0.5)`. */
  function PotentialStudents(rows: seq<Row>): int
  {
    Truncate((TotalEnrolled(Below50(rows)) as real) * 0.5)
  }

  /** For non-negative counts the potential is half the enrolments of the rows below 50, rounded down. */
  lemma PotentialIsHalf(rows: seq<Row>)
    requires forall row :: row in rows ==> row.enrolled > 0
    ensures PotentialStudents(rows) == TotalEnrolled(Below50(rows)) / 2
    ensures 0 <= PotentialStudents(rows) && 2 * PotentialStudents(rows) <= TotalEnrolled(Below50(rows))
  {
    var b := Below50(rows);
    TotalEnrolledPositive(b);
    var t := TotalEnrolled(b);
    var x := (t as real) * 0.5;
    TruncateBounds(x);
    var q := Truncate(x);
    assert (q as real) <= x < (q as real) + 1.0;
    assert 2 * q <= t < 2 * q + 2;
  }

  /** The first observation, chosen by the mean rate; a NaN mean fails both comparisons. */
  function OverallObservation(mean: Option<real>): (o: Observation)
    ensures mean.Some? && mean.value >= 85.0 <==> o.OverallExcellent?
    ensures mean.Some? && 50.0 <= mean.value < 85.0 <==> o.OverallMedium?
    ensures mean.None? || mean.value < 50.0 <==> o.OverallBelow?
  {
    match mean
    case Some(m) =>
      if m >= 85.0 then OverallExcellent(m)
      else if m >= 50.0 then OverallMedium(m)
      else OverallBelow(mean)
    case None => OverallBelow(mean)
  }

  /**
   * The list the source builds: the overall observation, then at most one
   * distribution observation (a share of excellent rows above 50 first, else
   * a share of low rows above 50; both strict), then the potential last.
   */
  function Observations(rows: seq<Row>): (obs: seq<Observation>)
    ensures 2 <= |obs| <= 3
    ensures obs[0] == OverallObservation(MeanRate(rows))
    ensures obs[|obs| - 1] == Potential(PotentialStudents(rows))
    ensures |obs| == 3 <==> AbovePct(rows) > 50.0 || BelowPct(rows) > 50.0
    ensures |obs| == 3 ==> obs[1] == (if AbovePct(rows) > 50.0 then MostlyExcellent(AbovePct(rows))
                                     else MostlyLow(BelowPct(rows)))
  {
    var a := AbovePct(rows);
    var b := BelowPct(rows);
    [OverallObservation(MeanRate(rows))]
    + (if a > 50.0 then [MostlyExcellent(a)] else if b > 50.0 then [MostlyLow(b)] else [])
    + [Potential(PotentialStudents(rows))]
  }

  /** The `observations` list grown by appends, as the source does. */
  method BuildObservations(rows: seq<Row>) returns (observations: seq<Observation>)
    ensures observations == Observations(rows)
  {
    var media := MeanRate(rows);
    var pctAbaixo := BelowPct(rows);
    var pctAcima := AbovePct(rows);
    observations := [];
    if media.Some? && media.value >= 85.0 {
      observations := observations + [OverallExcellent(media.value)];
    } else if media.Some? && media.value >= 50.0 {
      observations := observations + [OverallMedium(media.value)];
    } else {
      observations := observations + [OverallBelow(media)];
    }
    if pctAcima > 50.0 {
      observations := observations + [MostlyExcellent(pctAcima)];
    } else if pctAbaixo > 50.0 {
      observations := observations + [MostlyLow(pctAbaixo)];
    }
    var potential := Truncate((TotalEnrolled(Below50(rows)) as real) * 0.5);
    observations := observations + [Potential(potential)];
  }

  /**
   * The overall observation agrees with the summary card: excellent exactly
   * when the status is "Excelente", medium exactly when it is "Médio".
   */
  lemma OverallAgreesWithSummary(rows: seq<Row>)
    ensures Observations(rows)[0].OverallExcellent? <==> SummaryStatus(rows) == StatusExcelente
    ensures Observations(rows)[0].OverallMedium? <==> SummaryStatus(rows) == StatusMedio
    ensures Observations(rows)[0].OverallBelow? <==> SummaryStatus(rows) == Preocupante
  {
    if rows != [] {
      CategorizeBands(MeanRate(rows).value);
    }
  }

  // ---------------------------------------------------------------------------
  // Recommendations
  // ---------------------------------------------------------------------------

  /** The four fixed recommendations; the second names the number of rows below 50. */
  function Recommendations(rows: seq<Row>): (recs: seq<string>)
    ensures |recs| == 4
    ensures recs[1] == "Priorizar ações nas " + IntToString(|set i | 0 <= i < |rows| && rows[i].rate < 50.0|)
                       + " escolas com taxa abaixo de 50%"
  {
    Below50Rows(rows);
    [ ExchangeRecommendation,
      "Priorizar ações nas " + IntToString(|Below50(rows)|) + " escolas com taxa abaixo de 50%",
      InfrastructureRecommendation,
      TargetsRecommendation ]
  }

  const ExchangeRecommendation := "Promover troca de experiências entre escolas com alto e baixo desempenho"
  const InfrastructureRecommendation := "Avaliar correlação entre infraestrutura escolar e taxa de conversão"
  const TargetsRecommendation := "Estabelecer metas progressivas por GRE, considerando realidades locais"
}

=== FILE: loader.dfy ===
/**
 * `load_data`: the cleaning of the spreadsheet as it arrives (a header of
 * column labels and rows of cells) into the normalised `Frame`, and the rule
 * that any failure, of the fetch or of the cleaning, falls back to the
 * synthetic table.
 *
 * The stages, in order: drop fully empty rows; promote the first row to the
 * header when GRE or CIDADE is not a column; rename the known columns; turn
 * GRE into text without ".0"; coerce INSCRITOS and MATRICULAS to numbers;
 * keep rows with MATRICULAS > 0 and GRE other than "0"; fill what is still
 * missing with 0; compute the clipped rate and its category.
 */
module Loader {
  import opened Common
  import opened Rows
  import opened Sample

  // ---------------------------------------------------------------------------
  // Raw tables
  // ---------------------------------------------------------------------------

  /** A cell: NaN, a text, or a whole number. */
  datatype Value = Missing | Text(s: string) | Number(n: int)

  /** A header and its rows of cells. */
  datatype Sheet = Sheet(header: seq<string>, rows: seq<seq<Value>>)

  predicate Rectangular(s: Sheet)
  {
    forall i :: 0 <= i < |s.rows| ==> |s.rows[i]| == |s.header|
  }

  /** A DataFrame: every row has one cell per column. */
  type Table = s: Sheet | Rectangular(s) witness Sheet([], [])

  /** What the fetch produced: a table (CSV or worksheet) or an exception. */
  datatype Fetch = Fetched(table: Table) | FetchFailed

  /** `str()` of a cell, as `astype(str)` renders it. */
  function Label(v: Value): string
  {
    match v
    case Missing => "nan"
    case Text(s) => s
    case Number(n) => IntToString(n)
  }

  // ---------------------------------------------------------------------------
  // `dropna(how='all')`
  // ---------------------------------------------------------------------------

  predicate AllMissing(row: seq<Value>)
  {
    forall k :: 0 <= k < |row| ==> row[k] == Missing
  }

  function DropEmptyRows(t: Table): (r: Table)
    ensures r.header == t.header
    ensures forall row :: row in r.rows <==> row in t.rows && !AllMissing(row)
  {
    var rows := Filter(t.rows, (row: seq<Value>) => !AllMissing(row));
    assert forall i :: 0 <= i < |rows| ==> rows[i] in t.rows;
    Sheet(t.header, rows)
  }

  /** `dropna(how='all')` keeps every copy of a row with a cell, and no others. */
  lemma DropEmptyRowsKeepsEveryCopy(t: Table)
    ensures forall row :: multiset(DropEmptyRows(t).rows)[row] == if AllMissing(row) then 0 else multiset(t.rows)[row]
  {
    FilterMultiplicity(t.rows, (row: seq<Value>) => !AllMissing(row));
  }

  // ---------------------------------------------------------------------------
  // Header promotion: `df.columns = df.iloc[0]; df = df.drop(df.index[0])`
  // ---------------------------------------------------------------------------

  /** The labels of a row's cells. */
  function Labels(row: seq<Value>): (ls: seq<string>)
    ensures |ls| == |row|
    ensures forall k :: 0 <= k < |row| ==> ls[k] == Label(row[k])
  {
    if row == [] then [] else [Label(row[0])] + Labels(row[1..])
  }

  function PromoteHeader(t: Table): (r: Table)
  {
    if (GRE !in t.header || CIDADE !in t.header) && |t.rows| > 0 then
      Sheet(Labels(t.rows[0]), t.rows[1..])
    else t
  }

  /**
   * The first row becomes the header, and leaves the data, exactly when GRE
   * or CIDADE is not a column and there is a row; otherwise nothing changes.
   * A promoted header holds every text of the first row: a sheet whose real
   * header sits in its first data row gets its GRE and CIDADE columns back.
   */
  lemma PromoteHeaderCases(t: Table)
    ensures (GRE in t.header && CIDADE in t.header) || t.rows == [] ==> PromoteHeader(t) == t
    ensures (GRE !in t.header || CIDADE !in t.header) && t.rows != [] ==>
              && PromoteHeader(t).header == Labels(t.rows[0])
              && PromoteHeader(t).rows == t.rows[1..]
              && |PromoteHeader(t).rows| == |t.rows| - 1
              && (forall c :: Text(c) in t.rows[0] ==> c in PromoteHeader(t).header)
  {
    if (GRE !in t.header || CIDADE !in t.header) && t.rows != [] {
      var row := t.rows[0];
      forall c | Text(c) in row ensures c in PromoteHeader(t).header {
        var k :| 0 <= k < |row| && row[k] == Text(c);
        assert Labels(row)[k] == c;
      }
    }
  }

  // ---------------------------------------------------------------------------
  // `df.rename(columns=valid_mapping)`
  // ---------------------------------------------------------------------------

  const LongMatriculas := "MATRÍCULAS DE 3ª SÉRIE"

  /**
   * The column mapping: GRE, CIDADE, ESCOLA and INSCRITOS map to themselves,
   * the long enrollment label to MATRICULAS, and every other label is kept.
   */
  function RenameLabel(c: string): (r: string)
    ensures c != LongMatriculas ==> r == c
    ensures c == LongMatriculas ==> r == MATRICULAS
  {
    if c in {GRE, CIDADE, ESCOLA, INSCRITOS} then c
    else if c == LongMatriculas then MATRICULAS
    else c
  }

  function RenameHeader(header: seq<string>): (r: seq<string>)
    ensures |r| == |header|
    ensures forall k :: 0 <= k < |header| ==> r[k] == RenameLabel(header[k])
  {
    if header == [] then [] else [RenameLabel(header[0])] + RenameHeader(header[1..])
  }

  function RenameColumns(t: Table): (r: Table)
    ensures r.rows == t.rows
  {
    Sheet(RenameHeader(t.header), t.rows)
  }

  /** Renaming keeps the position and the number of columns, and MATRICULAS
   * becomes a column exactly when it or the long label was one. */
  lemma {:induction false} RenameHeaderMatriculas(header: seq<string>)
    ensures MATRICULAS in RenameHeader(header) <==> MATRICULAS in header || LongMatriculas in header
    ensures forall c :: c != MATRICULAS && c != LongMatriculas ==> (c in RenameHeader(header) <==> c in header)
  {
    var r := RenameHeader(header);
    if MATRICULAS in header {
      var k :| 0 <= k < |header| && header[k] == MATRICULAS;
      assert r[k] == MATRICULAS;
    }
    if LongMatriculas in header {
      var k :| 0 <= k < |header| && header[k] == LongMatriculas;
      assert r[k] == MATRICULAS;
    }
    if MATRICULAS in r {
      var k :| 0 <= k < |r| && r[k] == MATRICULAS;
      assert header[k] == MATRICULAS || header[k] == LongMatriculas;
    }
    forall c | c != MATRICULAS && c != LongMatriculas
      ensures c in r <==> c in header
    {
      if c in header {
        var k :| 0 <= k < |header| && header[k] == c;
        assert r[k] == c;
      }
      if c in r {
        var k :| 0 <= k < |r| && r[k] == c;
        assert header[k] == c;
      }
    }
  }

  // ---------------------------------------------------------------------------
  // Column updates
  // ---------------------------------------------------------------------------

  /** `df[col] = f(df[col])` for the column at position `j`. */
  function MapColumn(rows: seq<seq<Value>>, j: nat, f: Value -> Value): (r: seq<seq<Value>>)
    requires forall i :: 0 <= i < |rows| ==> j < |rows[i]|
    ensures |r| == |rows|
    ensures forall i :: 0 <= i < |rows| ==> r[i] == rows[i][j := f(rows[i][j])]
  {
    if rows == [] then []
    else [rows[0][j := f(rows[0][j])]] + MapColumn(rows[1..], j, f)
  }

  function UpdateColumn(t: Table, c: string, f: Value -> Value): (r: Table)
    ensures r.header == t.header && |r.rows| == |t.rows|
    ensures c !in t.header ==> r == t
    ensures c in t.header ==> forall i :: 0 <= i < |t.rows| ==>
              r.rows[i] == t.rows[i][IndexOf(t.header, c) := f(t.rows[i][IndexOf(t.header, c)])]
  {
    if c in t.header then
      var rows := MapColumn(t.rows, IndexOf(t.header, c), f);
      Sheet(t.header, rows)
    else t
  }

  // ---------------------------------------------------------------------------
  // `df['GRE'].astype(str).str.replace('.0', '', regex=False)`
  // ---------------------------------------------------------------------------

  function GreText(v: Value): (r: Value)
    ensures r.Text?
  {
    Text(RemoveAll(Label(v), ".0"))
  }

  function NormalizeGre(t: Table): Table
  {
    UpdateColumn(t, GRE, GreText)
  }

  /** A GRE read as a float ("7.0") and one read as text ("7") agree once normalised. */
  lemma GreTextOfNumber(n: int)
    ensures GreText(Number(n)) == Text(IntToString(n))
    ensures GreText(Text(IntToString(n) + ".0")) == Text(IntToString(n))
  {
    IntToStringNoDot(n);
    RemoveDotZeroNoDot(IntToString(n));
    RemoveDotZeroOfFloatText(IntToString(n));
  }

  /** Every ".0" goes, not only a trailing one. */
  lemma GreTextRemovesEveryDotZero()
    ensures GreText(Text("7.0")) == Text("7")
    ensures GreText(Text("3.0.0")) == Text("3")
    ensures GreText(Text("1.05")) == Text("15")
  {
    assert RemoveAll("7.0", ".0") == "7" by {
      assert "7.0"[..2] != ".0";
      assert "7.0"[1..] == ".0";
      assert RemoveAll(".0", ".0") == RemoveAll("", ".0");
    }
    assert RemoveAll("3.0.0", ".0") == "3" by {
      assert "3.0.0"[..2] != ".0";
      assert "3.0.0"[1..] == ".0.0";
      assert ".0.0"[..2] == ".0" && ".0.0"[2..] == ".0";
      assert RemoveAll(".0", ".0") == RemoveAll("", ".0");
    }
    assert RemoveAll("1.05", ".0") == "15" by {
      assert "1.05"[..2] != ".0";
      assert "1.05"[1..] == ".05";
      assert ".05"[..2] == ".0" && ".05"[2..] == "5";
    }
  }

  lemma IntToStringNoDot(n: int)
    ensures forall k :: 0 <= k < |IntToString(n)| ==> IntToString(n)[k] != '.'
  {
    var s := IntToString(n);
    var d := if n < 0 then NatToString(-n) else NatToString(n);
    assert forall k :: 0 <= k < |d| ==> IsDigit(d[k]);
    forall k | 0 <= k < |s| ensures s[k] != '.' {
      if n < 0 && k > 0 {
        assert s[k] == d[k - 1];
      }
    }
  }

  // ---------------------------------------------------------------------------
  // `pd.to_numeric(errors='coerce')` on whole numbers
  // ---------------------------------------------------------------------------

  /** The number of leading decimal digits. */
  function DigitRun(s: string): (k: nat)
    ensures k <= |s| && AllDigits(s[..k])
    ensures k < |s| ==> !IsDigit(s[k])
  {
    if s == [] || !IsDigit(s[0]) then 0
    else
      var k := 1 + DigitRun(s[1..]);
      assert s[..k] == [s[0]] + s[1..][..k - 1];
      k
  }

  predicate AllZeros(s: string)
  {
    forall k :: 0 <= k < |s| ==> s[k] == '0'
  }

  /** Digits, optionally followed by '.' and zeros: the texts of whole numbers. */
  function ParseUnsigned(s: string): (r: Option<nat>)
    ensures r.Some? ==> |s| > 0 && IsDigit(s[0])
  {
    var k := DigitRun(s);
    if k == 0 then None
    else if k == |s| then Some(DigitsValue(s))
    else if s[k] == '.' && AllZeros(s[k + 1..]) then Some(DigitsValue(s[..k]))
    else None
  }

  /** A text read as a whole number, with an optional leading '-'. */
  function ParseCount(s: string): Option<int>
  {
    if |s| > 0 && s[0] == '-' then
      match ParseUnsigned(s[1..])
      case Some(n) => Some(0 - n as int)
      case None => None
    else match ParseUnsigned(s)
      case Some(n) => Some(n)
      case None => None
  }

  /** Reading back the text of a number gives the number. */
  lemma ParseCountOfIntToString(n: int)
    ensures ParseCount(IntToString(n)) == Some(n)
  {
    var m := if n < 0 then -n else n;
    var d := NatToString(m);
    assert DigitRun(d) == |d| by { DigitRunAllDigits(d); }
    assert d[..|d|] == d;
    DigitsValueOfNatToString(m);
    if n < 0 {
      assert IntToString(n)[1..] == d;
    } else {
      assert IsDigit(d[0]);
    }
  }

  /** The text of a number written as a float ("40.0") reads back as the number. */
  lemma ParseCountOfFloatText(n: int)
    ensures ParseCount(IntToString(n) + ".0") == Some(n)
  {
    var m := if n < 0 then -n else n;
    var d := NatToString(m);
    var t := d + ".0";
    assert t[..|d|] == d;
    DigitRunAllDigits(d);
    assert DigitRun(t) == |d| by { DigitRunPrefix(d, ".0"); }
    assert t[|d|..] == ".0";
    assert t[|d| + 1..] == t[|d|..][1..] == "0";
    DigitsValueOfNatToString(m);
    if n < 0 {
      assert (IntToString(n) + ".0")[1..] == t;
    } else {
      assert IsDigit(t[0]);
    }
  }

  lemma {:induction false} DigitRunAllDigits(s: string)
    requires AllDigits(s)
    ensures DigitRun(s) == |s|
  {
    if s != [] { DigitRunAllDigits(s[1..]); }
  }

  lemma {:induction false} DigitRunPrefix(d: string, rest: string)
    requires AllDigits(d) && |rest| > 0 && !IsDigit(rest[0])
    ensures DigitRun(d + rest) == |d|
  {
    if d == [] {
      assert d + rest == rest;
    } else {
      assert (d + rest)[1..] == d[1..] + rest;
      DigitRunPrefix(d[1..], rest);
    }
  }

  /** Texts that are not numbers become missing. */
  lemma ParseCountRejects()
    ensures ParseCount("") == None
    ensures ParseCount("abc") == None
    ensures ParseCount("-") == None
    ensures ParseCount("12.5") == None
  {
    assert DigitRun("abc") == 0;
    assert DigitRun("12.5") == 2 by {
      assert "12.5"[1..] == "2.5";
      assert "2.5"[1..] == ".5";
      assert DigitRun(".5") == 0;
    }
    assert "12.5"[3..] == "5";
    assert "5"[0] != '0';
  }

  function ToNumeric(v: Value): (r: Value)
    ensures r.Missing? || r.Number?
    ensures v.Number? ==> r == v
    ensures v.Missing? ==> r == Missing
    ensures v.Text? ==> (r == Missing <==> ParseCount(v.s).None?)
  {
    match v
    case Missing => Missing
    case Number(n) => Number(n)
    case Text(s) =>
      match ParseCount(s)
      case Some(n) => Number(n)
      case None => Missing
  }

  const NumericCols := [INSCRITOS, MATRICULAS]

  /** The conversion loop, one column after the other, as a function of the prefix done. */
  function CoerceAll(t: Table, cols: seq<string>): (r: Table)
    ensures r.header == t.header && |r.rows| == |t.rows|
    decreases |cols|
  {
    if cols == [] then t
    else UpdateColumn(CoerceAll(t, cols[..|cols| - 1]), cols[|cols| - 1], ToNumeric)
  }

  /** After the conversion loop no INSCRITOS or MATRICULAS cell is a text. */
  lemma CoercedColumns(t: Table, c: string)
    requires c in NumericCols && c in t.header
    ensures forall i :: 0 <= i < |t.rows| ==>
              var v := CoerceAll(t, NumericCols).rows[i][IndexOf(t.header, c)];
              v.Missing? || v.Number?
  {
    var t1 := CoerceAll(t, NumericCols[..1]);
    assert NumericCols[..2] == NumericCols;
    assert NumericCols[..1][..0] == [];
    var j := IndexOf(t.header, c);
    if c == INSCRITOS && MATRICULAS in t.header {
      assert IndexOf(t.header, MATRICULAS) != j;
    }
  }

  // ---------------------------------------------------------------------------
  // `df[df['MATRICULAS'] > 0]`, then `df[df['GRE'] != '0']`
  // ---------------------------------------------------------------------------

  predicate PositiveCount(v: Value)
  {
    v.Number? && v.n > 0
  }

  function KeepValid(t: Table): (r: Table)
    requires MATRICULAS in t.header
    ensures r.header == t.header
    ensures forall row :: row in r.rows <==>
              && row in t.rows
              && PositiveCount(row[IndexOf(t.header, MATRICULAS)])
              && (GRE in t.header ==> row[IndexOf(t.header, GRE)] != Text("0"))
  {
    var m := IndexOf(t.header, MATRICULAS);
    var t1 := Filter(t.rows, (row: seq<Value>) => |row| == |t.header| && PositiveCount(row[m]));
    if GRE in t.header then
      var g := IndexOf(t.header, GRE);
      var t2 := Filter(t1, (row: seq<Value>) => |row| == |t.header| && row[g] != Text("0"));
      assert forall i :: 0 <= i < |t2| ==> t2[i] in t.rows;
      Sheet(t.header, t2)
    else
      assert forall i :: 0 <= i < |t1| ==> t1[i] in t.rows;
      Sheet(t.header, t1)
  }

  /** The condition of the two row filters, for a row of the table's width. */
  predicate Kept(header: seq<string>, row: seq<Value>)
  {
    && |row| == |header| && MATRICULAS in header
    && PositiveCount(row[IndexOf(header, MATRICULAS)])
    && (GRE in header ==> row[IndexOf(header, GRE)] != Text("0"))
  }

  /** The two boolean masks keep every copy of a row that passes them, and no others. */
  lemma KeepValidKeepsEveryCopy(t: Table)
    requires MATRICULAS in t.header
    ensures forall row :: multiset(KeepValid(t).rows)[row] == if Kept(t.header, row) then multiset(t.rows)[row] else 0
  {
    var m := IndexOf(t.header, MATRICULAS);
    var t1 := Filter(t.rows, (row: seq<Value>) => |row| == |t.header| && PositiveCount(row[m]));
    FilterMultiplicity(t.rows, (row: seq<Value>) => |row| == |t.header| && PositiveCount(row[m]));
    if GRE in t.header {
      var g := IndexOf(t.header, GRE);
      FilterMultiplicity(t1, (row: seq<Value>) => |row| == |t.header| && row[g] != Text("0"));
    }
  }

  // ---------------------------------------------------------------------------
  // `df.fillna(0)`
  // ---------------------------------------------------------------------------

  function Fill(v: Value): (r: Value)
    ensures !r.Missing?
    ensures v.Missing? ==> r == Number(0)
    ensures !v.Missing? ==> r == v
  {
    if v.Missing? then Number(0) else v
  }

  function FillRow(row: seq<Value>): (r: seq<Value>)
    ensures |r| == |row|
    ensures forall k :: 0 <= k < |row| ==> r[k] == Fill(row[k])
  {
    if row == [] then [] else [Fill(row[0])] + FillRow(row[1..])
  }

  function FillRows(rows: seq<seq<Value>>): (r: seq<seq<Value>>)
    ensures |r| == |rows|
    ensures forall i :: 0 <= i < |rows| ==> r[i] == FillRow(rows[i])
  {
    if rows == [] then [] else [FillRow(rows[0])] + FillRows(rows[1..])
  }

  function FillMissing(t: Table): (r: Table)
    ensures r.header == t.header && |r.rows| == |t.rows|
    ensures forall i, k :: 0 <= i < |t.rows| && 0 <= k < |t.header| ==> r.rows[i][k] == Fill(t.rows[i][k])
  {
    Sheet(t.header, FillRows(t.rows))
  }

  // ---------------------------------------------------------------------------
  // The rate, the category, and the normalised frame
  // ---------------------------------------------------------------------------

  function NumberOf(v: Value): int
  {
    if v.Number? then v.n else 0
  }

  /** The text of a key column, or "" when the table has no such column. */
  function TextCell(header: seq<string>, row: seq<Value>, c: string): string
    requires |row| == |header|
  {
    if c in header then Label(row[IndexOf(header, c)]) else ""
  }

  /** A cleaned row: MATRICULAS holds a positive number. */
  predicate Countable(header: seq<string>, row: seq<Value>)
  {
    && |row| == |header| && MATRICULAS in header && INSCRITOS in header
    && PositiveCount(row[IndexOf(header, MATRICULAS)])
  }

  /**
   * One row of the frame: TAXA_EFICIENCIA is the clipped percentage of
   * INSCRITOS over MATRICULAS and CATEGORIA the `np.select` label of it.
   */
  function ToRow(header: seq<string>, row: seq<Value>): (r: Row)
    requires Countable(header, row)
    ensures r.enrolled == row[IndexOf(header, MATRICULAS)].n && r.enrolled > 0
    ensures r.registered == NumberOf(row[IndexOf(header, INSCRITOS)])
    ensures r.rate == Rate(r.registered, r.enrolled)
    ensures Categorized(r)
  {
    var enrolled := row[IndexOf(header, MATRICULAS)].n;
    var registered := NumberOf(row[IndexOf(header, INSCRITOS)]);
    var rate := Rate(registered, enrolled);
    Row(TextCell(header, row, GRE), TextCell(header, row, CIDADE), TextCell(header, row, ESCOLA),
        enrolled, registered, rate, SelectLabel(rate))
  }

  function ToRows(header: seq<string>, rows: seq<seq<Value>>): (r: seq<Row>)
    requires forall i :: 0 <= i < |rows| ==> Countable(header, rows[i])
    ensures |r| == |rows|
    ensures forall i :: 0 <= i < |rows| ==> r[i] == ToRow(header, rows[i])
    ensures ValidRows(r)
  {
    if rows == [] then [] else [ToRow(header, rows[0])] + ToRows(header, rows[1..])
  }

  /** The labels after the two new columns are assigned. */
  function FrameColumns(header: seq<string>): (cs: seq<string>)
    ensures TAXA in cs && CATEGORIA in cs
    ensures forall c :: c in header ==> c in cs
    ensures forall c :: c in cs ==> c in header || c == TAXA || c == CATEGORIA
  {
    var h1 := if TAXA in header then header else header + [TAXA];
    if CATEGORIA in h1 then h1 else h1 + [CATEGORIA]
  }

  // ---------------------------------------------------------------------------
  // The whole cleaning
  // ---------------------------------------------------------------------------

  /** The table just before the MATRICULAS filter. */
  function Normalized(raw: Table): Table
  {
    CoerceAll(NormalizeGre(RenameColumns(PromoteHeader(DropEmptyRows(raw)))), NumericCols)
  }

  /** Every row that survives the filter and the fill has a positive MATRICULAS. */
  lemma KeptCountable(t: Table)
    requires MATRICULAS in t.header && INSCRITOS in t.header
    ensures forall i :: 0 <= i < |FillMissing(KeepValid(t)).rows| ==>
              Countable(t.header, FillMissing(KeepValid(t)).rows[i])
  {
    var k := KeepValid(t);
    forall i | 0 <= i < |k.rows| ensures Countable(t.header, FillMissing(k).rows[i]) {
      assert k.rows[i] in k.rows;
    }
  }

  /** The frame built from the filled table: the two new columns and one row per table row. */
  function ToFrame(t: Table): (df: Frame)
    requires forall i :: 0 <= i < |t.rows| ==> Countable(t.header, t.rows[i])
    ensures df.columns == FrameColumns(t.header)
    ensures ValidRows(df.rows)
    ensures |df.rows| == |t.rows|
    ensures forall i :: 0 <= i < |t.rows| ==> df.rows[i] == ToRow(t.header, t.rows[i])
  {
    Frame(FrameColumns(t.header), ToRows(t.header, t.rows))
  }

  /**
   * Lines 44-97 of `load_data`. A KeyError (no MATRICULAS column at the row
   * filter, no INSCRITOS column at the rate) is an `Err`.
   */
  function Clean(raw: Table): (res: Result<Frame>)
    ensures res.Ok? <==> MATRICULAS in Normalized(raw).header && INSCRITOS in Normalized(raw).header
    ensures res.Ok? ==> ValidRows(res.value.rows)
    ensures res.Ok? ==> TAXA in res.value.columns && CATEGORIA in res.value.columns
  {
    var t := Normalized(raw);
    if MATRICULAS !in t.header then Err("KeyError: 'MATRICULAS'")
    else
      var kept := FillMissing(KeepValid(t));
      if INSCRITOS !in kept.header then Err("KeyError: 'INSCRITOS'")
      else
        KeptCountable(t);
        Ok(ToFrame(kept))
  }

  /**
   * `r` is the frame row for the cells `cells` under `header`: its key
   * columns are their text, MATRICULAS is positive, INSCRITOS is taken over,
   * and the rate and category are those of the two counts.
   */
  predicate LoadedFrom(header: seq<string>, cells: seq<Value>, r: Row)
  {
    && |cells| == |header| && MATRICULAS in header && INSCRITOS in header
    && r.gre == TextCell(header, cells, GRE)
    && r.city == TextCell(header, cells, CIDADE)
    && r.school == TextCell(header, cells, ESCOLA)
    && r.enrolled == NumberOf(cells[IndexOf(header, MATRICULAS)]) && r.enrolled > 0
    && r.registered == NumberOf(cells[IndexOf(header, INSCRITOS)])
    && r.rate == Rate(r.registered, r.enrolled)
    && r.category == Categorize(r.rate)
  }

  /**
   * What a successful load hands over: row `i` of the frame is built from
   * row `i` of the filtered, filled table, under the normalised header.
   */
  lemma CleanedRows(raw: Table)
    requires Clean(raw).Ok?
    ensures var t := Normalized(raw);
            var kept := FillMissing(KeepValid(t));
            var df := Clean(raw).value;
            && df.columns == FrameColumns(t.header)
            && |df.rows| == |kept.rows|
            && forall i :: 0 <= i < |df.rows| ==> LoadedFrom(t.header, kept.rows[i], df.rows[i])
  {
    var t := Normalized(raw);
    var kept := FillMissing(KeepValid(t));
    var df := Clean(raw).value;
    KeptCountable(t);
    forall i | 0 <= i < |df.rows| ensures LoadedFrom(t.header, kept.rows[i], df.rows[i]) {
      var r := df.rows[i];
      assert r == ToRow(t.header, kept.rows[i]);
    }
  }

  /** Every row of a loaded frame carries the rate and category of its own counts. */
  lemma CleanedRowsConsistent(raw: Table)
    requires Clean(raw).Ok?
    ensures forall row :: row in Clean(raw).value.rows ==>
              row.enrolled > 0 && row.rate == Rate(row.registered, row.enrolled) && row.category == Categorize(row.rate)
  {
    var rows := Clean(raw).value.rows;
    CleanedRows(raw);
    forall row | row in rows
      ensures row.enrolled > 0 && row.rate == Rate(row.registered, row.enrolled) && row.category == Categorize(row.rate)
    {
      var i :| 0 <= i < |rows| && rows[i] == row;
    }
  }

  /**
   * The cleaning as the source performs it: one table variable reassigned
   * stage by stage, and a loop over the numeric columns.
   */
  method CleanTable(raw: Table) returns (res: Result<Frame>)
    ensures res == Clean(raw)
  {
    var df := NormalizeTable(raw);
    if MATRICULAS !in df.header {
      return Err("KeyError: 'MATRICULAS'");
    }
    var before := df;
    df := KeepValid(df);
    df := FillMissing(df);
    if INSCRITOS !in df.header {
      return Err("KeyError: 'INSCRITOS'");
    }
    KeptCountable(before);
    res := Ok(ToFrame(df));
  }

  /** Lines 44-75 of `load_data`: the stages before the row filters, and the conversion loop. */
  method NormalizeTable(raw: Table) returns (df: Table)
    ensures df == Normalized(raw)
  {
    df := DropEmptyRows(raw);
    df := PromoteHeader(df);
    df := RenameColumns(df);
    df := NormalizeGre(df);
    var base := df;
    for i := 0 to |NumericCols|
      invariant df == CoerceAll(base, NumericCols[..i])
    {
      assert NumericCols[..i + 1][..i] == NumericCols[..i];
      df := UpdateColumn(df, NumericCols[i], ToNumeric);
    }
    assert NumericCols[..|NumericCols|] == NumericCols;
  }

  /** The conversion loop leaves every other column as it was. */
  lemma CoerceKeepsOtherColumns(t: Table, c: string)
    requires c in t.header && c !in NumericCols
    ensures forall i :: 0 <= i < |t.rows| ==>
              CoerceAll(t, NumericCols).rows[i][IndexOf(t.header, c)] == t.rows[i][IndexOf(t.header, c)]
  {
    var g := IndexOf(t.header, c);
    var t1 := UpdateColumn(t, INSCRITOS, ToNumeric);
    var t2 := UpdateColumn(t1, MATRICULAS, ToNumeric);
    assert NumericCols[..1][..0] == [];
    assert CoerceAll(t, NumericCols[..1]) == t1;
    assert NumericCols[..2] == NumericCols;
    assert CoerceAll(t, NumericCols) == t2;
    forall i | 0 <= i < |t.rows| ensures t2.rows[i][g] == t.rows[i][g] {
      if INSCRITOS in t.header {
        assert IndexOf(t.header, INSCRITOS) != g;
      }
      assert t1.rows[i][g] == t.rows[i][g];
      if MATRICULAS in t.header {
        assert IndexOf(t.header, MATRICULAS) != g;
      }
    }
  }

  /** After normalisation every GRE cell is a text. */
  lemma NormalizedGreIsText(raw: Table)
    requires GRE in Normalized(raw).header
    ensures forall i :: 0 <= i < |Normalized(raw).rows| ==>
              Normalized(raw).rows[i][IndexOf(Normalized(raw).header, GRE)].Text?
  {
    var t0 := NormalizeGre(RenameColumns(PromoteHeader(DropEmptyRows(raw))));
    assert Normalized(raw) == CoerceAll(t0, NumericCols);
    CoerceKeepsOtherColumns(t0, GRE);
  }

  /** The filter on GRE "0" shows in the frame once GRE cells are texts. */
  lemma KeptGreNotZero(t: Table)
    requires MATRICULAS in t.header && INSCRITOS in t.header && GRE in t.header
    requires forall i :: 0 <= i < |t.rows| ==> t.rows[i][IndexOf(t.header, GRE)].Text?
    ensures forall i :: 0 <= i < |FillMissing(KeepValid(t)).rows| ==>
              TextCell(t.header, FillMissing(KeepValid(t)).rows[i], GRE) != "0"
  {
    var k := KeepValid(t);
    var kept := FillMissing(k);
    var g := IndexOf(t.header, GRE);
    forall i | 0 <= i < |kept.rows| ensures TextCell(t.header, kept.rows[i], GRE) != "0" {
      assert k.rows[i] in k.rows;
      var j :| 0 <= j < |t.rows| && t.rows[j] == k.rows[i];
      assert kept.rows[i][g] == k.rows[i][g];
    }
  }

  /** No cleaned row has the GRE "0" when the table has a GRE column. */
  lemma CleanedGreNotZero(raw: Table)
    requires Clean(raw).Ok?
    requires GRE in Normalized(raw).header
    ensures forall row :: row in Clean(raw).value.rows ==> row.gre != "0"
  {
    var t := Normalized(raw);
    KeptCountable(t);
    var kept := FillMissing(KeepValid(t));
    assert Clean(raw) == Ok(ToFrame(kept));
    NormalizedGreIsText(raw);
    KeptGreNotZero(t);
    var rows := Clean(raw).value.rows;
    forall i | 0 <= i < |rows| ensures rows[i].gre != "0" {
      assert rows[i] == ToRow(t.header, kept.rows[i]);
    }
  }

  /** An unreadable INSCRITOS ends as 0; an unreadable MATRICULAS drops the row. */
  lemma UnreadableCounts()
    ensures Fill(ToNumeric(Text("abc"))) == Number(0)
    ensures Fill(ToNumeric(Missing)) == Number(0)
    ensures !PositiveCount(ToNumeric(Text("abc")))
    ensures ToNumeric(Text("40.0")) == Number(40)
  {
    ParseCountRejects();
    ParseCountOfFloatText(40);
    assert IntToString(40) + ".0" == "40.0";
  }

  // ---------------------------------------------------------------------------
  // Fallback
  // ---------------------------------------------------------------------------

  /** The table `load_data` returns for a fetch outcome and the fallback's draws. */
  function Loaded(fetch: Fetch, draws: seq<Draw>): Frame
    requires |draws| == SampleSize && forall k :: 0 <= k < |draws| ==> ValidDraw(draws[k])
  {
    if fetch.FetchFailed? then SampleTable(draws)
    else match Clean(fetch.table)
      case Ok(df) => df
      case Err(_) => SampleTable(draws)
  }

  /** Whatever happens, the dashboard receives a valid table. */
  lemma LoadedValid(fetch: Fetch, draws: seq<Draw>)
    requires |draws| == SampleSize && forall k :: 0 <= k < |draws| ==> ValidDraw(draws[k])
    ensures ValidRows(Loaded(fetch, draws).rows)
    ensures fetch.FetchFailed? ==> Loaded(fetch, draws) == SampleTable(draws)
    ensures fetch.Fetched? && Clean(fetch.table).Err? ==> Loaded(fetch, draws) == SampleTable(draws)
    ensures fetch.Fetched? && Clean(fetch.table).Ok? ==> Loaded(fetch, draws) == Clean(fetch.table).value
  {
    SampleTableFacts(draws);
  }

  /** `load_data`: clean the fetched table, or build the sample on any failure. */
  method LoadData(fetch: Fetch, draws: seq<Draw>) returns (df: Frame)
    requires |draws| == SampleSize && forall k :: 0 <= k < |draws| ==> ValidDraw(draws[k])
    ensures df == Loaded(fetch, draws)
  {
    if fetch.FetchFailed? {
      df := CreateSampleData(draws);
      return;
    }
    var cleaned := CleanTable(fetch.table);
    match cleaned
    case Ok(f) => df := f;
    case Err(_) => df := CreateSampleData(draws);
  }
}

=== FILE: metrics.dfy ===
/**
 * The values behind the metric cards, the summary card, the top-five list
 * and the priority list. Rendering is left out; each view is the data it
 * shows.
 */
module Metrics {
  import opened Common
  import opened Rows
  import opened Prepare

  // ---------------------------------------------------------------------------
  // `display_metric_cards`
  // ---------------------------------------------------------------------------

  /** `taxa_global`: Σ INSCRITOS / Σ MATRICULAS * 100, not clipped, and 0 when Σ MATRICULAS is not positive. */
  function GlobalRate(rows: seq<Row>): (r: real)
    ensures TotalEnrolled(rows) <= 0 ==> r == 0.0
    ensures TotalEnrolled(rows) > 0 ==>
              r * (TotalEnrolled(rows) as real) == 100.0 * (TotalRegistered(rows) as real)
  {
    var ins := TotalRegistered(rows);
    var mat := TotalEnrolled(rows);
    if mat > 0 then (ins as real) / (mat as real) * 100.0 else 0.0
  }

  /** Grouping does not change the global rate: it keeps both totals. */
  lemma GlobalRateOfGrouped(df: Frame, filtroGre: string, filtroCidade: string, displayOption: string)
    requires ValidRows(df.rows)
    requires HasColumnsFor(df, filtroGre, filtroCidade, displayOption)
    ensures var p := PrepareDataframe(df, filtroGre, filtroCidade, displayOption);
            GlobalRate(p.grouped.rows) == GlobalRate(p.filtered.rows)
  {
    GroupedTotals(df, filtroGre, filtroCidade, displayOption);
  }

  /** The title of the entity card. */
  function EntityTitle(columnName: string): string
  {
    if columnName == ESCOLA then "ESCOLAS"
    else if columnName == CIDADE then "CIDADES"
    else "GREs"
  }

  /** `len(df[column_name].unique())`. */
  function EntityCount(rows: seq<Row>, columnName: string): (n: nat)
    ensures n == |set k | k in Keys(rows, columnName)|
    ensures n <= |rows|
    ensures rows != [] ==> n >= 1
  {
    var ks := SortedDistinct(Keys(rows, columnName));
    StrictlySortedCardinality(ks);
    assert (set k | k in ks) == (set k | k in Keys(rows, columnName));
    assert rows != [] ==> Keys(rows, columnName)[0] in ks;
    |ks|
  }

  /** `excelentes`: the length of the "Excelente" rows. */
  function ExcellentCount(rows: seq<Row>): (n: nat)
    ensures n <= |rows|
    ensures n == |InCategory(rows, Excelente)|
  {
    |InCategory(rows, Excelente)|
  }

  /**
   * `excelentes` counts rows, not distinct rows: it is the number of
   * positions of the table whose CATEGORIA is "Excelente", it is 0 exactly
   * when no row is "Excelente", and it is the row count exactly when every
   * row is.
   */
  lemma ExcellentCountCountsRows(rows: seq<Row>)
    ensures ExcellentCount(rows) == |set i | 0 <= i < |rows| && rows[i].category == Excelente|
    ensures ExcellentCount(rows) == 0 <==> forall row :: row in rows ==> row.category != Excelente
    ensures ExcellentCount(rows) == |rows| <==> forall row :: row in rows ==> row.category == Excelente
  {
    InCategoryCount(rows, Excelente);
    InCategoryAll(rows, Excelente);
    if ExcellentCount(rows) != 0 {
      assert InCategory(rows, Excelente)[0] in InCategory(rows, Excelente);
    }
  }

  /** `pct_excelentes`: the share of "Excelente" rows, 0 for an empty table. */
  function ExcellentShare(rows: seq<Row>): (pct: real)
    ensures rows == [] ==> pct == 0.0
    ensures 0.0 <= pct <= 100.0
    ensures rows != [] ==> pct * (|rows| as real) == 100.0 * (ExcellentCount(rows) as real)
  {
    if |rows| > 0 then
      var n := |rows| as real;
      var e := ExcellentCount(rows) as real;
      ShareBounds(e, n);
      e / n * 100.0
    else 0.0
  }

  /** A part of a whole, as a percentage, lies in [0, 100]. */
  lemma ShareBounds(part: real, whole: real)
    requires 0.0 <= part <= whole && whole > 0.0
    ensures 0.0 <= part / whole * 100.0 <= 100.0
    ensures (part / whole * 100.0) * whole == 100.0 * part
  {
    assert part / whole <= 1.0;
  }

  /** The entity's name as the lists show it: "GRE " before a GRE. */
  function EntityName(columnName: string, row: Row): string
  {
    if columnName == GRE then "GRE " + Field(row, columnName) else Field(row, columnName)
  }

  /** The name as the cards show it: "GRE " before a GRE, then cut to 18 characters and "..." beyond 20. */
  function DisplayName(columnName: string, name: string): (r: string)
    ensures var full := if columnName == GRE then "GRE " + name else name;
            && (|full| <= 20 ==> r == full)
            && (|full| > 20 ==> |r| == 21 && r[..18] == full[..18] && r[18..] == "...")
  {
    var full := if columnName == GRE then "GRE " + name else name;
    if |full| > 20 then full[..18] + "..." else full
  }

  /** The best card: the highest rate and the first row that attains it (`idxmax`). */
  function Best(rows: seq<Row>): (best: Row)
    requires |rows| > 0
    ensures best in rows
    ensures forall row :: row in rows ==> row.rate <= best.rate
    ensures exists i :: 0 <= i < |rows| && rows[i] == best
                        && forall j :: 0 <= j < i ==> rows[j].rate < best.rate
  {
    var i := BestIndex(rows, RateOf, true);
    assert forall j :: 0 <= j < |rows| ==> RateOf(rows[j]) <= RateOf(rows[i]);
    rows[i]
  }

  /**
   * What the best card shows: the maximum rate and the display name of its
   * entity. `None` is the `ValueError` that `idxmax` raises on an empty table,
   * after the first three cards are drawn.
   */
  function BestCard(rows: seq<Row>, columnName: string): (card: Option<(real, string)>)
    ensures rows == [] <==> card.None?
    ensures card.Some? ==> forall row :: row in rows ==> row.rate <= card.value.0
    ensures card.Some? ==> exists i :: 0 <= i < |rows| && rows[i].rate == card.value.0
                                       && card.value.1 == DisplayName(columnName, Field(rows[i], columnName))
                                       && forall j :: 0 <= j < i ==> rows[j].rate < rows[i].rate
  {
    if |rows| == 0 then None
    else
      var best := Best(rows);
      Some((best.rate, DisplayName(columnName, Field(best, columnName))))
  }

  // ---------------------------------------------------------------------------
  // `display_summary_card`
  // ---------------------------------------------------------------------------

  /** The mean rate; `None` is NaN, the mean of an empty table. */
  function MeanRate(rows: seq<Row>): (m: Option<real>)
    ensures rows == [] <==> m.None?
    ensures m.Some? ==> m.value * (|rows| as real) == TotalRate(rows)
  {
    if |rows| > 0 then Some(TotalRate(rows) / (|rows| as real)) else None
  }

  /** A mean of rates in [0, 100] lies in [0, 100]. */
  lemma MeanRateBounds(rows: seq<Row>)
    requires forall row :: row in rows ==> 0.0 <= row.rate <= 100.0
    requires rows != []
    ensures 0.0 <= MeanRate(rows).value <= 100.0
  {
    TotalRateBounds(rows);
    var n := |rows| as real;
    var m := MeanRate(rows).value;
    var total := TotalRate(rows);
    RatioThreshold(m, n, total, 0.0);
    assert (-m) * n == -total;
    RatioThreshold(-m, n, -total, -100.0);
  }

  datatype Status = StatusExcelente | StatusMedio | Preocupante

  /** The status by the mean; NaN fails both comparisons. */
  function SummaryStatus(rows: seq<Row>): (s: Status)
    ensures rows == [] ==> s == Preocupante
    ensures rows != [] ==>
              && (s == StatusExcelente <==> Categorize(MeanRate(rows).value) == Excelente)
              && (s == StatusMedio <==> Categorize(MeanRate(rows).value) == Medio)
              && (s == Preocupante <==> Categorize(MeanRate(rows).value) == Baixo)
  {
    match MeanRate(rows)
    case None => Preocupante
    case Some(m) =>
      if m >= 85.0 then StatusExcelente
      else if m >= 50.0 then StatusMedio
      else Preocupante
  }

  // ---------------------------------------------------------------------------
  // `display_top_performers`
  // ---------------------------------------------------------------------------

  /** One line of a ranking. */
  datatype Entry = Entry(rank: nat, name: string, row: Row)

  function RankFrom(rows: seq<Row>, columnName: string, first: nat): (es: seq<Entry>)
    ensures |es| == |rows|
    ensures forall i :: 0 <= i < |rows| ==>
              es[i] == Entry(first + i, EntityName(columnName, rows[i]), rows[i])
  {
    if rows == [] then []
    else
      [Entry(first, EntityName(columnName, rows[0]), rows[0])] + RankFrom(rows[1..], columnName, first + 1)
  }

  /**
   * `None` is the "not enough data" message of an empty table; otherwise the
   * `min(5, n)` rows of highest rate, highest first, ranked from 1; of rows
   * with equal rate, the first ones of the table, in table order.
   */
  function TopPerformers(rows: seq<Row>, columnName: string): (top: Option<seq<Entry>>)
    ensures rows == [] <==> top.None?
    ensures top.Some? ==>
              var es := top.value;
              && |es| == Min(5, |rows|)
              && (forall i :: 0 <= i < |es| ==> es[i].rank == i + 1 && es[i].row in rows)
              && (forall i, j :: 0 <= i < j < |es| ==> es[i].row.rate >= es[j].row.rate)
              && (forall i, row :: 0 <= i < |es| && row in rows && row !in EntryRows(es) ==> row.rate <= es[i].row.rate)
              && multiset(EntryRows(es)) <= multiset(rows)
              && (forall k :: WithKey(EntryRows(es), RateOf, k) <= WithKey(rows, RateOf, k))
  {
    if |rows| == 0 then None
    else
      var best := TopN(rows, RateOf, 5);
      SubMultisetMembers(rows, best);
      var es := RankFrom(best, columnName, 1);
      assert EntryRows(es) == best;
      Some(es)
  }

  function EntryRow(e: Entry): Row { e.row }

  /** The rows of the listed entries, in order. */
  function EntryRows(es: seq<Entry>): seq<Row>
  {
    Project(es, EntryRow)
  }

  // ---------------------------------------------------------------------------
  // `display_priority_attention`
  // ---------------------------------------------------------------------------

  /** Rows of the priority list: CATEGORIA "Baixo" and more than 50 enrolled. */
  predicate LowPerformer(row: Row)
  {
    row.category == Baixo && row.enrolled > 50
  }

  /** `int((50 - taxa) / 100 * MATRICULAS)`: the enrollments short of a 50% rate. */
  function PotentialGain(row: Row): int
  {
    Truncate((50.0 - row.rate) / 100.0 * (row.enrolled as real))
  }

  /** For a row below 50% the gain lies between 0 and half its enrollment. */
  lemma PotentialGainBounds(row: Row)
    requires 0.0 <= row.rate < 50.0 && row.enrolled > 0
    ensures 0 <= PotentialGain(row)
    ensures 2 * PotentialGain(row) <= row.enrolled
  {
    var g := (50.0 - row.rate) / 100.0;
    var e := row.enrolled as real;
    assert 0.0 < g <= 0.5;
    assert 0.0 <= g * e <= 0.5 * e by {
      assert g * e - 0.5 * e == (g - 0.5) * e;
      assert (g - 0.5) * e <= 0.0 by { NonPositiveTimesPositive(g - 0.5, e); }
    }
    TruncateBounds(g * e);
  }

  lemma NonPositiveTimesPositive(a: real, b: real)
    requires a <= 0.0 && b > 0.0
    ensures a * b <= 0.0
  {
  }

  datatype PriorityItem = PriorityItem(name: string, row: Row, gain: int)

  datatype PriorityView = NoData | NoneQualify | Listed(items: seq<PriorityItem>)

  function PriorityItems(rows: seq<Row>, columnName: string): (items: seq<PriorityItem>)
    ensures |items| == |rows|
    ensures forall i :: 0 <= i < |rows| ==>
              && items[i].row == rows[i]
              && items[i].gain == PotentialGain(rows[i])
              && items[i].name == EntityName(columnName, rows[i])
  {
    if rows == [] then []
    else
      [PriorityItem(EntityName(columnName, rows[0]), rows[0], PotentialGain(rows[0]))] + PriorityItems(rows[1..], columnName)
  }

  /**
   * The priority list: nothing for an empty table, a message when no row is
   * a low performer, else the `min(5, n)` low performers of largest
   * enrollment, largest first: none left out has a larger enrollment than
   * one listed, and of rows with equal enrollment the first ones of the
   * table are listed, in table order.
   */
  function PriorityAttention(rows: seq<Row>, columnName: string): (v: PriorityView)
    ensures rows == [] <==> v == NoData
    ensures v == NoneQualify <==> rows != [] && forall row :: row in rows ==> !LowPerformer(row)
    ensures v.Listed? ==>
              && |v.items| == Min(5, |Filter(rows, LowPerformer)|)
              && (forall i :: 0 <= i < |v.items| ==> v.items[i].row in rows && LowPerformer(v.items[i].row))
              && (forall i, j :: 0 <= i < j < |v.items| ==> v.items[i].row.enrolled >= v.items[j].row.enrolled)
              && (forall i, row :: 0 <= i < |v.items| && row in rows && LowPerformer(row) && row !in ItemRows(v.items) ==>
                    row.enrolled <= v.items[i].row.enrolled)
              && multiset(ItemRows(v.items)) <= multiset(Filter(rows, LowPerformer))
              && (forall k :: WithKey(ItemRows(v.items), EnrolledOf, k) <= WithKey(Filter(rows, LowPerformer), EnrolledOf, k))
  {
    if |rows| == 0 then NoData
    else
      var low := Filter(rows, LowPerformer);
      if low == [] then
        assert forall row :: row in rows ==> !LowPerformer(row);
        NoneQualify
      else
        var top := TopN(low, EnrolledOf, 5);
        var items := PriorityItems(top, columnName);
        PriorityListed(rows, low, top, items);
        Listed(items)
  }

  function ItemRow(item: PriorityItem): Row { item.row }

  /** The rows of the listed items, in order. */
  function ItemRows(items: seq<PriorityItem>): seq<Row>
  {
    Project(items, ItemRow)
  }

  lemma PriorityListed(rows: seq<Row>, low: seq<Row>, top: seq<Row>, items: seq<PriorityItem>)
    requires forall row :: row in low <==> row in rows && LowPerformer(row)
    requires multiset(top) <= multiset(low) && SortedBy(top, EnrolledOf, true)
    requires forall x, y :: x in low && x !in top && y in top ==> EnrolledOf(y) >= EnrolledOf(x)
    requires forall k :: WithKey(top, EnrolledOf, k) <= WithKey(low, EnrolledOf, k)
    requires |items| == |top| && forall i :: 0 <= i < |top| ==> items[i].row == top[i]
    ensures forall i :: 0 <= i < |items| ==> items[i].row in rows && LowPerformer(items[i].row)
    ensures forall i, j :: 0 <= i < j < |items| ==> items[i].row.enrolled >= items[j].row.enrolled
    ensures forall i, row :: 0 <= i < |items| && row in rows && LowPerformer(row) && row !in ItemRows(items) ==>
              row.enrolled <= items[i].row.enrolled
    ensures multiset(ItemRows(items)) <= multiset(low)
    ensures forall k :: WithKey(ItemRows(items), EnrolledOf, k) <= WithKey(low, EnrolledOf, k)
  {
    assert ItemRows(items) == top;
    forall i, row | 0 <= i < |items| && row in rows && LowPerformer(row) && row !in ItemRows(items)
      ensures row.enrolled <= items[i].row.enrolled
    {
      assert row in low && top[i] in top;
      assert EnrolledOf(top[i]) >= EnrolledOf(row);
    }
    SubMultisetMembers(low, top);
    forall i, j | 0 <= i < j < |items| ensures items[i].row.enrolled >= items[j].row.enrolled {
      assert Precedes(top[i], top[j], EnrolledOf, true);
    }
  }

  /** Every listed row of a valid table is below 50% and has a gain in [0, MATRICULAS / 2]. */
  lemma PriorityGains(rows: seq<Row>, columnName: string)
    requires ValidRows(rows)
    ensures var v := PriorityAttention(rows, columnName);
            v.Listed? ==> forall i :: 0 <= i < |v.items| ==>
              && v.items[i].row.rate < 50.0
              && 0 <= v.items[i].gain && 2 * v.items[i].gain <= v.items[i].row.enrolled
  {
    var v := PriorityAttention(rows, columnName);
    if v.Listed? {
      forall i | 0 <= i < |v.items|
        ensures v.items[i].row.rate < 50.0
        ensures 0 <= v.items[i].gain && 2 * v.items[i].gain <= v.items[i].row.enrolled
      {
        var row := v.items[i].row;
        assert row in rows;
        CategorizeBands(row.rate);
        PotentialGainBounds(row);
        PriorityGain(rows, columnName, i);
      }
    }
  }

  /** Each listed item carries the gain of its own row (a step of `PriorityGains`). */
  lemma PriorityGain(rows: seq<Row>, columnName: string, i: nat)
    requires PriorityAttention(rows, columnName).Listed?
    requires i < |PriorityAttention(rows, columnName).items|
    ensures PriorityAttention(rows, columnName).items[i].gain
            == PotentialGain(PriorityAttention(rows, columnName).items[i].row)
  {
  }
}

=== FILE: prepare.dfy ===
/**
 * `prepare_dataframe`: the GRE filter, the city filter of the school view,
 * and the aggregation of the city and GRE views, which sums INSCRITOS and
 * MATRICULAS per key and recomputes the rate from the sums.
 */
module Prepare {
  import opened Common
  import opened Rows

  const ESCOLAS := "Escolas"
  const CIDADES := "Cidades"

  /** The three results: `filtered_df`, `grouped_df` and `column_name`. */
  datatype Prepared = Prepared(filtered: Frame, grouped: Frame, columnName: string)

  /**
   * The columns each branch indexes: GRE for a GRE filter, CIDADE for a city
   * filter or the city view, GRE for the GRE view, TAXA_EFICIENCIA for the
   * school view and the two counts for the grouped views. A missing one
   * raises KeyError in the source.
   */
  predicate HasColumnsFor(df: Frame, filtroGre: string, filtroCidade: string, displayOption: string)
  {
    && (filtroGre != TODAS ==> GRE in df.columns)
    && (displayOption == ESCOLAS && filtroCidade != TODAS ==> CIDADE in df.columns)
    && (displayOption == ESCOLAS ==> TAXA in df.columns)
    && (displayOption != ESCOLAS ==>
          GroupColumn(displayOption) in df.columns && INSCRITOS in df.columns && MATRICULAS in df.columns)
  }

  /** `column_name`: ESCOLA, CIDADE, and GRE for every other option. */
  function GroupColumn(displayOption: string): (c: string)
    ensures displayOption == ESCOLAS ==> c == ESCOLA
    ensures displayOption == CIDADES ==> c == CIDADE
    ensures displayOption != ESCOLAS && displayOption != CIDADES ==> c == GRE
  {
    if displayOption == ESCOLAS then ESCOLA
    else if displayOption == CIDADES then CIDADE
    else GRE
  }

  /** The rows that pass both filters, in their original order. */
  function FilterRows(rows: seq<Row>, filtroGre: string, filtroCidade: string, displayOption: string): seq<Row>
  {
    var byGre := if filtroGre != TODAS then Members(rows, GRE, filtroGre) else rows;
    if displayOption == ESCOLAS && filtroCidade != TODAS then Members(byGre, CIDADE, filtroCidade)
    else byGre
  }

  /** A row with its CATEGORIA recomputed from its rate by `np.select`. */
  function Recategorize(row: Row): (r: Row)
    ensures Categorized(r) <==> 0.0 <= row.rate <= 100.0
    ensures Categorized(row) ==> r == row
  {
    row.(category := SelectLabel(row.rate))
  }

  function RecategorizeAll(rows: seq<Row>): (r: seq<Row>)
    ensures |r| == |rows|
    ensures forall i :: 0 <= i < |rows| ==> r[i] == Recategorize(rows[i])
  {
    if rows == [] then [] else [Recategorize(rows[0])] + RecategorizeAll(rows[1..])
  }

  /** The row of a city or a GRE: the key in its own column, the two sums, the rate of the sums. */
  function GroupRow(column: string, key: string, registered: int, enrolled: int): (r: Row)
    requires enrolled > 0
    ensures Field(r, column) == key || column !in {GRE, CIDADE}
    ensures r.registered == registered && r.enrolled == enrolled
    ensures r.rate == Rate(registered, enrolled)
    ensures Categorized(r)
  {
    var rate := Rate(registered, enrolled);
    Row(if column == GRE then key else "", if column == CIDADE then key else "", "",
        enrolled, registered, rate, SelectLabel(rate))
  }

  /** `groupby(column).agg({'INSCRITOS': 'sum', 'MATRICULAS': 'sum'})` for one key. */
  function Aggregate(rows: seq<Row>, column: string, key: string): (r: Row)
    requires ValidRows(rows)
    requires key in Keys(rows, column)
    ensures r.registered == TotalRegistered(Members(rows, column, key))
    ensures r.enrolled == TotalEnrolled(Members(rows, column, key))
    ensures r.enrolled > 0
  {
    var ms := Members(rows, column, key);
    var k :| 0 <= k < |rows| && Field(rows[k], column) == key;
    assert rows[k] in ms;
    TotalEnrolledPositive(ms);
    GroupRow(column, key, TotalRegistered(ms), TotalEnrolled(ms))
  }

  /** One aggregated row per key, in the order of `keys`. */
  function GroupRows(rows: seq<Row>, column: string, keys: seq<string>): (r: seq<Row>)
    requires ValidRows(rows)
    requires forall k :: k in keys ==> k in Keys(rows, column)
    ensures |r| == |keys|
    ensures forall i :: 0 <= i < |keys| ==> r[i] == Aggregate(rows, column, keys[i])
  {
    if keys == [] then [] else [Aggregate(rows, column, keys[0])] + GroupRows(rows, column, keys[1..])
  }

  /** The keys in the order `groupby` sorts them: ascending and without repeats. */
  function GroupKeys(rows: seq<Row>, column: string): (ks: seq<string>)
    ensures StrictlySorted(ks)
    ensures forall k :: k in ks <==> k in Keys(rows, column)
  {
    SortedDistinct(Keys(rows, column))
  }

  /** `prepare_dataframe`. */
  function PrepareDataframe(df: Frame, filtroGre: string, filtroCidade: string, displayOption: string): (p: Prepared)
    requires ValidRows(df.rows)
    requires HasColumnsFor(df, filtroGre, filtroCidade, displayOption)
    ensures p.columnName == GroupColumn(displayOption)
    ensures p.filtered.columns == df.columns
    ensures forall row :: row in p.filtered.rows <==>
              && row in df.rows
              && (filtroGre == TODAS || row.gre == filtroGre)
              && (displayOption != ESCOLAS || filtroCidade == TODAS || row.city == filtroCidade)
    ensures ValidRows(p.filtered.rows) && ValidRows(p.grouped.rows)
  {
    var filtered := FilterRows(df.rows, filtroGre, filtroCidade, displayOption);
    var column := GroupColumn(displayOption);
    if displayOption == ESCOLAS then
      Prepared(Frame(df.columns, filtered), Frame(df.columns, RecategorizeAll(filtered)), column)
    else
      var grouped := GroupRows(filtered, column, GroupKeys(filtered, column));
      Prepared(Frame(df.columns, filtered),
               Frame([column, INSCRITOS, MATRICULAS, TAXA, CATEGORIA], grouped), column)
  }

  // ---------------------------------------------------------------------------
  // Properties
  // ---------------------------------------------------------------------------

  /** With "Todas" and no active city filter, `filtered_df` is the whole table, in order. */
  lemma FilterAllKeepsEverything(df: Frame, filtroCidade: string, displayOption: string)
    requires ValidRows(df.rows)
    requires HasColumnsFor(df, TODAS, filtroCidade, displayOption)
    requires displayOption != ESCOLAS || filtroCidade == TODAS
    ensures PrepareDataframe(df, TODAS, filtroCidade, displayOption).filtered == df
  {
  }

  /**
   * `filtered_df` keeps every copy of each input row that passes the filters
   * and no copy of any other row: as a multiset it is exactly the passing
   * rows of the input.
   */
  lemma FilteredKeepsEveryCopy(df: Frame, filtroGre: string, filtroCidade: string, displayOption: string)
    requires ValidRows(df.rows)
    requires HasColumnsFor(df, filtroGre, filtroCidade, displayOption)
    ensures var p := PrepareDataframe(df, filtroGre, filtroCidade, displayOption);
            forall row :: multiset(p.filtered.rows)[row] ==
                          if (filtroGre == TODAS || row.gre == filtroGre)
                             && (displayOption != ESCOLAS || filtroCidade == TODAS || row.city == filtroCidade)
                          then multiset(df.rows)[row] else 0
  {
    var byGre := if filtroGre != TODAS then Members(df.rows, GRE, filtroGre) else df.rows;
    MembersMultiplicity(df.rows, GRE, filtroGre);
    MembersMultiplicity(byGre, CIDADE, filtroCidade);
  }

  /** Outside the school view the city filter is ignored. */
  lemma CityFilterIgnored(df: Frame, filtroGre: string, c1: string, c2: string, displayOption: string)
    requires ValidRows(df.rows)
    requires displayOption != ESCOLAS
    requires HasColumnsFor(df, filtroGre, c1, displayOption)
    ensures HasColumnsFor(df, filtroGre, c2, displayOption)
    ensures PrepareDataframe(df, filtroGre, c1, displayOption) == PrepareDataframe(df, filtroGre, c2, displayOption)
  {
  }

  /** In the school view `grouped_df` has the same rows as `filtered_df`. */
  lemma SchoolsGroupedIsFiltered(df: Frame, filtroGre: string, filtroCidade: string)
    requires ValidRows(df.rows)
    requires HasColumnsFor(df, filtroGre, filtroCidade, ESCOLAS)
    ensures var p := PrepareDataframe(df, filtroGre, filtroCidade, ESCOLAS);
            p.grouped == p.filtered
  {
    var p := PrepareDataframe(df, filtroGre, filtroCidade, ESCOLAS);
    var filtered := p.filtered.rows;
    assert forall i :: 0 <= i < |filtered| ==> filtered[i] in filtered;
  }

  /**
   * In the city and GRE views there is exactly one grouped row per distinct
   * key of `filtered_df`, the keys ascending, and each row carries the sums
   * of its key's rows and the clipped rate of those sums.
   */
  lemma GroupedOnePerKey(df: Frame, filtroGre: string, filtroCidade: string, displayOption: string)
    requires ValidRows(df.rows)
    requires displayOption != ESCOLAS
    requires HasColumnsFor(df, filtroGre, filtroCidade, displayOption)
    ensures var p := PrepareDataframe(df, filtroGre, filtroCidade, displayOption);
            var column := p.columnName;
            && StrictlySorted(Keys(p.grouped.rows, column))
            && (forall k :: k in Keys(p.grouped.rows, column) <==> k in Keys(p.filtered.rows, column))
            && (forall i :: 0 <= i < |p.grouped.rows| ==>
                  var ms := Members(p.filtered.rows, column, Field(p.grouped.rows[i], column));
                  && p.grouped.rows[i].registered == TotalRegistered(ms)
                  && p.grouped.rows[i].enrolled == TotalEnrolled(ms)
                  && p.grouped.rows[i].rate == Rate(TotalRegistered(ms), TotalEnrolled(ms))
                  && Categorized(p.grouped.rows[i]))
  {
    var p := PrepareDataframe(df, filtroGre, filtroCidade, displayOption);
    var column := p.columnName;
    var keys := GroupKeys(p.filtered.rows, column);
    assert Keys(p.grouped.rows, column) == keys;
  }

  /** Grouping preserves the totals of INSCRITOS and MATRICULAS. */
  lemma GroupedTotals(df: Frame, filtroGre: string, filtroCidade: string, displayOption: string)
    requires ValidRows(df.rows)
    requires HasColumnsFor(df, filtroGre, filtroCidade, displayOption)
    ensures var p := PrepareDataframe(df, filtroGre, filtroCidade, displayOption);
            && TotalEnrolled(p.grouped.rows) == TotalEnrolled(p.filtered.rows)
            && TotalRegistered(p.grouped.rows) == TotalRegistered(p.filtered.rows)
  {
    var p := PrepareDataframe(df, filtroGre, filtroCidade, displayOption);
    if displayOption == ESCOLAS {
      SchoolsGroupedIsFiltered(df, filtroGre, filtroCidade);
    } else {
      var rows := p.filtered.rows;
      var column := p.columnName;
      var keys := GroupKeys(rows, column);
      StrictlySortedDistinct(keys);
      forall c: Count ensures Total(p.grouped.rows, c) == Total(rows, c) {
        GroupRowsTotal(rows, column, keys, c);
        KeyTotalCovers(rows, column, keys, c);
      }
    }
  }

  // ---------------------------------------------------------------------------
  // Sums over keys
  // ---------------------------------------------------------------------------

  predicate Distinct(keys: seq<string>)
  {
    forall i, j :: 0 <= i < j < |keys| ==> keys[i] != keys[j]
  }

  lemma StrictlySortedDistinct(keys: seq<string>)
    requires StrictlySorted(keys)
    ensures Distinct(keys)
  {
    forall i, j | 0 <= i < j < |keys| ensures keys[i] != keys[j] {
      LexLessIrreflexive(keys[i]);
    }
  }

  /** Σ over `keys` of the per-key sum of a count. */
  function KeyTotal(rows: seq<Row>, column: string, keys: seq<string>, c: Count): int
  {
    if keys == [] then 0
    else Total(Members(rows, column, keys[0]), c) + KeyTotal(rows, column, keys[1..], c)
  }

  lemma {:induction false} GroupRowsTotal(rows: seq<Row>, column: string, keys: seq<string>, c: Count)
    requires ValidRows(rows)
    requires forall k :: k in keys ==> k in Keys(rows, column)
    ensures Total(GroupRows(rows, column, keys), c) == KeyTotal(rows, column, keys, c)
  {
    if keys != [] {
      var g := GroupRows(rows, column, keys);
      assert g[1..] == GroupRows(rows, column, keys[1..]);
      GroupRowsTotal(rows, column, keys[1..], c);
    }
  }

  lemma {:induction false} KeyTotalOfEmpty(column: string, keys: seq<string>, c: Count)
    ensures KeyTotal([], column, keys, c) == 0
  {
    if keys != [] { KeyTotalOfEmpty(column, keys[1..], c); }
  }

  /** Adding a row adds its count once, under the key it belongs to. */
  lemma {:induction false} KeyTotalCons(r: Row, rest: seq<Row>, column: string, keys: seq<string>, c: Count)
    requires Distinct(keys)
    ensures KeyTotal([r] + rest, column, keys, c)
            == (if Field(r, column) in keys then CountOf(r, c) else 0) + KeyTotal(rest, column, keys, c)
  {
    if keys != [] {
      var rows := [r] + rest;
      assert rows[1..] == rest;
      var m := Members(rows, column, keys[0]);
      assert m == (if Field(r, column) == keys[0] then [r] else []) + Members(rest, column, keys[0]);
      TotalAppend(if Field(r, column) == keys[0] then [r] else [], Members(rest, column, keys[0]), c);
      assert Distinct(keys[1..]);
      KeyTotalCons(r, rest, column, keys[1..], c);
      if Field(r, column) == keys[0] {
        assert Field(r, column) !in keys[1..];
      }
    }
  }

  lemma {:induction false} TotalAppend(a: seq<Row>, b: seq<Row>, c: Count)
    ensures Total(a + b, c) == Total(a, c) + Total(b, c)
  {
    if a == [] {
      assert a + b == b;
    } else {
      assert (a + b)[1..] == a[1..] + b;
      TotalAppend(a[1..], b, c);
    }
  }

  /** Summing per key over keys that cover every row, each once, gives the total. */
  lemma {:induction false} KeyTotalCovers(rows: seq<Row>, column: string, keys: seq<string>, c: Count)
    requires Distinct(keys)
    requires forall k :: k in Keys(rows, column) ==> k in keys
    ensures KeyTotal(rows, column, keys, c) == Total(rows, c)
  {
    if rows == [] {
      KeyTotalOfEmpty(column, keys, c);
    } else {
      KeysOfTail(rows, column);
      KeyTotalCovers(rows[1..], column, keys, c);
      assert rows == [rows[0]] + rows[1..];
      KeyTotalCons(rows[0], rows[1..], column, keys, c);
    }
  }

  /** The keys of a non-empty table are its first row's key and the keys of the rest. */
  lemma KeysOfTail(rows: seq<Row>, column: string)
    requires rows != []
    ensures Keys(rows, column) == [Field(rows[0], column)] + Keys(rows[1..], column)
  {
  }
}

=== FILE: rows.dfy ===
/**
 * The normalised table every view consumes: one `Row` per school (or per
 * grouped city / GRE), the efficiency rate and its three-way category.
 *
 * The category rule appears three times in the source: as the if-chain of
 * `calculate_efficiency_category` (utils.py) and as two identical `np.select`
 * blocks (utils.py and data_loader.py). `Categorize` models the first and
 * `SelectLabel` the other two; `SelectLabel`'s contract says they agree.
 */
module Rows {
  import opened Common

  /** CATEGORIA values; `NotAvailable` is the "N/A" default of `np.select`. */
  datatype Category = Excelente | Medio | Baixo | NotAvailable

  function CategoryLabel(c: Category): string
  {
    match c
    case Excelente => "Excelente"
    case Medio => "Médio"
    case Baixo => "Baixo"
    case NotAvailable => "N/A"
  }

  /**
   * One row. `gre`, `city`, `school` are the GRE, CIDADE and ESCOLA cells as
   * text; `enrolled` is MATRICULAS, `registered` INSCRITOS, `rate`
   * TAXA_EFICIENCIA (a percentage) and `category` CATEGORIA.
   */
  datatype Row = Row(gre: string, city: string, school: string,
                     enrolled: int, registered: int, rate: real, category: Category)

  /** A table: its column labels, in order, and its rows. */
  datatype Frame = Frame(columns: seq<string>, rows: seq<Row>)

  const GRE := "GRE"
  const CIDADE := "CIDADE"
  const ESCOLA := "ESCOLA"
  const MATRICULAS := "MATRICULAS"
  const INSCRITOS := "INSCRITOS"
  const TAXA := "TAXA_EFICIENCIA"
  const CATEGORIA := "CATEGORIA"
  const TODAS := "Todas"

  /** `Series.clip(0, 100)`. */
  function Clip(x: real): real
  {
    if x < 0.0 then 0.0 else if x > 100.0 then 100.0 else x
  }

  /** `(INSCRITOS / MATRICULAS * 100).clip(0, 100)` for a positive enrollment. */
  function Rate(registered: int, enrolled: int): (r: real)
    requires enrolled > 0
    ensures 0.0 <= r <= 100.0
    ensures 0 <= registered <= enrolled ==> r * (enrolled as real) == 100.0 * (registered as real)
    ensures registered >= enrolled ==> r == 100.0
    ensures registered <= 0 ==> r == 0.0
  {
    var x := (registered as real) / (enrolled as real) * 100.0;
    assert registered >= enrolled ==> x >= 100.0 by {
      if registered >= enrolled {
        assert (registered as real) / (enrolled as real) >= 1.0;
      }
    }
    assert registered <= 0 ==> x <= 0.0;
    Clip(x)
  }

  /** `calculate_efficiency_category`: the if-chain on the rate. */
  function Categorize(rate: real): (c: Category)
    ensures c != NotAvailable
  {
    if rate >= 85.0 then Excelente
    else if rate >= 50.0 then Medio
    else Baixo
  }

  /** The three bands as intervals: closed below, open above. */
  lemma CategorizeBands(rate: real)
    ensures Categorize(rate) == Excelente <==> rate >= 85.0
    ensures Categorize(rate) == Medio <==> 50.0 <= rate < 85.0
    ensures Categorize(rate) == Baixo <==> rate < 50.0
  {
  }

  /**
   * The `np.select` labelling with default "N/A". Its three conditions cover
   * every rate, so the default never fires and the labelling is the
   * if-chain's.
   */
  function SelectLabel(rate: real): (c: Category)
    ensures c == Categorize(rate)
    ensures c != NotAvailable
  {
    if rate < 50.0 then Baixo
    else if rate >= 50.0 && rate < 85.0 then Medio
    else if rate >= 85.0 then Excelente
    else NotAvailable
  }

  /**
   * The category of a computed rate read off the counts without division:
   * "Excelente" exactly when 100 * INSCRITOS >= 85 * MATRICULAS, "Baixo"
   * exactly when 100 * INSCRITOS < 50 * MATRICULAS.
   */
  lemma CategoryFromCounts(registered: int, enrolled: int)
    requires enrolled > 0
    ensures Categorize(Rate(registered, enrolled)) == Excelente
            <==> 100 * registered >= 85 * enrolled
    ensures Categorize(Rate(registered, enrolled)) == Baixo
            <==> 100 * registered < 50 * enrolled
  {
    var r := Rate(registered, enrolled);
    var e := enrolled as real;
    if registered <= 0 {
      assert r == 0.0;
    } else if registered >= enrolled {
      assert r == 100.0;
    } else {
      var n := 100.0 * (registered as real);
      assert r * e == n;
      RatioThreshold(r, e, n, 85.0);
      RatioThreshold(r, e, n, 50.0);
      assert (100 * registered) as real == n;
      assert (85 * enrolled) as real == 85.0 * e;
      assert (50 * enrolled) as real == 50.0 * e;
    }
  }

  /** For a positive `e`, `r >= t` exactly when `r * e >= t * e`. */
  lemma RatioThreshold(r: real, e: real, n: real, t: real)
    requires e > 0.0 && r * e == n
    ensures r >= t <==> n >= t * e
  {
    assert n - t * e == (r - t) * e;
    if r >= t {
      assert (r - t) * e >= 0.0;
    } else {
      assert (r - t) * e < 0.0;
    }
  }

  /** A row whose category is the one its rate falls into. */
  predicate Categorized(row: Row)
  {
    0.0 <= row.rate <= 100.0 && row.category == Categorize(row.rate)
  }

  /** The invariant of every table the loader hands to the views. */
  predicate ValidRows(rows: seq<Row>)
  {
    forall row :: row in rows ==> row.enrolled > 0 && Categorized(row)
  }

  /** The cell of a key column as text: GRE, CIDADE, and ESCOLA otherwise. */
  function Field(row: Row, column: string): string
  {
    if column == GRE then row.gre
    else if column == CIDADE then row.city
    else row.school
  }

  /** The key column's cells, row by row. */
  function Keys(rows: seq<Row>, column: string): (ks: seq<string>)
    ensures |ks| == |rows|
    ensures forall i :: 0 <= i < |rows| ==> ks[i] == Field(rows[i], column)
  {
    if rows == [] then [] else [Field(rows[0], column)] + Keys(rows[1..], column)
  }

  /** The two count columns, MATRICULAS and INSCRITOS. */
  datatype Count = Enrolled | Registered

  function CountOf(row: Row, c: Count): int
  {
    match c
    case Enrolled => row.enrolled
    case Registered => row.registered
  }

  /** The column sum `df[c].sum()`. */
  function Total(rows: seq<Row>, c: Count): int
  {
    if rows == [] then 0 else CountOf(rows[0], c) + Total(rows[1..], c)
  }

  /** Σ MATRICULAS. */
  function TotalEnrolled(rows: seq<Row>): int
  {
    Total(rows, Enrolled)
  }

  /** Σ INSCRITOS. */
  function TotalRegistered(rows: seq<Row>): int
  {
    Total(rows, Registered)
  }

  /** Σ TAXA_EFICIENCIA. */
  function TotalRate(rows: seq<Row>): real
  {
    if rows == [] then 0.0 else rows[0].rate + TotalRate(rows[1..])
  }

  lemma {:induction false} TotalEnrolledPositive(rows: seq<Row>)
    requires forall row :: row in rows ==> row.enrolled > 0
    ensures TotalEnrolled(rows) >= 0
    ensures rows != [] ==> TotalEnrolled(rows) > 0
  {
    if rows != [] { TotalEnrolledPositive(rows[1..]); }
  }

  lemma {:induction false} TotalRateBounds(rows: seq<Row>)
    requires forall row :: row in rows ==> 0.0 <= row.rate <= 100.0
    ensures 0.0 <= TotalRate(rows) <= 100.0 * (|rows| as real)
  {
    if rows != [] { TotalRateBounds(rows[1..]); }
  }

  /** Field accessors used as sort keys. */
  function RateOf(row: Row): real { row.rate }
  function EnrolledOf(row: Row): real { row.enrolled as real }
  function RegisteredOf(row: Row): real { row.registered as real }

  /** The rows whose key column holds `key`, in their original order. */
  function Members(rows: seq<Row>, column: string, key: string): (r: seq<Row>)
    ensures |r| <= |rows|
    ensures forall row :: row in r <==> row in rows && Field(row, column) == key
  {
    if rows == [] then []
    else (if Field(rows[0], column) == key then [rows[0]] else []) + Members(rows[1..], column, key)
  }

  /** Rows of a given category, in their original order. */
  function InCategory(rows: seq<Row>, c: Category): (r: seq<Row>)
    ensures |r| <= |rows|
    ensures forall row :: row in r <==> row in rows && row.category == c
  {
    if rows == [] then []
    else (if rows[0].category == c then [rows[0]] else []) + InCategory(rows[1..], c)
  }

  lemma {:induction false} MembersIsFilter(rows: seq<Row>, column: string, key: string)
    ensures Members(rows, column, key) == Filter(rows, (row: Row) => Field(row, column) == key)
  {
    if rows != [] { MembersIsFilter(rows[1..], column, key); }
  }

  lemma {:induction false} InCategoryIsFilter(rows: seq<Row>, c: Category)
    ensures InCategory(rows, c) == Filter(rows, (row: Row) => row.category == c)
  {
    if rows != [] { InCategoryIsFilter(rows[1..], c); }
  }

  /** `df[df[column] == key]` keeps every copy of a matching row and no other row. */
  lemma MembersMultiplicity(rows: seq<Row>, column: string, key: string)
    ensures forall row :: multiset(Members(rows, column, key))[row] ==
                          if Field(row, column) == key then multiset(rows)[row] else 0
  {
    MembersIsFilter(rows, column, key);
    FilterMultiplicity(rows, (row: Row) => Field(row, column) == key);
  }

  /** `df[df['CATEGORIA'] == c]` keeps every copy of a row of category `c` and no other row. */
  lemma InCategoryMultiplicity(rows: seq<Row>, c: Category)
    ensures forall row :: multiset(InCategory(rows, c))[row] == if row.category == c then multiset(rows)[row] else 0
  {
    InCategoryIsFilter(rows, c);
    FilterMultiplicity(rows, (row: Row) => row.category == c);
  }

  /** `len(df[df['CATEGORIA'] == c])` is the number of positions of the table holding category `c`. */
  lemma InCategoryCount(rows: seq<Row>, c: Category)
    ensures |InCategory(rows, c)| == |set i | 0 <= i < |rows| && rows[i].category == c|
  {
    InCategoryIsFilter(rows, c);
    FilterCountsPositions(rows, (row: Row) => row.category == c);
    assert Positions(rows, (row: Row) => row.category == c) == set i | 0 <= i < |rows| && rows[i].category == c;
  }

  /** Every row is kept exactly when every row has category `c`. */
  lemma {:induction false} InCategoryAll(rows: seq<Row>, c: Category)
    ensures |InCategory(rows, c)| == |rows| <==> forall row :: row in rows ==> row.category == c
  {
    if rows != [] {
      InCategoryAll(rows[1..], c);
      assert forall row :: row in rows <==> row == rows[0] || row in rows[1..];
    }
  }

  /** Python's `int(x)`: truncation toward zero. */
  function Truncate(x: real): int
  {
    if x >= 0.0 then x.Floor else -((-x).Floor)
  }

  /** `int(x)` is the integer part of `x`, taken toward zero. */
  lemma TruncateBounds(x: real)
    ensures x >= 0.0 ==> 0 <= Truncate(x) && (Truncate(x) as real) <= x < (Truncate(x) as real) + 1.0
    ensures x <= 0.0 ==> Truncate(x) <= 0 && (Truncate(x) as real) - 1.0 < x <= (Truncate(x) as real)
  {
  }

  /** `round(1)` on an exact rate: to the nearest tenth, halves upward. */
  function Round1(x: real): (r: real)
    ensures x - 0.05 < r <= x + 0.05
    ensures (r * 10.0).Floor as real == r * 10.0
  {
    ((x * 10.0 + 0.5).Floor as real) / 10.0
  }

  /** Rounding to a tenth keeps the order of rates (ties may appear). */
  lemma Round1Monotonic(x: real, y: real)
    requires x <= y
    ensures Round1(x) <= Round1(y)
  {
    assert (x * 10.0 + 0.5).Floor <= (y * 10.0 + 0.5).Floor;
  }

  /** Rounding keeps a rate within [0, 100]. */
  lemma Round1Bounds(x: real)
    requires 0.0 <= x <= 100.0
    ensures 0.0 <= Round1(x) <= 100.0
  {
    assert 0 <= (x * 10.0 + 0.5).Floor <= 1000;
  }
}

=== FILE: sample.dfy ===
/**
 * `create_sample_data`: the synthetic table the dashboard falls back to when
 * the spreadsheet cannot be read. numpy's random draws are inputs here, one
 * `Draw` per school, each within the range numpy guarantees.
 */
module Sample {
  import opened Common
  import opened Rows

  const SampleSize: nat := 150

  /** `[f"{i}" for i in range(1, 17)]`; see `GresAreOneToSixteen`. */
  const Gres: seq<string> := ["1", "2", "3", "4", "5", "6", "7", "8", "9", "10",
                              "11", "12", "13", "14", "15", "16"]

  const Cities: seq<string> := [
    "Recife", "Olinda", "Jaboatão", "Paulista", "Caruaru", "Petrolina",
    "Garanhuns", "Vitória", "Cabo", "Serra Talhada", "Salgueiro",
    "Araripina", "Goiana", "Bezerros", "Gravatá", "Carpina"
  ]

  /** The GRE codes are the decimal texts of 1 .. 16. */
  lemma GresAreOneToSixteen()
    ensures |Gres| == 16
    ensures forall i :: 0 <= i < 16 ==> Gres[i] == NatToString(i + 1)
  {
    assert NatToString(10) == "10" && NatToString(11) == "11" && NatToString(12) == "12";
    assert NatToString(13) == "13" && NatToString(14) == "14" && NatToString(15) == "15";
    assert NatToString(16) == "16";
  }

  const SampleColumns := [GRE, CIDADE, ESCOLA, MATRICULAS, INSCRITOS, TAXA, CATEGORIA]

  /**
   * The draws for one school: `np.random.choice(gres)` and
   * `np.random.choice(cidades)` as indices, `np.random.randint(30, 300)`,
   * `np.random.choice([1, 2, 3], ...)` as `band` and `np.random.random()`
   * as `u`.
   */
  datatype Draw = Draw(greIndex: int, cityIndex: int, enrolled: int, band: int, u: real)

  /** What numpy guarantees of each draw. */
  predicate ValidDraw(d: Draw)
  {
    && 0 <= d.greIndex < |Gres|
    && 0 <= d.cityIndex < |Cities|
    && 30 <= d.enrolled < 300
    && 1 <= d.band <= 3
    && 0.0 <= d.u < 1.0
  }

  /** The rate drawn inside the band: 3 is Excelente, 2 Médio, 1 Baixo. */
  function BandRate(band: int, u: real): real
  {
    if band == 3 then 85.0 + u * 15.0
    else if band == 2 then 50.0 + u * 35.0
    else 10.0 + u * 40.0
  }

  function BandCategory(band: int): Category
  {
    if band == 3 then Excelente else if band == 2 then Medio else Baixo
  }

  /** `int(matriculas * (taxa / 100))`. */
  function Inscritos(matriculas: int, taxa: real): int
  {
    Truncate((matriculas as real) * (taxa / 100.0))
  }

  /** The `i`-th school (counting from 1) built from its draws. */
  function SampleRow(i: nat, d: Draw): Row
    requires ValidDraw(d)
  {
    var taxa := BandRate(d.band, d.u);
    Row(Gres[d.greIndex], Cities[d.cityIndex], "Escola Estadual " + NatToString(i),
        d.enrolled, Inscritos(d.enrolled, taxa), taxa,
        BandCategory(d.band))
  }

  /** `e * x` lies in [0, e) when `x` lies in [0, 1). */
  lemma FractionBelow(e: real, x: real)
    requires e > 0.0 && 0.0 <= x < 1.0
    ensures 0.0 <= e * x < e
  {
    assert e - e * x == e * (1.0 - x);
    assert e * (1.0 - x) > 0.0;
  }

  /** Each band's rate lies in the band and falls in the band's category. */
  lemma BandFacts(band: int, u: real)
    requires 1 <= band <= 3 && 0.0 <= u < 1.0
    ensures band == 3 ==> 85.0 <= BandRate(band, u) < 100.0
    ensures band == 2 ==> 50.0 <= BandRate(band, u) < 85.0
    ensures band == 1 ==> 10.0 <= BandRate(band, u) < 50.0
    ensures Categorize(BandRate(band, u)) == BandCategory(band)
  {
    if band == 3 {
      assert 0.0 <= u * 15.0 < 15.0;
    } else if band == 2 {
      assert 0.0 <= u * 35.0 < 35.0;
    } else {
      assert 0.0 <= u * 40.0 < 40.0;
    }
  }

  /** `int(matriculas * (taxa / 100))` lies in [0, matriculas] for a rate below 100. */
  lemma RegisteredWithinEnrolled(enrolled: int, taxa: real)
    requires enrolled > 0 && 0.0 <= taxa < 100.0
    ensures 0 <= Inscritos(enrolled, taxa) <= enrolled
  {
    var e := enrolled as real;
    var x := taxa / 100.0;
    FractionBelow(e, x);
    TruncateBelow(e * x, enrolled);
  }

  /** The integer part of a value in [0, n) lies in [0, n]. */
  lemma TruncateBelow(y: real, n: int)
    requires 0.0 <= y < n as real
    ensures 0 <= Truncate(y) <= n
  {
    TruncateBounds(y);
  }

  /** What the fallback table promises of each of its rows. */
  predicate SampleShaped(row: Row)
  {
    && row.enrolled > 0 && Categorized(row)
    && row.gre in Gres && row.city in Cities
    && 30 <= row.enrolled < 300
    && 0 <= row.registered <= row.enrolled
  }

  /**
   * Every synthetic school is a valid row: its band's rate lies in the band
   * and gives the band's category, and 0 <= INSCRITOS <= MATRICULAS.
   */
  lemma SampleRowFacts(i: nat, d: Draw)
    requires ValidDraw(d)
    ensures var row := SampleRow(i, d);
      && row.school == "Escola Estadual " + NatToString(i)
      && row.gre in Gres && row.city in Cities
      && 30 <= row.enrolled < 300
      && 0 <= row.registered <= row.enrolled
      && (d.band == 3 ==> 85.0 <= row.rate < 100.0)
      && (d.band == 2 ==> 50.0 <= row.rate < 85.0)
      && (d.band == 1 ==> 10.0 <= row.rate < 50.0)
      && row.category == Categorize(row.rate)
      && Categorized(row)
      && SampleShaped(row)
  {
    BandFacts(d.band, d.u);
    RegisteredWithinEnrolled(d.enrolled, BandRate(d.band, d.u));
  }


  /** The if-chain on the band: the rate drawn inside it and `int(matriculas * (taxa / 100))`. */
  method DrawRate(band: int, u: real, matriculas: int) returns (taxa: real, inscritos: int)
    requires 1 <= band <= 3 && 0.0 <= u < 1.0
    ensures taxa == BandRate(band, u)
    ensures inscritos == Inscritos(matriculas, BandRate(band, u))
  {
    if band == 3 {
      taxa := 85.0 + u * 15.0;
      inscritos := Inscritos(matriculas, taxa);
    } else if band == 2 {
      taxa := 50.0 + u * 35.0;
      inscritos := Inscritos(matriculas, taxa);
    } else {
      taxa := 10.0 + u * 40.0;
      inscritos := Inscritos(matriculas, taxa);
    }
  }

  /** One iteration of the loop in `create_sample_data`: the `i`-th school. */
  method MakeSchool(i: nat, d: Draw) returns (row: Row)
    requires ValidDraw(d)
    ensures row == SampleRow(i, d)
    ensures SampleShaped(row)
  {
    var taxa, inscritos := DrawRate(d.band, d.u, d.enrolled);
    row := Row(Gres[d.greIndex], Cities[d.cityIndex], "Escola Estadual " + NatToString(i),
               d.enrolled, inscritos, taxa, BandCategory(d.band));
    SampleRowFacts(i, d);
  }

  /** The schools built from `draws`, the `i`-th (from 0) named "Escola Estadual i+1". */
  function SampleRows(draws: seq<Draw>): (rows: seq<Row>)
    requires forall k :: 0 <= k < |draws| ==> ValidDraw(draws[k])
    ensures |rows| == |draws|
    ensures forall k :: 0 <= k < |draws| ==> rows[k] == SampleRow(k + 1, draws[k])
  {
    if draws == [] then []
    else SampleRows(draws[..|draws| - 1]) + [SampleRow(|draws|, draws[|draws| - 1])]
  }

  /** The fallback table for a given set of draws. */
  function SampleTable(draws: seq<Draw>): Frame
    requires forall k :: 0 <= k < |draws| ==> ValidDraw(draws[k])
  {
    Frame(SampleColumns, SampleRows(draws))
  }

  /**
   * The fallback table has the seven columns, one row per draw, and every row
   * is a valid school of the promised shape.
   */
  lemma SampleTableFacts(draws: seq<Draw>)
    requires forall k :: 0 <= k < |draws| ==> ValidDraw(draws[k])
    ensures SampleTable(draws).columns == [GRE, CIDADE, ESCOLA, MATRICULAS, INSCRITOS, TAXA, CATEGORIA]
    ensures |SampleTable(draws).rows| == |draws|
    ensures forall k :: 0 <= k < |draws| ==>
              SampleTable(draws).rows[k].school == "Escola Estadual " + NatToString(k + 1)
    ensures ValidRows(SampleTable(draws).rows)
    ensures forall row :: row in SampleTable(draws).rows ==> SampleShaped(row)
  {
    var rows := SampleTable(draws).rows;
    forall k | 0 <= k < |draws|
      ensures SampleShaped(rows[k])
      ensures rows[k].school == "Escola Estadual " + NatToString(k + 1)
    {
      SampleRowFacts(k + 1, draws[k]);
    }
  }

  /**
   * `create_sample_data`: 150 schools "Escola Estadual 1" .. "Escola Estadual
   * 150", appended one per loop iteration.
   */
  method CreateSampleData(draws: seq<Draw>) returns (df: Frame)
    requires |draws| == SampleSize
    requires forall k :: 0 <= k < |draws| ==> ValidDraw(draws[k])
    ensures df == SampleTable(draws)
    ensures |df.rows| == SampleSize
  {
    var data: seq<Row> := [];
    for i := 1 to SampleSize + 1
      invariant data == SampleRows(draws[..i - 1])
    {
      var row := MakeSchool(i, draws[i - 1]);
      assert draws[..i][..i - 1] == draws[..i - 1];
      data := data + [row];
    }
    assert draws[..SampleSize] == draws;
    df := Frame(SampleColumns, data);
  }
}

=== FILE: sidebar.dfy ===
/**
 * `create_sidebar`: the option lists of the GRE and city filters, the value
 * of `filtro_cidade` outside the school view, and the download copy of the
 * table. The widgets are inputs: the option the user picks is a parameter
 * that must be one of the options offered.
 */
module Sidebar {
  import opened Common
  import opened Rows
  import opened Prepare

  /** The views the radio offers. */
  const DisplayOptions: seq<string> := [ESCOLAS, CIDADES, "GREs"]

  /** The options of "Filtrar por GRE": "Todas", then the distinct GREs in ascending order. */
  function GreOptions(rows: seq<Row>): (opts: seq<string>)
    ensures |opts| >= 1 && opts[0] == TODAS
    ensures StrictlySorted(opts[1..])
    ensures forall g :: g in opts[1..] <==> exists row :: row in rows && row.gre == g
  {
    var gres := SortedDistinct(Keys(rows, GRE));
    KeysOccur(rows, GRE);
    assert ([TODAS] + gres)[1..] == gres;
    [TODAS] + gres
  }

  /** A key occurs in a column exactly when some row holds it there. */
  lemma KeysOccur(rows: seq<Row>, column: string)
    ensures forall k :: k in Keys(rows, column) <==> exists row :: row in rows && Field(row, column) == k
  {
    forall k ensures k in Keys(rows, column) <==> exists row :: row in rows && Field(row, column) == k {
      if k in Keys(rows, column) {
        var i :| 0 <= i < |rows| && Keys(rows, column)[i] == k;
        assert rows[i] in rows;
      }
      if exists row :: row in rows && Field(row, column) == k {
        var row :| row in rows && Field(row, column) == k;
        var i :| 0 <= i < |rows| && rows[i] == row;
        assert Keys(rows, column)[i] == k;
      }
    }
  }

  /** `temp_df`: the rows of the chosen GRE, or all rows for "Todas". */
  function RowsOfGre(rows: seq<Row>, filtroGre: string): (r: seq<Row>)
    ensures filtroGre == TODAS ==> r == rows
    ensures filtroGre != TODAS ==> forall row :: row in r <==> row in rows && row.gre == filtroGre
  {
    if filtroGre != TODAS then Members(rows, GRE, filtroGre) else rows
  }

  /**
   * The options of "Filtrar por Cidade": only in the school view, "Todas"
   * then the distinct cities of the chosen GRE's rows in ascending order.
   */
  function CityOptions(rows: seq<Row>, filtroGre: string, displayOption: string): (opts: Option<seq<string>>)
    ensures opts.Some? <==> displayOption == ESCOLAS
    ensures opts.Some? ==>
              && |opts.value| >= 1 && opts.value[0] == TODAS
              && StrictlySorted(opts.value[1..])
              && forall c :: c in opts.value[1..] <==>
                   exists row :: row in RowsOfGre(rows, filtroGre) && row.city == c
  {
    if displayOption == ESCOLAS then
      var temp := RowsOfGre(rows, filtroGre);
      var cities := SortedDistinct(Keys(temp, CIDADE));
      KeysOccur(temp, CIDADE);
      assert ([TODAS] + cities)[1..] == cities;
      Some([TODAS] + cities)
    else None
  }

  /** The filters the sidebar returns. */
  datatype Filters = Filters(displayOption: string, filtroGre: string, filtroCidade: string)

  /**
   * The sidebar's result for the user's picks: `filtro_cidade` is the picked
   * city in the school view and "Todas" in every other view.
   */
  function CreateSidebar(df: Frame, displayOption: string, pickedGre: string, pickedCity: string): (f: Filters)
    requires GRE in df.columns && (displayOption == ESCOLAS ==> CIDADE in df.columns)
    requires displayOption in DisplayOptions
    requires pickedGre in GreOptions(df.rows)
    requires displayOption == ESCOLAS ==> pickedCity in CityOptions(df.rows, pickedGre, displayOption).value
    ensures f.displayOption == displayOption && f.filtroGre == pickedGre
    ensures displayOption != ESCOLAS ==> f.filtroCidade == TODAS
    ensures displayOption == ESCOLAS ==> f.filtroCidade == pickedCity
  {
    var filtroCidade := if displayOption == ESCOLAS then pickedCity else TODAS;
    Filters(displayOption, pickedGre, filtroCidade)
  }

  /**
   * Picking from the offered lists never filters the table down to nothing
   * unless a filter is "Todas": a picked GRE has rows, and a picked city has
   * rows within the picked GRE.
   */
  lemma PickedFiltersKeepRows(df: Frame, displayOption: string, pickedGre: string, pickedCity: string)
    requires GRE in df.columns && (displayOption == ESCOLAS ==> CIDADE in df.columns)
    requires displayOption in DisplayOptions
    requires pickedGre in GreOptions(df.rows)
    requires displayOption == ESCOLAS ==> pickedCity in CityOptions(df.rows, pickedGre, displayOption).value
    ensures var f := CreateSidebar(df, displayOption, pickedGre, pickedCity);
            (f.filtroGre != TODAS || f.filtroCidade != TODAS) ==>
              FilterRows(df.rows, f.filtroGre, f.filtroCidade, f.displayOption) != []
  {
    var f := CreateSidebar(df, displayOption, pickedGre, pickedCity);
    var rows := df.rows;
    var opts := GreOptions(rows);
    var byGre := RowsOfGre(rows, pickedGre);
    if pickedGre != TODAS {
      var k :| 0 <= k < |opts| && opts[k] == pickedGre;
      assert k != 0;
      assert pickedGre in opts[1..];
      var row :| row in rows && row.gre == pickedGre;
      assert row in byGre;
    }
    if displayOption == ESCOLAS && pickedCity != TODAS {
      var copts := CityOptions(rows, pickedGre, displayOption).value;
      var k :| 0 <= k < |copts| && copts[k] == pickedCity;
      assert k != 0;
      assert pickedCity in copts[1..];
      var row :| row in byGre && row.city == pickedCity;
      assert row in Members(byGre, CIDADE, pickedCity);
    }
  }

  /**
   * The filters the sidebar returns carry every column `prepare_dataframe`
   * indexes, given a table with the loader's columns.
   */
  lemma SidebarFiltersAreUsable(df: Frame, displayOption: string, pickedGre: string, pickedCity: string)
    requires forall c :: c in [GRE, CIDADE, ESCOLA, MATRICULAS, INSCRITOS, TAXA] ==> c in df.columns
    requires displayOption in DisplayOptions
    requires pickedGre in GreOptions(df.rows)
    requires displayOption == ESCOLAS ==> pickedCity in CityOptions(df.rows, pickedGre, displayOption).value
    ensures var f := CreateSidebar(df, displayOption, pickedGre, pickedCity);
            HasColumnsFor(df, f.filtroGre, f.filtroCidade, f.displayOption)
  {
    assert GRE in [GRE, CIDADE, ESCOLA, MATRICULAS, INSCRITOS, TAXA];
    assert CIDADE in [GRE, CIDADE, ESCOLA, MATRICULAS, INSCRITOS, TAXA];
    assert ESCOLA in [GRE, CIDADE, ESCOLA, MATRICULAS, INSCRITOS, TAXA];
    assert MATRICULAS in [GRE, CIDADE, ESCOLA, MATRICULAS, INSCRITOS, TAXA];
    assert INSCRITOS in [GRE, CIDADE, ESCOLA, MATRICULAS, INSCRITOS, TAXA];
    assert TAXA in [GRE, CIDADE, ESCOLA, MATRICULAS, INSCRITOS, TAXA];
  }

  // ---------------------------------------------------------------------------
  // The download copy
  // ---------------------------------------------------------------------------

  /** `download_df`: a copy of the table with TAXA_EFICIENCIA rounded to a tenth; nothing else changes. */
  function DownloadRows(rows: seq<Row>): (r: seq<Row>)
    ensures |r| == |rows|
    ensures forall i :: 0 <= i < |rows| ==> r[i] == rows[i].(rate := Round1(rows[i].rate))
  {
    if rows == [] then [] else [rows[0].(rate := Round1(rows[0].rate))] + DownloadRows(rows[1..])
  }

  function Download(df: Frame): (d: Frame)
    ensures d.columns == df.columns
    ensures d.rows == DownloadRows(df.rows)
  {
    Frame(df.columns, DownloadRows(df.rows))
  }

  /** The rounded rates stay within [0, 100] and stay within a twentieth of the exact rate. */
  lemma DownloadRatesBounded(rows: seq<Row>)
    requires ValidRows(rows)
    ensures forall i :: 0 <= i < |rows| ==>
              && 0.0 <= DownloadRows(rows)[i].rate <= 100.0
              && rows[i].rate - 0.05 < DownloadRows(rows)[i].rate <= rows[i].rate + 0.05
  {
    forall i | 0 <= i < |rows|
      ensures 0.0 <= DownloadRows(rows)[i].rate <= 100.0
    {
      assert rows[i] in rows;
      Round1Bounds(rows[i].rate);
    }
  }

  /**
   * The copy keeps CATEGORIA as computed from the exact rate, so a rounded
   * rate can sit on the other side of a threshold: 84.96% is "Médio" and is
   * written as 85.0.
   */
  lemma DownloadCanCrossThreshold()
    ensures var row := Row("1", "Recife", "Escola Estadual 1", 2500, 2124, 84.96, Medio);
            && Categorized(row)
            && DownloadRows([row])[0].rate == 85.0
            && DownloadRows([row])[0].category == Medio
            && Categorize(DownloadRows([row])[0].rate) == Excelente
  {
    var row := Row("1", "Recife", "Escola Estadual 1", 2500, 2124, 84.96, Medio);
    assert (84.96 * 10.0 + 0.5).Floor == 850;
  }
}
